=== FILE: README.md ===
# stockshark core in Dafny

A model of the sequential logic at the heart of stockshark, an A-share stock
research service. The model covers six parts:

- **Supply-chain knowledge base and matcher.** The knowledge base is four companies, each with aliases and ordered direct-supplier, indirect-supplier and customer edges. The matcher:
  - builds the alias index;
  - scores confidence from mention counts;
  - recognises companies in a scenario text;
  - falls back to keyword suggestions when nothing is recognised;
  - builds the per-company supply-chain report with listed/unlisted partition and market-data enrichment;
  - looks up a company by name;
  - searches suppliers by keyword.
- **Record shaping and rule scoring.** This is the merge of the three per-stock dictionaries, the banded investment score and rating, the risk-flag count and level, and the supply-chain row classifier.
- **Keyed tables and the cache-aside service.**
  - The `stock_basic_info` table is keyed on symbol; the `stock_daily_trade` table on (symbol, trade date). Both use upsert semantics, history queries and latest-date queries.
  - Four service lookups consult the table first, then the market-data source, and write source answers back.
- **Crawler orchestration.**
  - The market rule.
  - The concept-board scan.
  - Date normalisation.
  - The offset/limit window.
  - The success/failure counters of the bulk crawls.
  - The set difference of the incremental crawl.
- **Search engine and stock analyser.**
  - Search: range filters with Python's comparison errors, `field:order` sorting, board searches, theme merge-with-dedup, and code-or-name search.
  - Analysis: score gating per stock, batch analysis, board windowing, and the industry summary with its top-five list.
- **Request validators.** The symbol, date-range and pagination checks.

Dynamic Python values are the `Values.Value` datatype (number, boolean, string, `None`). A dictionary is a `map<string, Value>`. Confidence is kept in integer tenths. Dates are the integers `YYYYMMDD`, so their order is the calendar order. Market data, the clock and save outcomes are function or boolean parameters. Every call to the market-data source is counted in an ordinary field of the answer. Exceptions that change what a caller sees are `Failure` values: a `TypeError` from comparing a string with a number, an `AttributeError` on `None`, and a `KeyError`.

Shared helpers live in `Wrappers` (Option/Result), `Seqs` (filter, Python slicing, distinctness), `Text` (ASCII lower-casing, substring search, occurrence counts, strip, split, join), `Ordering` (a total order on sort keys and a stable sort) and `Dates` (a strict `YYYY-MM-DD` reading and formatting).

## Model

| member | source | states |
|---|---|---|
| SupplyChainKb.LookupAlias | stockshark/analysis/supply_chain_analyzer.py:433-445 | a key is in the alias index iff it is a name or alias of some company; the company is the last one in knowledge-base order listing it, since later entries overwrite earlier ones |
| SupplyChainKb.CompanyById | stockshark/analysis/supply_chain_analyzer.py:32-431 | a lookup by id succeeds iff some company has that id, and then returns a company with that id |
| SupplyChainKb.KbWellFormed | stockshark/analysis/supply_chain_analyzer.py:32-431 | the four companies have distinct ids, every name is among its own aliases, and no name or alias belongs to two companies |
| SupplyChainKb.LookupAliasOwner | stockshark/analysis/supply_chain_analyzer.py:433-445 | in a knowledge base whose companies share no key, every key resolves to the one company that lists it |
| SupplyChainKb.AliasIndexOwner | stockshark/analysis/supply_chain_analyzer.py:433-445 | every name and alias of a company resolves, through the index, to that same company |
| SupplyChainAnalyzer.ConfidenceOf | stockshark/analysis/supply_chain_analyzer.py:560-575 | confidence is at most ten tenths; it is zero exactly when no alias occurs; one occurrence gives at least three tenths |
| SupplyChainAnalyzer.ConfidenceOfMention | stockshark/analysis/supply_chain_analyzer.py:560-575 | an alias written in the text gives its company a confidence of at least 0.3 |
| SupplyChainAnalyzer.ConfidenceZero | stockshark/analysis/supply_chain_analyzer.py:560-575 | confidence is zero iff no alias occurs in the text, ignoring letter case |
| SupplyChainAnalyzer.ConfidenceMonotone | stockshark/analysis/supply_chain_analyzer.py:560-575 | appending text never lowers a company's confidence |
| SupplyChainAnalyzer.AddIfNew | stockshark/analysis/supply_chain_analyzer.py:528-553 | an entry is appended only when its company is not yet recognised, so ids stay distinct and the id set grows by exactly that company |
| SupplyChainAnalyzer.ScanAliasesProps | stockshark/analysis/supply_chain_analyzer.py:529-538 | scanning one company's aliases keeps the earlier entries and distinct ids, and adds that company exactly when one of its aliases occurs in the text, with an entry describing it |
| SupplyChainAnalyzer.ScanCompaniesProps | stockshark/analysis/supply_chain_analyzer.py:528-538 | the direct pass keeps earlier entries, keeps ids distinct, recognises exactly the companies with an alias written in the text, and each new entry cites such an alias |
| SupplyChainAnalyzer.ScanKeywordsProps | stockshark/analysis/supply_chain_analyzer.py:540-553 | the keyword pass keeps earlier entries and distinct ids, and each new entry comes from a keyword the alias index resolves to that company |
| SupplyChainAnalyzer.ScanKeywordsMembers | stockshark/analysis/supply_chain_analyzer.py:540-553 | after the keyword pass an id is recognised iff it was already, or some keyword resolves to it |
| SupplyChainAnalyzer.DiscoverProps | stockshark/analysis/supply_chain_analyzer.py:518-553 | discovery yields distinct ids: exactly the companies mentioned in the text or named by a keyword, each entry describing a knowledge-base company |
| SupplyChainAnalyzer.SortedKeepsDiscovery | stockshark/analysis/supply_chain_analyzer.py:555-556 | a confidence-descending permutation of the discovered list keeps its ids distinct, recognises the same companies, and every entry still describes a knowledge-base company |
| SupplyChainAnalyzer.IdentifyCompanies | stockshark/analysis/supply_chain_analyzer.py:518-558 | the result has distinct ids, non-increasing confidence and the same recognised set as discovery; it permutes the discovery list stably, so ties keep discovery order |
| SupplyChainAnalyzer.RecognisedSources | stockshark/analysis/supply_chain_analyzer.py:528-553 | every mentioned company, and every company named by a keyword, is recognised |
| SupplyChainAnalyzer.NothingDetected | stockshark/analysis/supply_chain_analyzer.py:518-558 | nothing is recognised iff no company is mentioned and no keyword is in the alias index |
| SupplyChainAnalyzer.DetectedInKb | stockshark/analysis/supply_chain_analyzer.py:518-558 | every recognised id belongs to a knowledge-base company |
| SupplyChainAnalyzer.Enrich | stockshark/analysis/supply_chain_analyzer.py:630-658 | the original edge is kept unchanged; fields are added only for a listed edge with a ticker; the basic fields appear iff the basic call returns non-empty data; the quote fields appear iff the basic call returned (empty or not) and the quote call returns non-empty data; a raised call adds `data_error` rather than dropping the edge |
| SupplyChainAnalyzer.EnrichAll | stockshark/analysis/supply_chain_analyzer.py:596-620 | one enriched edge per edge, in order |
| SupplyChainAnalyzer.AnalyzeHolding | stockshark/analysis/supply_chain_analyzer.py:660-678 | any holding reported names the analysed company and at least one listed holder |
| SupplyChainAnalyzer.NoHoldings | stockshark/analysis/supply_chain_analyzer.py:622-626 | the holding list is always empty, because the holder list built is never filled |
| SupplyChainAnalyzer.AnalyzeCompany | stockshark/analysis/supply_chain_analyzer.py:577-628 | each supplier and customer list keeps its edges in order; listed plus unlisted is a rearrangement of direct plus indirect suppliers split by `is_listed`; customers are in neither; holdings are empty |
| SupplyChainAnalyzer.SuggestAllProps | stockshark/analysis/supply_chain_analyzer.py:689-717 | the suggestion loop keeps earlier suggestions and distinct ids, and adds exactly the companies the table associates with some keyword |
| SupplyChainAnalyzer.Suggest | stockshark/analysis/supply_chain_analyzer.py:680-719 | suggestion ids are distinct; an id is suggested iff the fixed table lists it under one of the keywords; each suggestion names its company and a keyword suggesting it |
| SupplyChainAnalyzer.ReportsFor | stockshark/analysis/supply_chain_analyzer.py:468-472 | one report per recognised company, in the same order, each the report of that company |
| SupplyChainAnalyzer.AnalyzeScenario | stockshark/analysis/supply_chain_analyzer.py:447-482 | one report per recognised company, in order; suggestions are present exactly when nothing was recognised, which happens iff no company is mentioned and no keyword names one |
| SupplyChainAnalyzer.FindByAlias | stockshark/analysis/supply_chain_analyzer.py:733-740 | a company is found iff the name equals one of its aliases up to letter case; the first such company in knowledge-base order wins |
| SupplyChainAnalyzer.GetCompanySupplyChain | stockshark/analysis/supply_chain_analyzer.py:721-746 | a found company is the first one named exactly, up to case, and its report is returned; otherwise the answer carries the not-found message for that name |
| SupplyChainAnalyzer.LookupIgnoresCase | stockshark/analysis/supply_chain_analyzer.py:733-740 | looking a company up under the lower-cased name gives the same report |
| SupplyChainAnalyzer.SupplierEdges | stockshark/analysis/supply_chain_analyzer.py:759-769 | the edges searched are exactly the direct and indirect supplier edges of each company, tagged with the owner and the list kind, never customers |
| SupplyChainAnalyzer.SearchIsFilter | stockshark/analysis/supply_chain_analyzer.py:748-771 | the nested search loops return exactly the supplier edges matching the keyword, in knowledge-base order with direct before indirect |
| SupplyChainAnalyzer.SearchSound | stockshark/analysis/supply_chain_analyzer.py:759-769 | every hit is a supplier edge whose name or relationship contains the keyword, ignoring case |
| SupplyChainAnalyzer.SearchComplete | stockshark/analysis/supply_chain_analyzer.py:759-769 | every matching supplier edge is a hit |
| SupplyChainAnalyzer.SearchSupplierByKeyword | stockshark/analysis/supply_chain_analyzer.py:748-771 | hits are exactly the supplier edges, direct or indirect, whose name or relationship contains the keyword, each tagged with its owner and list |
| DataProcessor.Integrate | data/data_processor.py:179-201 | the merged record has the union of the keys; each value comes from the last of basic, quote, valuation that defines it; a missing dictionary contributes nothing |
| DataProcessor.IntegrateIgnoresEmpty | data/data_processor.py:187-201 | a missing dictionary and an empty one merge the same way |
| DataProcessor.RatingOf | data/data_processor.py:282-289 | the top rating is given iff the total is at least 80, the bottom iff below 40 |
| DataProcessor.RatingMonotone | data/data_processor.py:282-289 | a higher total never earns a worse rating |
| DataProcessor.ValuationBand | data/data_processor.py:246-257 | the valuation component is 30, 20, 10 or 0 for a ratio in (0,10), [10,20), [20,30) or otherwise, with one factor for a non-zero band |
| DataProcessor.InvestmentScoreOf | data/data_processor.py:236-299 | fails iff `pe_ttm` is not comparable with a number; otherwise total is the sum of valuation, growth 15, technical 10, and industry 10 iff the `industry` key is present; the rating follows the total |
| DataProcessor.InvestmentScoreRange | data/data_processor.py:279-289 | the total is one of 25, 35, 45, 55, 65, so the top rating is unreachable; the second rating is given iff 0 < pe < 10 and an industry is present |
| DataProcessor.RiskScoreOf | data/data_processor.py:301-340 | fails iff an inspected value is not a number; otherwise the count is the number of raised flags (pe > 50, abs(change) > 7, industry present), at most 3; level is low iff 0 and high iff 3 |
| DataProcessor.RiskExtremes | data/data_processor.py:311-336 | a record with none of the inspected keys is low risk with no factors; one raising all three flags is high risk |
| DataProcessor.RelationshipType | data/data_processor.py:225-230 | the classification is supplier, customer or other |
| DataProcessor.RelationshipTypeIgnoresCase | data/data_processor.py:225-230 | the classification ignores letter case |
| DataProcessor.ProcessRow | data/data_processor.py:209-232 | a row fails iff its relationship is not a string; otherwise it has exactly the row keys, each given value or its default (`direct` for supply type), plus the classified relationship type |
| DataProcessor.ProcessSupplyChainData | data/data_processor.py:203-234 | fails iff some row fails; otherwise one processed row per input row, in order |
| BasicInfoStore.Find | stockshark/models/stock_basic_info.py:83-98 | a symbol is found iff some row has it, and the row found has that symbol |
| BasicInfoStore.FindAt | stockshark/models/stock_basic_info.py:83-98 | in a table with one row per symbol, looking a row's symbol up returns that row |
| BasicInfoStore.Upsert | stockshark/models/stock_basic_info.py:57-75 | the symbol list grows only by a new symbol, and one row per symbol is preserved |
| BasicInfoStore.UpsertThenFind | stockshark/models/stock_basic_info.py:57-75 | after a save, the symbol's row holds the saved fields and update time; an existing row keeps its creation time |
| BasicInfoStore.UpsertOthers | stockshark/models/stock_basic_info.py:57-75 | a save leaves every other symbol's row as it was |
| BasicInfoStore.UpsertIdempotent | stockshark/models/stock_basic_info.py:57-75 | saving the same information twice equals saving it once with the later update time |
| BasicInfoStore.Save | stockshark/models/stock_basic_info.py:50-81 | the result is the commit outcome; a committed save is the upsert, a failed one leaves the table unchanged |
| BasicInfoStore.GetBySymbol | stockshark/models/stock_basic_info.py:83-98 | returns a row iff the read succeeds and the symbol is stored, and then the row has that symbol |
| BasicInfoStore.GetAllSymbols | stockshark/models/stock_basic_info.py:100-115 | each stored symbol exactly once, or nothing when the read fails |
| BasicInfoStore.BatchSave | stockshark/models/stock_basic_info.py:117-152 | succeeds iff the commit succeeds and every record has its required fields; on success the table is the records' upserts in order under the one update time; a failure leaves the table unchanged; one row per symbol is preserved |
| BasicInfoStore.BatchLastWins | stockshark/models/stock_basic_info.py:117-152 | after a batch, a symbol's row holds the fields of the last record for it, stamped with the batch's time |
| BasicInfoStore.UpsertAllOthers | stockshark/models/stock_basic_info.py:117-152 | a batch leaves symbols it does not name unchanged |
| BasicInfoStore.BatchOfOne | stockshark/models/stock_basic_info.py:117-152 | a batch of one record is a single save |
| DailyTradeStore.Upsert | stockshark/models/stock_daily_trade.py:59-72 | the table grows by one row only for a new (symbol, date) key; existing keys keep their positions; one row per key is preserved |
| DailyTradeStore.Find | stockshark/models/stock_daily_trade.py:87-103 | a key is found iff some row has it, and the row found has that key |
| DailyTradeStore.UpsertThenFind | stockshark/models/stock_daily_trade.py:59-72 | after a save the key's row holds the saved bar, with the replaced row's creation time or, for a new key, the one given; every other key is unchanged |
| DailyTradeStore.UpsertIdempotent | stockshark/models/stock_daily_trade.py:59-72 | saving the same bar twice leaves the table as the first save left it, whatever the second creation time |
| DailyTradeStore.Save | stockshark/models/stock_daily_trade.py:53-85 | the result is the commit outcome; a committed save is the upsert, a failed one leaves the table unchanged |
| DailyTradeStore.GetBySymbolAndDate | stockshark/models/stock_daily_trade.py:87-103 | a row is returned only after a successful read and only with that key, and always when such a row exists |
| DailyTradeStore.Matching | stockshark/models/stock_daily_trade.py:111-120 | the rows kept are exactly the symbol's rows within the optional inclusive bounds |
| DailyTradeStore.GetHistoryBySymbol | stockshark/models/stock_daily_trade.py:105-133 | only the symbol's rows within the bounds, newest first; exactly `min(limit, matching)` rows, each at most as often as it matches; nothing on a failed query or a negative limit |
| DailyTradeStore.HistoryComplete | stockshark/models/stock_daily_trade.py:105-133 | the history is the newest matching rows: `min(limit, matching)` of them, each at most as often as it matches, all of them when the limit allows, and any matching row left out is no newer than every row returned |
| DailyTradeStore.GetLatestTradeDate | stockshark/models/stock_daily_trade.py:135-150 | the maximum trade date among the symbol's rows, present whenever the symbol has a row and the read succeeds |
| DailyTradeStore.LatestIsNewestHistory | stockshark/models/stock_daily_trade.py:135-150 | the latest date is the date of the one-row history |
| DailyTradeStore.BatchSave | stockshark/models/stock_daily_trade.py:152-188 | succeeds iff the commit succeeds and every record is complete; then it equals sequential upserts, otherwise the table is unchanged |
| DailyTradeStore.BatchLastWins | stockshark/models/stock_daily_trade.py:152-188 | after a batch a key's row holds the last record for that key |
| DailyTradeStore.UpsertAllOthers | stockshark/models/stock_daily_trade.py:152-188 | a batch leaves keys it does not name unchanged |
| DailyTradeStore.GetAllSymbols | stockshark/models/stock_daily_trade.py:190-202 | each symbol with at least one row, exactly once |
| DailyTradeStore.SymbolsHaveLatest | stockshark/models/stock_daily_trade.py:135-150 | a symbol is listed iff it has a latest trade date |
| StockService.SavedBarReadsBack | stockshark/services/stock_service.py:90-159 | the bar saved for a source row reads back from the table as the view returned for that row, under the same symbol and date, with zero columns shown as `None` |
| StockService.GetStockBasicInfo | stockshark/services/stock_service.py:17-69 | at most one source call; none iff the table has the symbol, and then the stored fields are returned tagged as database; otherwise the source answer is returned tagged as api whether or not the save commits, and a miss leaves the table unchanged |
| StockService.BasicWriteBack | stockshark/services/stock_service.py:45-67 | after a committed write-back, the next call is a table hit with the same fields and no source call |
| StockService.BasicMissNotCached | stockshark/services/stock_service.py:44-69 | a symbol unknown to table and source yields nothing and leaves the table unchanged, so the next call asks the source again |
| StockService.Truthful | stockshark/services/stock_service.py:95-102 | a stored zero reads as `None`, any other value as itself |
| StockService.StoredTrade | stockshark/services/stock_service.py:82-90 | the stored row used has the symbol, and the requested date when one is given |
| StockService.PickRow | stockshark/services/stock_service.py:118-126 | with a date, a row is picked iff the source has a row for that date; without one, the last row is picked |
| StockService.GetStockDailyTrade | stockshark/services/stock_service.py:71-161 | at most one source call, none iff the table has the row; the answer has the symbol and requested date; with a date, nothing is returned iff the source has no row for it; after a source call the answer is the source row picked for the date (or the last of the recent window) as the source gave it, and the table is that row's save; nothing returned leaves the table unchanged |
| StockService.TradeWriteBack | stockshark/services/stock_service.py:82-159 | with or without a date, the row saved is the row returned, and the next identical call is a table hit showing those values with zeros as `None` |
| StockService.LatestAfterFirstSave | stockshark/services/stock_service.py:82-88 | when the table held no row of a symbol, the latest row read back after a save is the saved one |
| StockService.FlatDayLosesChange | stockshark/services/stock_service.py:95-102 | a change of 0.0 from the source reads back from the table as `None` |
| StockService.GetStockHistory | stockshark/services/stock_service.py:163-225 | the stored history is used iff the table query returns rows, and then it is exactly those rows' views, without a source call, newest first and within the bounds; otherwise the source is asked once and its rows are returned, or nothing when it has none |
| StockService.HistoryWriteBack | stockshark/services/stock_service.py:197-218 | a fetched history is stored: each date holds the source's last row for it |
| StockService.CleanParts | stockshark/services/stock_service.py:284 | the concept names kept are the non-empty stripped parts of the concept string |
| StockService.ConceptCounts | stockshark/services/stock_service.py:285-291 | exactly the concepts with a non-empty member list, in their order and multiplicity, each with its member count |
| StockService.ConceptsOf | stockshark/services/stock_service.py:282-291 | at most five concepts: exactly the first five names that have members, in order, each with its member count |
| StockService.SectorsOf | stockshark/services/stock_service.py:276-301 | at most one industry query plus one query per asked concept, so at most six queries; at most five concepts; the industry count is 0 iff the industry is empty or has no members, and otherwise it is the member count |
| StockService.GetStockSectors | stockshark/services/stock_service.py:227-305 | the record comes from the same table-then-source lookup; a symbol unknown everywhere still gets a record with empty names and counts |
| Crawler.MarketOf | stockshark/data/crawler.py:90 | the market is Shenzhen iff the symbol starts with `00` or `30`, otherwise Shanghai |
| Crawler.MarketByPrefix | stockshark/data/crawler.py:90 | the market depends only on the first two characters |
| Crawler.FetchStockConcepts | stockshark/data/crawler.py:108-142 | the board names, in board order, of the boards whose fetched members hold the symbol, stopping once the limit is reached |
| Crawler.ConceptsAreMemberBoards | stockshark/data/crawler.py:120-139 | every concept returned names a board holding the symbol |
| Crawler.FetchStockBasicInfo | stockshark/data/crawler.py:43-106 | nothing iff the detail is missing or its name is empty; otherwise the market follows the prefix rule and the concepts are joined with `、` |
| Crawler.ListDateRoundTrip | stockshark/data/crawler.py:71-76 | a stored listing date is a real day, and formatting it gives back the detail's text |
| Crawler.ConceptColumnRoundTrip | stockshark/data/crawler.py:84-88 | the service's split of the joined concept column gives the crawler's concept names back |
| Crawler.BasicInfoConcepts | stockshark/data/crawler.py:84-88 | with clean board names, the service sees exactly the concepts the crawler found |
| Crawler.NormDate | stockshark/data/crawler.py:159-167 | a supplied date has every `-` removed; a missing or empty one gives the default |
| Crawler.NormDateForms | stockshark/data/crawler.py:159-167 | the ISO and compact spellings of a day reach the feed as the same compact text |
| Crawler.NormDateIdempotent | stockshark/data/crawler.py:159-167 | normalising a normalised date changes nothing |
| Crawler.FetchStockDailyTrade | stockshark/data/crawler.py:144-196 | one bar per history row between the normalised dates, in order, each carrying that row's columns under the requested symbol |
| Crawler.CrawlStockDailyTrade | stockshark/data/crawler.py:247-282 | the count is the number of bars whose save committed, between 0 and the number of bars |
| Crawler.SaveAll | stockshark/data/crawler.py:264-282 | the save loop counts exactly the fetched bars whose save succeeds, never more than were fetched, and leaves the table as saving each bar in turn does |
| Crawler.SaveBarsLastWins | stockshark/data/crawler.py:259-282 | a committed bar that is the last with its key is what the table holds afterwards |
| Crawler.CrawlSymbols | stockshark/data/crawler.py:298-316 | success is the total of rows saved per symbol; fail counts the symbols with nothing saved, at most the number of symbols |
| Crawler.CrawlNext | stockshark/data/crawler.py:309-316 | one step of the per-symbol loop adds the symbol's saved-record count to the success total and counts the symbol as failed exactly when nothing was saved for it |
| Crawler.NothingSavedAllFailed | stockshark/data/crawler.py:298-316 | nothing is saved overall iff every symbol counts as a failure |
| Crawler.CrawlAllStockDailyTrade | stockshark/data/crawler.py:284-319 | runs the shared loop over the stored symbols, the first `limit` of them when a limit is given; with none stored the counters are both 0 and the table is unchanged |
| Crawler.CrawlTodayTradeData | stockshark/data/crawler.py:321-347 | runs the shared loop over every stored symbol for today's date only; with none stored the counters are both 0 |
| Crawler.TodayRequest | stockshark/data/crawler.py:328-340 | today's crawl asks the feed for the single compact day of today |
| Crawler.Window | stockshark/data/crawler.py:211-215 | the window is a part of the listing, no longer than a positive limit |
| Crawler.WindowSlice | stockshark/data/crawler.py:211-215 | a non-negative offset and positive limit give the slice starting at the offset |
| Crawler.WindowZeroLimit | stockshark/data/crawler.py:211-215 | a limit of 0 means no limit |
| Crawler.WindowsTile | stockshark/data/crawler.py:211-215 | a batch and the rest from the next offset together cover the listing from the first offset |
| Crawler.SaveEach | stockshark/data/crawler.py:217-242 | success counts the symbols fetched and saved, and success plus fail is the window size; every saved symbol is held afterwards and other rows are untouched |
| Crawler.CrawlAllStockBasicInfo | stockshark/data/crawler.py:198-245 | success plus fail is the window size; success counts the symbols fetched and saved |
| Crawler.NewSymbols | stockshark/data/crawler.py:362-368 | the listed codes not yet stored, each once |
| Crawler.CrawlNewPhase | stockshark/data/crawler.py:362-419 | new plus failed equals the number of listed codes not stored; new counts those fetched and saved; with nothing new, skipped is the number stored; in a table with one row per symbol, every new symbol saved is held afterwards; rows of stored symbols do not change |
| Crawler.CrawlUpdatePhase | stockshark/data/crawler.py:421-458 | updated plus failed equals the number of stored symbols; updated counts those fetched and saved; rows of symbols outside the stored list do not change |
| Crawler.CrawlIncrementalBasicInfo | stockshark/data/crawler.py:349-461 | without update, new plus failed equals the number of new symbols; with update, new plus updated plus failed equals new plus existing; skipped is the existing count only when nothing is new; existing rows are untouched without update |
| SearchEngine.ChainLe | stockshark/analysis/search_engine.py:277-308 | a chained comparison fails iff a comparison it evaluates raises; the second is not evaluated when the first is false |
| SearchEngine.KeepInRange | stockshark/analysis/search_engine.py:277-308 | one range filter keeps exactly the records within the bounds; it fails iff some record's comparison raises |
| SearchEngine.ApplyRangesSpec | stockshark/analysis/search_engine.py:273-311 | the filters in sequence keep exactly the records that pass every active filter; a failure means some comparison raised, and without such a comparison the call succeeds |
| SearchEngine.ApplyFilters | stockshark/analysis/search_engine.py:259-311 | no filters, or an empty filter dictionary, return the input unchanged |
| SearchEngine.FiltersSpec | stockshark/analysis/search_engine.py:259-311 | a successful filtering is the order-preserving subsequence of records admitted by every given bound; it fails iff a comparison raises |
| SearchEngine.FiltersIdempotent | stockshark/analysis/search_engine.py:273-311 | re-applying the same filters to their output changes nothing |
| SearchEngine.NegativePeExcluded | stockshark/analysis/search_engine.py:293-299 | a price-earnings range whose lower bound is absent (and so defaults to 0) or a non-negative number drops a record with a negative ratio |
| SearchEngine.SortSpecOf | stockshark/analysis/search_engine.py:327-331 | the sort field is the text before the first `:`, and the order is descending iff the order part, default `desc`, lower-cases to `desc` |
| SearchEngine.ApplySort | stockshark/analysis/search_engine.py:313-341 | the result is a permutation of the input; it is the input when no sort is asked or the keys cannot be compared; otherwise it is stably sorted by the field |
| SearchEngine.AscendingByNumber | stockshark/analysis/search_engine.py:324-341 | ascending order on numeric fields puts the numbers in non-decreasing order |
| SearchEngine.SearchMembers | stockshark/analysis/search_engine.py:128-144 | an empty member list or a failed filter gives an error; a failed filter's message is the error; otherwise total is the length of the filtered list and the results are exactly the first `limit` entries of the sorted filtered list |
| SearchEngine.MemberSearchRows | stockshark/analysis/search_engine.py:128-144 | every result is a member admitted by the filters, and total counts the admitted members |
| SearchEngine.SearchByIndustry | stockshark/analysis/search_engine.py:103-148 | an empty industry gives its not-found message and a failed filter its message; otherwise the results are exactly the first `limit` entries of the sorted filtered members, each an admitted member, and total counts the admitted members |
| SearchEngine.SearchByConcept | stockshark/analysis/search_engine.py:150-195 | an empty concept gives its not-found message and a failed filter its message; otherwise the results are exactly the first `limit` entries of the sorted filtered members, each an admitted member, and total counts the admitted members |
| SearchEngine.MergeByCode | stockshark/analysis/search_engine.py:234-251 | keeps, in order, the stocks with a truthy code not seen before; codes in the result are distinct |
| SearchEngine.MergeCovers | stockshark/analysis/search_engine.py:234-251 | every stock with a truthy unseen code has its code represented in the merge |
| SearchEngine.MergeAppend | stockshark/analysis/search_engine.py:234-251 | merging two lists merges the first, then the second past the codes the first contributed |
| SearchEngine.TakeMerged | stockshark/analysis/search_engine.py:234-251 | the combined list holds only stocks from the industry or concept results, each with a truthy code, no code twice, and at most `limit` of them |
| SearchEngine.SearchByTheme | stockshark/analysis/search_engine.py:197-257 | combined results come from the two searches, with truthy, pairwise distinct codes, at most `limit` of them |
| SearchEngine.ThemeIndustryFirst | stockshark/analysis/search_engine.py:234-251 | the industry results' merge is a prefix of the combined list before the limit |
| SearchEngine.ThemeCoversCodes | stockshark/analysis/search_engine.py:234-251 | every truthy code among the two searches' results appears in the combined list before the limit |
| SearchEngine.NamePass | stockshark/analysis/search_engine.py:58-68 | the earlier results are kept; new entries name the keyword and stop at the limit; the pass fails iff a name it reads is not a string |
| SearchEngine.NamePassTakesHits | stockshark/analysis/search_engine.py:58-68 | the industry pass appends exactly the first hits of the member rows, in order, as many as fit under the limit, where a hit is a row whose name contains the keyword and the scan ends at the first name that is not a string |
| SearchEngine.AnyHasCode | stockshark/analysis/search_engine.py:80-85 | a code is reported present iff a result carries it, failing on a result without a code first |
| SearchEngine.ConceptRows | stockshark/analysis/search_engine.py:71-93 | earlier results are kept; each new entry is the hit (code, name, price, change) of one of the rows, names the keyword, stops at the limit, and never repeats a code |
| SearchEngine.ConceptPass | stockshark/analysis/search_engine.py:71-93 | the concept pass keeps earlier results, stops at the limit, and adds only matching entries with new codes, each the hit of a member of one of the concepts |
| SearchEngine.SearchByCodeOrName | stockshark/analysis/search_engine.py:23-101 | an exact six-digit hit comes first; later entries name the keyword; results never exceed the limit beyond the exact hit; total equals the result count, or 0 when an error is reported, which happens iff a name is not a string; the industry-pass entries come first (with an error they are the whole result), and every entry after them is the hit of a concept member whose code no earlier entry has |
| SearchEngine.RepeatedIndustryMember | stockshark/analysis/search_engine.py:58-68 | a stock listed under two industries is reported twice by the name pass |
| StockAnalyzer.AnalyzeStock | stockshark/analysis/stock_analyzer.py:23-79 | scores are set only when the integrated record is non-empty, and then they are the record's investment and risk scores; an error is reported iff a score fails |
| StockAnalyzer.ScoresNeedData | stockshark/analysis/stock_analyzer.py:57-73 | the integrated record is empty iff no source returned data |
| StockAnalyzer.BatchAnalyze | stockshark/analysis/stock_analyzer.py:122-134 | one analysis per symbol, in input order |
| StockAnalyzer.HighEntries | stockshark/analysis/stock_analyzer.py:208-216 | the high-quality list fails iff an entry lacks basic information, and then has one entry per stock |
| StockAnalyzer.Top | stockshark/analysis/stock_analyzer.py:199-216 | at most five analyses, in input order, each scoring at least 60 |
| StockAnalyzer.HighOfTop | stockshark/analysis/stock_analyzer.py:199-216 | the best-five entries carry the symbols and scores of the top analyses, each scoring at least 60, and the list fails exactly when one of those analyses has no basic information |
| StockAnalyzer.IndustrySummary | stockshark/analysis/stock_analyzer.py:179-217 | total is the number of analyses and valid counts those with a score, so valid ≤ total; with no valid score the average is 0 and the list empty; otherwise the average lies between the lowest and highest score; the list is the top five entries, each with its symbol, its name from the basic information (empty when absent), its score and its rating; the summary fails iff one of the top five lacks basic information |
| StockAnalyzer.MeanBetween | stockshark/analysis/stock_analyzer.py:186-196 | the mean of a non-empty list of scores lies between its minimum and maximum |
| StockAnalyzer.MemberCodes | stockshark/analysis/stock_analyzer.py:155-166 | the members' codes in order, failing iff a member has no code |
| StockAnalyzer.AnalyzeBoard | stockshark/analysis/stock_analyzer.py:155-171 | an empty member list gives the not-found error; when every one of the first `limit` members has a code, those codes are analysed in order and kept, and the error is absent iff the summary succeeds, otherwise it is the summary's error; a member without a code gives an error and no analyses |
| StockAnalyzer.AnalyzeIndustryStocks | stockshark/analysis/stock_analyzer.py:136-177 | an empty industry gives its not-found message; when every one of the first `limit` members has a code, each analysis is the analysis of the corresponding member's code, in order, and the error is absent iff the summary of those analyses succeeds, otherwise it is the summary's error with the analyses kept; the summary is the summary of those analyses |
| StockAnalyzer.AnalyzeConceptStocks | stockshark/analysis/stock_analyzer.py:219-260 | an empty concept gives its not-found message; when every one of the first `limit` members has a code, each analysis is the analysis of the corresponding member's code, in order, and the error is absent iff the summary of those analyses succeeds, otherwise it is the summary's error with the analyses kept; the summary is the summary of those analyses |
| StockAnalyzer.SummaryDefined | stockshark/analysis/stock_analyzer.py:179-217 | when only basic information carries an industry, the summary never fails on missing basic information |
| Validators.ValidateStockSymbol | stockshark/utils/validators.py:6-27 | a missing, empty or non-string symbol is rejected first; a string is accepted iff it is six digits after stripping, and the stripped string is returned |
| Validators.SymbolIdempotent | stockshark/utils/validators.py:22-27 | validating an accepted symbol again returns it unchanged |
| Validators.SixDigitsAccepted | stockshark/utils/validators.py:22-27 | any six-digit string without surrounding white space is accepted as itself |
| Validators.SymbolIgnoresPadding | stockshark/utils/validators.py:22-27 | surrounding white space does not change the verdict |
| Validators.ValidateDateRange | stockshark/utils/validators.py:30-57 | rejected for format iff a given date does not parse; rejected for order iff both parse and start is later than end; equal dates are accepted and absent ones pass through |
| Validators.ValidatedDatesSpellInput | stockshark/utils/validators.py:44-57 | a validated date formats back to the text given |
| Validators.DateRangeOfDays | stockshark/utils/validators.py:44-57 | two formatted days form a valid range iff the first is not later |
| Validators.ParseDigits | stockshark/utils/validators.py:75-76 | `int()` reads a run of digits as its decimal value |
| Validators.ParseMinusDigits | stockshark/utils/validators.py:75-76 | `int()` reads a minus sign before digits as the negated value |
| Validators.ParseIntToString | stockshark/utils/validators.py:74-78 | reading the text of an integer gives the integer back |
| Validators.ValidatePagination | stockshark/utils/validators.py:60-86 | when both arguments convert to integers (an absent, zero or empty argument takes the default 1 or 20) the result is accepted iff page ≥ 1 and 1 ≤ page_size ≤ 100, and then holds those values; it is the page error iff page < 1, and the page-size error iff page is valid and page_size is out of range; a non-integer argument is rejected as such |
| Validators.PaginationRejectsWord | stockshark/utils/validators.py:74-78 | a page argument that is a word, not starting with a sign or a digit, is refused as not an integer |
| Validators.ParseIntRejects | stockshark/utils/validators.py:75-78 | `int()` refuses a text whose first non-blank character is neither a sign nor a digit |
| Validators.PaginationOfInts | stockshark/utils/validators.py:74-86 | integer 0 falls back to the default; other integers are accepted iff in range |
| Validators.PaginationOfStrings | stockshark/utils/validators.py:74-86 | the text of a number is accepted iff the number is in range, so `"0"` is rejected |

## Left out

- Keyword extraction (`_extract_keywords`, which calls the external NLP library jieba) is an input as a whole. The keywords are an arbitrary input sequence, and every property holds for any order of them.
- Market data from akshare is function-valued parameters returning `Option` or a sequence (empty on error). This covers the concept boards, the history frames and `AkShareData`. Exceptions inside those calls are collapsed into the empty answer.
- pandas DataFrame plumbing is left out. Rows are plain datatypes with the columns the code reads.
- The clock is a parameter: `datetime.now()`, the date one year back, and the `created_at`/`updated_at` timestamps. The model does not compute the year-back date.
- Column scale is not modelled. The trade table stores prices as DECIMAL(10,2) and `change_pct`/`turnover_rate` as DECIMAL(10,4), and a value read back is rounded to that scale. So StockService.TradeWriteBack and StockService.FlatDayLosesChange hold only up to that rounding. For example, a turnover of 0.00004 is stored as 0.0000 and reads back as `None`.
- BasicInfoStore.GetAllSymbols: `SELECT symbol FROM stock_basic_info` has no `ORDER BY`, so the listing order is unspecified. The model uses insertion order, and that choice decides which symbols the `limit` window of `Crawler.CrawlAllStockDailyTrade` takes.
- SQL is not modelled: connection handling, DDL, `ORDER BY` on the date tie, logging and the `Valid` one-row-per-key invariant of the store. That invariant is a hypothesis the store contracts carry, standing in for the table's unique key.
- Floating point is replaced by exact reals:
  - `round(avg, 2)` in the summary;
  - `clean_stock_quote` unit conversion, which is a `clean` parameter of `StockAnalyzer.Source`;
  - technical indicators and ratios;
  - binary-float artefacts of `0.3 * count`, with confidence kept in tenths.
- The text of `_generate_analysis_summary` and its float formatting are left out, together with any error that formatting could raise.
- Letter case and digits are ASCII only. `str.lower()` and `\d` are Unicode-wide in Python; there is no Unicode case mapping or digit class here.
- `datetime.strptime` is replaced by a strict parser of exactly ten characters `YYYY-MM-DD`. Python also accepts single-digit months and days there.
- `int()` on page strings accepts an optional sign and ASCII digits with surrounding white space. Underscores between digits and non-ASCII digits are not modelled.
- The crawler's thread pools are sequential loops. Their counters are sums, so the completion order does not change them.
- Python equality across types (`1 == True`, `1 == 1.0`) when comparing codes follows `Values.Value` equality, under which values of different constructors differ.
- `get_all_industries` and `get_all_concepts` are inputs (sequences of names), and board members are functions from a name to the member list.
- Flask routes, the CLI, the scheduler, configuration, logging and the web UI are outside the core.
- Validators.ValidateDateRange: returns the parsed days instead of the argument strings. `Validators.ValidatedDatesSpellInput` shows the two agree for given dates; a falsy argument is returned as `None` rather than as itself.
- StockAnalyzer.IndustrySummary: bounds the average of the unrounded scores, not the two-decimal rounding the source applies.

=== FILE: basic_info_store.dfy ===
/** `StockBasicInfo`: the `stock_basic_info` table, one row per symbol, kept
    in insertion order, with the upsert its `save` and `batch_save`
    statements perform and the two queries on it.

    Timestamps are integers supplied by the caller. The `ok` argument of
    each operation says whether the statement and its commit complete; when
    they do not, the source catches the exception, so a read returns `None`
    or `[]` and a write leaves the table as it was and returns false. */
module BasicInfoStore {
  import opened Wrappers
  import opened Seqs

  /** The columns a save writes, apart from the timestamps. */
  datatype BasicInfo = BasicInfo(
    symbol: string,
    name: string,
    fullName: string,
    industry: string,
    concept: string,
    region: string,
    market: string,
    listDate: Option<int>)

  datatype Row = Row(info: BasicInfo, createdAt: int, updatedAt: int)

  type Table = seq<Row>

  function Symbols(t: Table): (r: seq<string>)
    ensures |r| == |t| && forall i :: 0 <= i < |t| ==> r[i] == t[i].info.symbol
  {
    seq(|t|, i requires 0 <= i < |t| => t[i].info.symbol)
  }

  /** The unique key on `symbol` holds. */
  predicate Valid(t: Table)
  {
    NoDuplicates(Symbols(t))
  }

  /** The row stored under `symbol`. */
  function Find(t: Table, symbol: string): (r: Option<Row>)
    ensures r.Some? <==> symbol in Symbols(t)
    ensures r.Some? ==> r.value in t && r.value.info.symbol == symbol
  {
    if t == [] then None
    else if t[0].info.symbol == symbol then Some(t[0])
    else
      assert Symbols(t) == [t[0].info.symbol] + Symbols(t[1..]);
      Find(t[1..], symbol)
  }

  /** In a valid table the row found is the one at the symbol's position. */
  lemma {:induction false} FindAt(t: Table, i: int)
    requires Valid(t) && 0 <= i < |t|
    ensures Find(t, t[i].info.symbol) == Some(t[i])
  {
    if i > 0 {
      assert Symbols(t)[0] != Symbols(t)[i];
      assert Valid(t[1..]) by {
        forall a, b | 0 <= a < b < |t[1..]|
          ensures Symbols(t[1..])[a] != Symbols(t[1..])[b]
        {
          assert Symbols(t)[a + 1] != Symbols(t)[b + 1];
        }
      }
      FindAt(t[1..], i - 1);
    }
  }

  /** `INSERT … ON DUPLICATE KEY UPDATE`: a new symbol appends a row; an
      existing one has every column but `created_at` replaced. */
  function Upsert(t: Table, info: BasicInfo, createdAt: int, updatedAt: int): (r: Table)
    ensures Symbols(r) == if info.symbol in Symbols(t) then Symbols(t) else Symbols(t) + [info.symbol]
    ensures Valid(t) ==> Valid(r)
  {
    if info.symbol in Symbols(t) then
      var r := seq(|t|, i requires 0 <= i < |t| =>
                 if t[i].info.symbol == info.symbol then Row(info, t[i].createdAt, updatedAt) else t[i]);
      assert Symbols(r) == Symbols(t);
      r
    else
      assert Symbols(t + [Row(info, createdAt, updatedAt)]) == Symbols(t) + [info.symbol];
      t + [Row(info, createdAt, updatedAt)]
  }

  /** After an upsert the symbol holds the saved columns and the new
      `updated_at`; `created_at` is the first save's. */
  lemma UpsertThenFind(t: Table, info: BasicInfo, createdAt: int, updatedAt: int)
    requires Valid(t)
    ensures Find(Upsert(t, info, createdAt, updatedAt), info.symbol) ==
              Some(Row(info,
                       if Find(t, info.symbol).Some? then Find(t, info.symbol).value.createdAt else createdAt,
                       updatedAt))
  {
    var r := Upsert(t, info, createdAt, updatedAt);
    if info.symbol in Symbols(t) {
      var i :| 0 <= i < |t| && Symbols(t)[i] == info.symbol;
      FindAt(t, i);
      FindAt(r, i);
    } else {
      FindAt(r, |t|);
    }
  }

  /** An upsert leaves every other symbol's row alone. */
  lemma {:induction false} UpsertOthers(t: Table, info: BasicInfo, createdAt: int, updatedAt: int, symbol: string)
    requires symbol != info.symbol
    ensures Find(Upsert(t, info, createdAt, updatedAt), symbol) == Find(t, symbol)
  {
    var r := Upsert(t, info, createdAt, updatedAt);
    if info.symbol in Symbols(t) {
      RowsOutsideKeyAgree(t, r, info.symbol, symbol);
    } else {
      FindAppend(t, Row(info, createdAt, updatedAt), symbol);
    }
  }

  lemma {:induction false} RowsOutsideKeyAgree(t: Table, r: Table, key: string, symbol: string)
    requires |r| == |t| && symbol != key
    requires forall i :: 0 <= i < |t| ==>
               r[i].info.symbol == t[i].info.symbol && (t[i].info.symbol != key ==> r[i] == t[i])
    ensures Find(r, symbol) == Find(t, symbol)
  {
    if t != [] {
      RowsOutsideKeyAgree(t[1..], r[1..], key, symbol);
    }
  }

  lemma {:induction false} FindAppend(t: Table, row: Row, symbol: string)
    requires symbol != row.info.symbol
    ensures Find(t + [row], symbol) == Find(t, symbol)
  {
    if t != [] {
      assert (t + [row])[1..] == t[1..] + [row];
      FindAppend(t[1..], row, symbol);
    } else {
      assert [row][1..] == [];
    }
  }

  /** Saving the same columns twice leaves the table as one save with the
      later `updated_at` would. */
  lemma UpsertIdempotent(t: Table, info: BasicInfo, c1: int, c2: int, u1: int, u2: int)
    ensures Upsert(Upsert(t, info, c1, u1), info, c2, u2) == Upsert(t, info, c1, u2)
  {
  }

  /** `save`: true exactly when the statement committed. */
  function Save(t: Table, info: BasicInfo, createdAt: int, updatedAt: int, ok: bool): (r: (Table, bool))
    ensures r.1 == ok
    ensures ok ==> r.0 == Upsert(t, info, createdAt, updatedAt)
    ensures !ok ==> r.0 == t
  {
    if ok then (Upsert(t, info, createdAt, updatedAt), true) else (t, false)
  }

  /** `get_by_symbol`. */
  function GetBySymbol(t: Table, symbol: string, ok: bool): (r: Option<Row>)
    ensures r.Some? <==> ok && symbol in Symbols(t)
    ensures r.Some? ==> r.value in t && r.value.info.symbol == symbol
  {
    if ok then Find(t, symbol) else None
  }

  /** `get_all_symbols`: each stored symbol once, or nothing on error. */
  function GetAllSymbols(t: Table, ok: bool): (r: seq<string>)
    ensures Valid(t) ==> NoDuplicates(r)
    ensures forall s :: s in r <==> ok && Find(t, s).Some?
  {
    if ok then Symbols(t) else []
  }

  /** One element of `batch_save`'s argument: a dictionary in which only
      `symbol` and `name` are required. */
  datatype BasicInput = BasicInput(
    symbol: Option<string>,
    name: Option<string>,
    fullName: Option<string>,
    industry: Option<string>,
    concept: Option<string>,
    region: Option<string>,
    market: Option<string>,
    listDate: Option<int>,
    createdAt: Option<int>)

  /** The row columns of an input, with `''` for missing optional strings
      and `None` for a missing listing date. */
  function ToInfo(x: BasicInput): BasicInfo
    requires Complete(x)
  {
    BasicInfo(x.symbol.value, x.name.value, x.fullName.GetOr(""), x.industry.GetOr(""),
              x.concept.GetOr(""), x.region.GetOr(""), x.market.GetOr(""), x.listDate)
  }

  /** `stock_info['symbol']` and `stock_info['name']` exist. */
  predicate Complete(x: BasicInput)
  {
    x.symbol.Some? && x.name.Some?
  }

  function UpsertAll(t: Table, xs: seq<BasicInput>, now: int): Table
    requires forall i :: 0 <= i < |xs| ==> Complete(xs[i])
    decreases |xs|
  {
    if xs == [] then t
    else
      assert Complete(xs[0]);
      UpsertAll(Upsert(t, ToInfo(xs[0]), xs[0].createdAt.GetOr(now), now), xs[1..], now)
  }

  /** `batch_save`: the upserts of all inputs, sharing one `updated_at`,
      committed together; a missing required key or a failed statement
      commits nothing. */
  function BatchSave(t: Table, xs: seq<BasicInput>, now: int, ok: bool): (r: (Table, bool))
    ensures r.1 <==> ok && forall i :: 0 <= i < |xs| ==> Complete(xs[i])
    ensures r.1 ==> r.0 == UpsertAll(t, xs, now)
    ensures !r.1 ==> r.0 == t
    ensures Valid(t) ==> Valid(r.0)
  {
    if ok && forall i :: 0 <= i < |xs| ==> Complete(xs[i]) then
      if Valid(t) then UpsertAllValid(t, xs, now); (UpsertAll(t, xs, now), true)
      else (UpsertAll(t, xs, now), true)
    else (t, false)
  }

  lemma {:induction false} UpsertAllValid(t: Table, xs: seq<BasicInput>, now: int)
    requires forall i :: 0 <= i < |xs| ==> Complete(xs[i])
    requires Valid(t)
    ensures Valid(UpsertAll(t, xs, now))
    decreases |xs|
  {
    if xs != [] {
      UpsertAllValid(Upsert(t, ToInfo(xs[0]), xs[0].createdAt.GetOr(now), now), xs[1..], now);
    }
  }

  /** After a batch, each symbol holds the columns of the last input that
      names it, with the batch's `updated_at`. */
  lemma {:induction false} BatchLastWins(t: Table, xs: seq<BasicInput>, now: int, i: int)
    requires Valid(t)
    requires forall k :: 0 <= k < |xs| ==> Complete(xs[k])
    requires 0 <= i < |xs|
    requires forall k :: i < k < |xs| ==> xs[k].symbol != xs[i].symbol
    ensures Find(UpsertAll(t, xs, now), xs[i].symbol.value).Some?
    ensures Find(UpsertAll(t, xs, now), xs[i].symbol.value).value.info == ToInfo(xs[i])
    ensures Find(UpsertAll(t, xs, now), xs[i].symbol.value).value.updatedAt == now
    decreases |xs|
  {
    var next := Upsert(t, ToInfo(xs[0]), xs[0].createdAt.GetOr(now), now);
    if i == 0 {
      UpsertThenFind(t, ToInfo(xs[0]), xs[0].createdAt.GetOr(now), now);
      UpsertAllOthers(next, xs[1..], now, xs[0].symbol.value);
    } else {
      BatchLastWins(next, xs[1..], now, i - 1);
    }
  }

  lemma {:induction false} UpsertAllOthers(t: Table, xs: seq<BasicInput>, now: int, symbol: string)
    requires forall k :: 0 <= k < |xs| ==> Complete(xs[k]) && xs[k].symbol.value != symbol
    ensures Find(UpsertAll(t, xs, now), symbol) == Find(t, symbol)
    decreases |xs|
  {
    if xs != [] {
      var next := Upsert(t, ToInfo(xs[0]), xs[0].createdAt.GetOr(now), now);
      UpsertOthers(t, ToInfo(xs[0]), xs[0].createdAt.GetOr(now), now, symbol);
      UpsertAllOthers(next, xs[1..], now, symbol);
    }
  }

  /** A batch of one is a single save at the batch's time. */
  lemma BatchOfOne(t: Table, x: BasicInput, now: int)
    requires Complete(x)
    ensures BatchSave(t, [x], now, true) == Save(t, ToInfo(x), x.createdAt.GetOr(now), now, true)
  {
    assert [x][1..] == [];
    assert UpsertAll(t, [x], now) == UpsertAll(Upsert(t, ToInfo(x), x.createdAt.GetOr(now), now), [], now);
  }
}

=== FILE: crawler.dfy ===
/** `StockDataCrawler`: fetching listings, basic information, concept
    boards and daily bars from the market-data feeds, and the crawl loops
    that save them into the two tables.

    The feeds are functions of their arguments (`Feeds`); a call that raises
    and a frame that comes back empty are both `None`. Whether a save
    commits is a function of the saved columns (`saveOk`). The thread pools
    of the incremental crawl are a sequential loop: its counters only add
    up per-symbol outcomes, so the completion order does not change them. */
module Crawler {
  import opened Wrappers
  import opened Seqs
  import opened Text
  import Dates
  import opened MarketData
  import BasicInfoStore
  import DailyTradeStore
  import StockService

  type BasicInfo = BasicInfoStore.BasicInfo
  type Bar = DailyTradeStore.Bar

  datatype Feeds = Feeds(
    /** `stock_info_a_code_name`. */
    listing: Option<seq<Listing>>,
    /** `stock_individual_info_em` for a symbol. */
    detail: string -> Option<Detail>,
    /** `stock_board_concept_name_em`. */
    boards: Option<seq<Board>>,
    /** The member codes of `stock_board_concept_cons_em` for a board code. */
    members: string -> Option<seq<string>>,
    /** `stock_zh_a_hist` for a symbol and two `YYYYMMDD` dates. */
    history: (string, string, string) -> Option<seq<ApiRow>>)

  /** The wall clock: today, the day a year before, and the timestamp
      written into `created_at` and `updated_at`. */
  datatype Clock = Clock(today: Dates.DateCode, yearAgo: Dates.DateCode, stamp: int)

  // ---------------------------------------------------------------- listing

  /** `fetch_all_stock_list`: the listing, or nothing when it fails. */
  function StockList(f: Feeds): seq<Listing>
  {
    if f.listing.Some? then f.listing.value else []
  }

  function Codes(list: seq<Listing>): (r: seq<string>)
    ensures |r| == |list| && forall i :: 0 <= i < |list| ==> r[i] == list[i].code
  {
    seq(|list|, i requires 0 <= i < |list| => list[i].code)
  }

  // ---------------------------------------------------------------- basic information

  const Shenzhen := "深市"
  const Shanghai := "沪市"

  /** The exchange of a symbol: Shenzhen for the `00` and `30` prefixes,
      Shanghai for everything else. */
  function MarketOf(symbol: string): (r: string)
    ensures r == Shenzhen <==> IsPrefix("00", symbol) || IsPrefix("30", symbol)
    ensures r == Shenzhen || r == Shanghai
  {
    if IsPrefix("00", symbol) || IsPrefix("30", symbol) then Shenzhen else Shanghai
  }

  /** The market depends on the first two characters only. */
  lemma MarketByPrefix(a: string, b: string)
    requires |a| >= 2 && |b| >= 2 && a[..2] == b[..2]
    ensures MarketOf(a) == MarketOf(b)
  {
    assert a[..2] == "00" <==> IsPrefix("00", a);
    assert a[..2] == "30" <==> IsPrefix("30", a);
    assert b[..2] == "00" <==> IsPrefix("00", b);
    assert b[..2] == "30" <==> IsPrefix("30", b);
  }

  lemma MarketExamples()
    ensures MarketOf("000001") == Shenzhen && MarketOf("300750") == Shenzhen
    ensures MarketOf("600000") == Shanghai && MarketOf("688981") == Shanghai
    ensures MarketOf("0") == Shanghai
  {
    assert IsPrefix("00", "000001");
    assert IsPrefix("30", "300750");
    assert "600000"[..2][0] == '6' && "688981"[..2][0] == '6';
  }

  function Boards(f: Feeds): seq<Board>
  {
    if f.boards.Some? then f.boards.value else []
  }

  /** The board's member list was fetched and names `symbol`. */
  predicate HasMember(f: Feeds, symbol: string, b: Board)
  {
    f.members(b.code).Some? && symbol in f.members(b.code).value
  }

  function MemberOf(f: Feeds, symbol: string): Board -> bool
  {
    (b: Board) => HasMember(f, symbol, b)
  }

  function BoardNames(bs: seq<Board>): (r: seq<string>)
    ensures |r| == |bs| && forall i :: 0 <= i < |bs| ==> r[i] == bs[i].name
  {
    seq(|bs|, i requires 0 <= i < |bs| => bs[i].name)
  }

  /** At least one concept is collected before the limit is checked. */
  function Cap(limit: int): (r: int)
    ensures r >= 1
  {
    if limit >= 1 then limit else 1
  }

  /** The names of the first `Cap(limit)` boards, in board order, whose
      members include `symbol`. */
  function ConceptsOf(f: Feeds, symbol: string, limit: int): seq<string>
  {
    BoardNames(PyTake(Filter(Boards(f), MemberOf(f, symbol)), Cap(limit)))
  }

  lemma BoardNamesAppend(a: seq<Board>, b: Board)
    ensures BoardNames(a + [b]) == BoardNames(a) + [b.name]
  {
  }

  /** `_fetch_stock_concepts`: walks the boards, skipping those whose
      members cannot be fetched, and stops once `limit` names are held. */
  method FetchStockConcepts(f: Feeds, symbol: string, limit: int) returns (r: seq<string>)
    ensures r == ConceptsOf(f, symbol, limit)
    ensures |r| <= Cap(limit)
  {
    var bs := Boards(f);
    var p := MemberOf(f, symbol);
    r := [];
    var i := 0;
    while i < |bs|
      invariant 0 <= i <= |bs|
      invariant r == BoardNames(Filter(bs[..i], p))
      invariant |r| < Cap(limit)
    {
      var b := bs[i];
      var codes := f.members(b.code);
      ConceptStep(bs, i, p);
      if codes.Some? && symbol in codes.value {
        assert p(b);
        r := r + [b.name];
        if |r| >= limit {
          ConceptsStop(f, symbol, limit, i + 1);
          return;
        }
      }
      i := i + 1;
    }
    assert bs[..i] == bs;
    ConceptsStop(f, symbol, limit, i);
  }

  /** One more board extends the names found by its own when it holds the
      symbol. */
  lemma ConceptStep(bs: seq<Board>, i: int, p: Board -> bool)
    requires 0 <= i < |bs|
    ensures BoardNames(Filter(bs[..i + 1], p)) ==
              BoardNames(Filter(bs[..i], p)) + (if p(bs[i]) then [bs[i].name] else [])
  {
    FilterAppend(bs[..i], [bs[i]], p);
    assert bs[..i + 1] == bs[..i] + [bs[i]];
    if p(bs[i]) {
      assert Filter([bs[i]], p) == [bs[i]];
      BoardNamesAppend(Filter(bs[..i], p), bs[i]);
    } else {
      assert Filter([bs[i]], p) == [];
    }
  }

  /** The names found in the first `i` boards are the answer once they
      reach the cap, or once every board has been seen. */
  lemma ConceptsStop(f: Feeds, symbol: string, limit: int, i: int)
    requires 0 <= i <= |Boards(f)|
    requires var found := Filter(Boards(f)[..i], MemberOf(f, symbol));
             |found| == Cap(limit) || (i == |Boards(f)| && |found| < Cap(limit))
    ensures BoardNames(Filter(Boards(f)[..i], MemberOf(f, symbol))) == ConceptsOf(f, symbol, limit)
  {
    var bs := Boards(f);
    var p := MemberOf(f, symbol);
    FilterAppend(bs[..i], bs[i..], p);
    assert bs == bs[..i] + bs[i..];
    if i == |bs| {
      assert bs[..i] == bs;
    }
  }

  /** `name` is the name of a board that holds the symbol. */
  predicate NamesMemberBoard(f: Feeds, symbol: string, name: string)
  {
    exists b :: b in Boards(f) && HasMember(f, symbol, b) && b.name == name
  }

  /** Every name returned is the name of a board that holds the symbol. */
  lemma ConceptsAreMemberBoards(f: Feeds, symbol: string, limit: int)
    ensures forall name :: name in ConceptsOf(f, symbol, limit) ==> NamesMemberBoard(f, symbol, name)
  {
    var all := Filter(Boards(f), MemberOf(f, symbol));
    var ms := PyTake(all, Cap(limit));
    assert ConceptsOf(f, symbol, limit) == BoardNames(ms);
    forall name | name in ConceptsOf(f, symbol, limit)
      ensures NamesMemberBoard(f, symbol, name)
    {
      var i :| 0 <= i < |ms| && ms[i].name == name;
      assert ms[i] == all[i];
      assert all[i] in Boards(f) && MemberOf(f, symbol)(all[i]);
      assert HasMember(f, symbol, ms[i]);
    }
  }

  /** `datetime.strptime(s, '%Y-%m-%d')` on a non-empty listing date, with
      a failure read as no date. */
  function ListDate(s: string): Option<int>
  {
    if s != "" then Dates.ParseIsoDate(s) else None
  }

  /** `fetch_stock_basic_info`. */
  function FetchStockBasicInfo(f: Feeds, symbol: string): (r: Option<BasicInfo>)
    ensures r.None? <==> f.detail(symbol).None? || f.detail(symbol).value.name == ""
    ensures r.Some? ==>
              && r.value.symbol == symbol
              && r.value.name == f.detail(symbol).value.name == r.value.fullName
              && r.value.industry == f.detail(symbol).value.industry
              && r.value.region == f.detail(symbol).value.region
              && r.value.market == MarketOf(symbol)
  {
    match f.detail(symbol)
    case None => None
    case Some(d) =>
      if d.name == "" then None
      else
        Some(BasicInfoStore.BasicInfo(symbol, d.name, d.name, d.industry,
                                      Join(ConceptsOf(f, symbol, ConceptFetchLimit), "、"),
                                      d.region, MarketOf(symbol), ListDate(d.listDate)))
  }

  /** The number of concepts the basic information asks for. */
  const ConceptFetchLimit := 10

  /** The listing date stored is the day the detail spelled out: formatting
      it again gives the detail's text. */
  lemma ListDateRoundTrip(f: Feeds, symbol: string)
    requires FetchStockBasicInfo(f, symbol).Some?
    requires FetchStockBasicInfo(f, symbol).value.listDate.Some?
    ensures Dates.IsDateCode(FetchStockBasicInfo(f, symbol).value.listDate.value)
    ensures Dates.FormatIsoDate(FetchStockBasicInfo(f, symbol).value.listDate.value) ==
              f.detail(symbol).value.listDate
  {
    Dates.FormatParse(f.detail(symbol).value.listDate);
  }

  /** Board names that survive the service's split on `、` unchanged. */
  predicate CleanName(name: string)
  {
    name != "" && '、' !in name && Strip(name) == name
  }

  /** The concept column the crawler writes is read back by the service as
      the very names it joined, provided each is a clean name. */
  lemma ConceptColumnRoundTrip(names: seq<string>)
    requires forall i :: 0 <= i < |names| ==> CleanName(names[i])
    ensures StockService.ConceptNames(Join(names, "、")) == names
  {
    if names == [] {
      StockService.ConceptNamesEmpty();
    } else {
      assert "、" == ['、'];
      SplitJoin(names, '、');
      CleanPartsKept(names);
    }
  }

  /** Clean names pass the service's strip-and-drop-empty step unchanged. */
  lemma CleanPartsKept(names: seq<string>)
    requires forall i :: 0 <= i < |names| ==> CleanName(names[i])
    ensures StockService.CleanParts(names) == names
  {
    var stripped := StockService.StripAll(names);
    assert stripped == names by {
      forall i | 0 <= i < |names|
        ensures stripped[i] == names[i]
      {
        assert CleanName(names[i]);
      }
    }
    FilterAll(stripped, (x: string) => x != "");
  }

  /** With clean board names, the service sees exactly the concepts the
      crawler found, at most ten of them. */
  lemma BasicInfoConcepts(f: Feeds, symbol: string)
    requires FetchStockBasicInfo(f, symbol).Some?
    requires forall b :: b in Boards(f) ==> CleanName(b.name)
    ensures StockService.ConceptNames(FetchStockBasicInfo(f, symbol).value.concept) ==
              ConceptsOf(f, symbol, ConceptFetchLimit)
    ensures |ConceptsOf(f, symbol, ConceptFetchLimit)| <= ConceptFetchLimit
  {
    var names := ConceptsOf(f, symbol, ConceptFetchLimit);
    var ms := PyTake(Filter(Boards(f), MemberOf(f, symbol)), Cap(ConceptFetchLimit));
    forall i | 0 <= i < |names|
      ensures CleanName(names[i])
    {
      assert ms[i] in Filter(Boards(f), MemberOf(f, symbol));
    }
    ConceptColumnRoundTrip(names);
  }

  // ---------------------------------------------------------------- daily bars

  /** A supplied date with every `-` removed; without one (or with `''`)
      the default. */
  function NormDate(d: Option<string>, default: string): (r: string)
    ensures d.Some? && d.value != "" ==> '-' !in r && |r| <= |d.value|
    ensures d.None? || d.value == "" ==> r == default
  {
    if d.None? || d.value == "" then default else RemoveChar(d.value, '-')
  }

  /** An ISO date and its compact form reach the feed as the same text, and
      the clock's defaults are in that form too. */
  lemma NormDateForms(n: Dates.DateCode, default: string)
    ensures NormDate(Some(Dates.FormatIsoDate(n)), default) == Dates.FormatCompactDate(n)
    ensures NormDate(Some(Dates.FormatCompactDate(n)), default) == Dates.FormatCompactDate(n)
  {
    Dates.CompactOfIso(n);
    Dates.CompactHasNoDash(n);
  }

  /** Normalising a non-empty result again changes nothing. */
  lemma NormDateIdempotent(d: Option<string>, default: string)
    requires '-' !in default
    requires NormDate(d, default) != ""
    ensures NormDate(Some(NormDate(d, default)), default) == NormDate(d, default)
  {
    if d.Some? && d.value != "" {
      RemoveCharKeepsOthers(d.value, '-');
    } else {
      RemoveCharNoop(default, '-');
    }
  }

  function Rows(x: Option<seq<ApiRow>>): seq<ApiRow>
  {
    if x.Some? then x.value else []
  }

  /** `fetch_stock_daily_trade`: the history between the normalised dates
      (a year ago and today by default), one bar per row under `symbol`. */
  function FetchStockDailyTrade(f: Feeds, clock: Clock, symbol: string, start: Option<string>, end: Option<string>): (r: seq<Bar>)
    ensures var rows := Rows(f.history(symbol, NormDate(start, Dates.FormatCompactDate(clock.yearAgo)),
                                       NormDate(end, Dates.FormatCompactDate(clock.today))));
            && |r| == |rows|
            && forall i :: 0 <= i < |r| ==>
                 r[i] == BarOf(symbol, rows[i]) && r[i].symbol == symbol && r[i].tradeDate == rows[i].date
  {
    var rows := Rows(f.history(symbol, NormDate(start, Dates.FormatCompactDate(clock.yearAgo)),
                               NormDate(end, Dates.FormatCompactDate(clock.today))));
    seq(|rows|, i requires 0 <= i < |rows| => BarOf(symbol, rows[i]))
  }

  /** The saves of `crawl_stock_daily_trade`, one per bar, in order. */
  function SaveBars(t: DailyTradeStore.Table, bars: seq<Bar>, stamp: int, saveOk: Bar -> bool): (r: DailyTradeStore.Table)
    ensures DailyTradeStore.Valid(t) ==> DailyTradeStore.Valid(r)
    decreases |bars|
  {
    if bars == [] then t
    else SaveBars(DailyTradeStore.Save(t, bars[0], stamp, saveOk(bars[0])).0, bars[1..], stamp, saveOk)
  }

  /** Every bar that committed and is the last with its key is found in the
      table afterwards. */
  lemma {:induction false} SaveBarsLastWins(t: DailyTradeStore.Table, bars: seq<Bar>, stamp: int, saveOk: Bar -> bool, i: int)
    requires DailyTradeStore.Valid(t)
    requires 0 <= i < |bars| && saveOk(bars[i])
    requires forall k :: i < k < |bars| ==> !DailyTradeStore.SameKey(bars[k], bars[i])
    ensures var found := DailyTradeStore.Find(SaveBars(t, bars, stamp, saveOk), bars[i].symbol, bars[i].tradeDate);
            found.Some? && found.value.bar == bars[i]
    decreases |bars|
  {
    var next := DailyTradeStore.Save(t, bars[0], stamp, saveOk(bars[0])).0;
    if i == 0 {
      DailyTradeStore.UpsertThenFind(t, bars[0], stamp, bars[0].symbol, bars[0].tradeDate);
      SaveBarsOthers(next, bars[1..], stamp, saveOk, bars[0].symbol, bars[0].tradeDate);
    } else {
      SaveBarsLastWins(next, bars[1..], stamp, saveOk, i - 1);
    }
  }

  /** Saving bars under other keys leaves a row alone. */
  lemma {:induction false} SaveBarsOthers(t: DailyTradeStore.Table, bars: seq<Bar>, stamp: int, saveOk: Bar -> bool,
                                          symbol: string, date: int)
    requires DailyTradeStore.Valid(t)
    requires forall k :: 0 <= k < |bars| ==> !(bars[k].symbol == symbol && bars[k].tradeDate == date)
    ensures DailyTradeStore.Find(SaveBars(t, bars, stamp, saveOk), symbol, date) == DailyTradeStore.Find(t, symbol, date)
    decreases |bars|
  {
    if bars != [] {
      var next := DailyTradeStore.Save(t, bars[0], stamp, saveOk(bars[0])).0;
      if saveOk(bars[0]) {
        DailyTradeStore.UpsertThenFind(t, bars[0], stamp, symbol, date);
      }
      SaveBarsOthers(next, bars[1..], stamp, saveOk, symbol, date);
    }
  }

  /** `crawl_stock_daily_trade`: saves each fetched bar and counts the
      saves that committed. */
  method CrawlStockDailyTrade(t: DailyTradeStore.Table, f: Feeds, clock: Clock, symbol: string,
                              start: Option<string>, end: Option<string>, saveOk: Bar -> bool)
    returns (t': DailyTradeStore.Table, count: nat)
    ensures var bars := FetchStockDailyTrade(f, clock, symbol, start, end);
            && count == |Filter(bars, saveOk)| <= |bars|
            && t' == SaveBars(t, bars, clock.stamp, saveOk)
    ensures DailyTradeStore.Valid(t) ==> DailyTradeStore.Valid(t')
  {
    var bars := FetchStockDailyTrade(f, clock, symbol, start, end);
    t' := t;
    count := 0;
    if bars == [] {
      return;
    }
    t', count := SaveAll(t, bars, clock.stamp, saveOk);
  }

  /** The save loop of `crawl_stock_daily_trade`. */
  method SaveAll(t: DailyTradeStore.Table, bars: seq<Bar>, stamp: int, saveOk: Bar -> bool)
    returns (t': DailyTradeStore.Table, count: nat)
    ensures count == |Filter(bars, saveOk)| <= |bars|
    ensures t' == SaveBars(t, bars, stamp, saveOk)
  {
    t' := t;
    count := 0;
    var i := 0;
    while i < |bars|
      invariant 0 <= i <= |bars|
      invariant count == |Filter(bars[..i], saveOk)|
      invariant SaveBars(t', bars[i..], stamp, saveOk) == SaveBars(t, bars, stamp, saveOk)
    {
      var ok := saveOk(bars[i]);
      SaveBarsStep(t', bars, i, stamp, saveOk);
      var saved := DailyTradeStore.Save(t', bars[i], stamp, ok);
      t' := saved.0;
      if saved.1 {
        count := count + 1;
      }
      i := i + 1;
    }
    assert bars[..i] == bars;
  }

  /** One turn of the save loop: the bar at `i` is saved, and counted when
      its save commits. */
  lemma SaveBarsStep(t: DailyTradeStore.Table, bars: seq<Bar>, i: int, stamp: int, saveOk: Bar -> bool)
    requires 0 <= i < |bars|
    ensures SaveBars(t, bars[i..], stamp, saveOk)
         == SaveBars(DailyTradeStore.Save(t, bars[i], stamp, saveOk(bars[i])).0, bars[i + 1..], stamp, saveOk)
    ensures |Filter(bars[..i + 1], saveOk)| == |Filter(bars[..i], saveOk)| + if saveOk(bars[i]) then 1 else 0
  {
    assert bars[i..][1..] == bars[i + 1..];
    FilterAppend(bars[..i], [bars[i]], saveOk);
    assert bars[..i + 1] == bars[..i] + [bars[i]];
  }

  /** The rows a symbol's crawl saves. */
  function SavedCount(f: Feeds, clock: Clock, symbol: string, start: Option<string>, end: Option<string>,
                      saveOk: Bar -> bool): nat
  {
    |Filter(FetchStockDailyTrade(f, clock, symbol, start, end), saveOk)|
  }

  /** The rows each symbol's crawl saves. */
  function Counts(f: Feeds, clock: Clock, symbols: seq<string>, start: Option<string>, end: Option<string>,
                  saveOk: Bar -> bool): (r: seq<nat>)
    ensures |r| == |symbols|
    ensures forall i :: 0 <= i < |symbols| ==> r[i] == SavedCount(f, clock, symbols[i], start, end, saveOk)
  {
    Map(symbols, (s: string) => SavedCount(f, clock, s, start, end, saveOk))
  }

  /** The symbol's crawl saved nothing. */
  function NothingSaved(f: Feeds, clock: Clock, start: Option<string>, end: Option<string>,
                        saveOk: Bar -> bool): string -> bool
  {
    (s: string) => SavedCount(f, clock, s, start, end, saveOk) == 0
  }

  /** The loop shared by `crawl_all_stock_daily_trade` and
      `crawl_today_trade_data`: rows saved are successes, symbols with no
      row saved are failures. */
  method CrawlSymbols(t: DailyTradeStore.Table, f: Feeds, clock: Clock, symbols: seq<string>,
                      start: Option<string>, end: Option<string>, saveOk: Bar -> bool)
    returns (t': DailyTradeStore.Table, success: nat, fail: nat)
    ensures success == Sum(Counts(f, clock, symbols, start, end, saveOk))
    ensures fail == |Filter(symbols, NothingSaved(f, clock, start, end, saveOk))| <= |symbols|
    ensures DailyTradeStore.Valid(t) ==> DailyTradeStore.Valid(t')
  {
    var none := NothingSaved(f, clock, start, end, saveOk);
    t' := t;
    success := 0;
    fail := 0;
    var i := 0;
    while i < |symbols|
      invariant 0 <= i <= |symbols|
      invariant success == Sum(Counts(f, clock, symbols[..i], start, end, saveOk))
      invariant fail == |Filter(symbols[..i], none)|
      invariant DailyTradeStore.Valid(t) ==> DailyTradeStore.Valid(t')
    {
      t', success, fail := CrawlNext(t', f, clock, symbols, i, start, end, saveOk, success, fail);
      i := i + 1;
    }
    assert symbols[..i] == symbols;
  }

  /** One turn of the loop of `CrawlSymbols`: crawl the `i`-th symbol and
      tally its outcome. */
  method CrawlNext(t: DailyTradeStore.Table, f: Feeds, clock: Clock, symbols: seq<string>, i: int,
                   start: Option<string>, end: Option<string>, saveOk: Bar -> bool, success: nat, fail: nat)
    returns (t': DailyTradeStore.Table, success': nat, fail': nat)
    requires 0 <= i < |symbols|
    requires success == Sum(Counts(f, clock, symbols[..i], start, end, saveOk))
    requires fail == |Filter(symbols[..i], NothingSaved(f, clock, start, end, saveOk))|
    ensures success' == Sum(Counts(f, clock, symbols[..i + 1], start, end, saveOk))
    ensures fail' == |Filter(symbols[..i + 1], NothingSaved(f, clock, start, end, saveOk))|
    ensures DailyTradeStore.Valid(t) ==> DailyTradeStore.Valid(t')
  {
    CountStep(f, clock, symbols, i, start, end, saveOk);
    var count;
    t', count := CrawlStockDailyTrade(t, f, clock, symbols[i], start, end, saveOk);
    success', fail' := success, fail;
    if count > 0 {
      success' := success + count;
    } else {
      fail' := fail + 1;
    }
  }

  /** One more symbol adds its saved rows to the sum, and counts as a
      failure when it saved none. */
  lemma CountStep(f: Feeds, clock: Clock, symbols: seq<string>, i: int, start: Option<string>, end: Option<string>,
                  saveOk: Bar -> bool)
    requires 0 <= i < |symbols|
    ensures var c := SavedCount(f, clock, symbols[i], start, end, saveOk);
            Sum(Counts(f, clock, symbols[..i + 1], start, end, saveOk)) ==
              Sum(Counts(f, clock, symbols[..i], start, end, saveOk)) + c
    ensures var none := NothingSaved(f, clock, start, end, saveOk);
            |Filter(symbols[..i + 1], none)| ==
              |Filter(symbols[..i], none)| + (if SavedCount(f, clock, symbols[i], start, end, saveOk) == 0 then 1 else 0)
  {
    MapStep(symbols, i, (s: string) => SavedCount(f, clock, s, start, end, saveOk));
    FilterStep(symbols, i, NothingSaved(f, clock, start, end, saveOk));
  }

  /** Nothing was saved exactly when every symbol failed. */
  lemma NothingSavedAllFailed(f: Feeds, clock: Clock, symbols: seq<string>, start: Option<string>, end: Option<string>,
                              saveOk: Bar -> bool)
    ensures Sum(Counts(f, clock, symbols, start, end, saveOk)) == 0 <==>
              |Filter(symbols, NothingSaved(f, clock, start, end, saveOk))| == |symbols|
  {
    var none := NothingSaved(f, clock, start, end, saveOk);
    var counts := Counts(f, clock, symbols, start, end, saveOk);
    SumZero(counts);
    if |Filter(symbols, none)| == |symbols| {
      FilterKeepsAll(symbols, none);
    }
    if Sum(counts) == 0 {
      FilterAll(symbols, none);
    }
  }

  /** `crawl_all_stock_daily_trade`: every stored symbol, or the first
      `limit` when `limit` is truthy; `(0, 0)` when none is stored. */
  method CrawlAllStockDailyTrade(t: DailyTradeStore.Table, basic: BasicInfoStore.Table, readOk: bool, f: Feeds,
                                 clock: Clock, start: Option<string>, end: Option<string>, limit: Option<int>,
                                 saveOk: Bar -> bool)
    returns (t': DailyTradeStore.Table, success: nat, fail: nat)
    ensures var stocks := BasicInfoStore.GetAllSymbols(basic, readOk);
            var window := Window(stocks, limit, None);
            && (stocks == [] ==> t' == t && success == 0 && fail == 0)
            && (stocks != [] ==> success == Sum(Counts(f, clock, window, start, end, saveOk)))
            && (stocks != [] ==> fail == |Filter(window, NothingSaved(f, clock, start, end, saveOk))|)
            && fail <= |window| <= |stocks|
    ensures DailyTradeStore.Valid(t) ==> DailyTradeStore.Valid(t')
  {
    var stocks := BasicInfoStore.GetAllSymbols(basic, readOk);
    if stocks == [] {
      return t, 0, 0;
    }
    t', success, fail := CrawlSymbols(t, f, clock, Window(stocks, limit, None), start, end, saveOk);
  }

  /** `crawl_today_trade_data`: every stored symbol, today's bar only. */
  method CrawlTodayTradeData(t: DailyTradeStore.Table, basic: BasicInfoStore.Table, readOk: bool, f: Feeds,
                             clock: Clock, saveOk: Bar -> bool)
    returns (t': DailyTradeStore.Table, success: nat, fail: nat)
    ensures var stocks := BasicInfoStore.GetAllSymbols(basic, readOk);
            var today := Some(Dates.FormatIsoDate(clock.today));
            && (stocks == [] ==> t' == t && success == 0 && fail == 0)
            && (stocks != [] ==> success == Sum(Counts(f, clock, stocks, today, today, saveOk)))
            && fail == |Filter(stocks, NothingSaved(f, clock, today, today, saveOk))| <= |stocks|
    ensures DailyTradeStore.Valid(t) ==> DailyTradeStore.Valid(t')
  {
    var stocks := BasicInfoStore.GetAllSymbols(basic, readOk);
    var today := Some(Dates.FormatIsoDate(clock.today));
    if stocks == [] {
      return t, 0, 0;
    }
    t', success, fail := CrawlSymbols(t, f, clock, stocks, today, today, saveOk);
  }

  /** Today's crawl asks the feed for the single day `YYYYMMDD` of today. */
  lemma TodayRequest(f: Feeds, clock: Clock, symbol: string)
    ensures var today := Some(Dates.FormatIsoDate(clock.today));
            FetchStockDailyTrade(f, clock, symbol, today, today) ==
              FetchStockDailyTrade(f, clock, symbol, Some(Dates.FormatCompactDate(clock.today)), None)
  {
    NormDateForms(clock.today, Dates.FormatCompactDate(clock.yearAgo));
    NormDateForms(clock.today, Dates.FormatCompactDate(clock.today));
  }

  // ---------------------------------------------------------------- windows

  /** `list[offset:]` when an offset is given, then `[:limit]` when the
      limit is truthy. */
  function Window<T>(list: seq<T>, limit: Option<int>, offset: Option<int>): (r: seq<T>)
    ensures |r| <= |list|
    ensures limit.Some? && limit.value > 0 ==> |r| <= limit.value
  {
    var rest := if offset.Some? then PyDrop(list, offset.value) else list;
    if limit.Some? && limit.value != 0 then PyTake(rest, limit.value) else rest
  }

  /** With a non-negative offset and positive limit the window is the
      slice between them, clipped to the list. */
  lemma WindowSlice<T>(list: seq<T>, limit: int, offset: int)
    requires offset >= 0 && limit > 0
    ensures var a := if offset < |list| then offset else |list|;
            var b := if offset + limit < |list| then offset + limit else |list|;
            Window(list, Some(limit), Some(offset)) == list[a..b]
  {
  }

  /** A zero limit is no limit. */
  lemma WindowZeroLimit<T>(list: seq<T>, offset: Option<int>)
    ensures Window(list, Some(0), offset) == Window(list, None, offset)
    ensures Window(list, None, None) == list
  {
  }

  /** Consecutive batches (`offset`, then `offset + limit`) cover the list
      from `offset` on without gap or overlap. */
  lemma WindowsTile<T>(list: seq<T>, offset: int, limit: int)
    requires offset >= 0 && limit > 0
    ensures Window(list, Some(limit), Some(offset)) + Window(list, None, Some(offset + limit)) ==
              Window(list, None, Some(offset))
  {
    WindowSlice(list, limit, offset);
    if offset + limit < |list| {
      assert list[offset..] == list[offset..offset + limit] + list[offset + limit..];
    }
  }

  // ---------------------------------------------------------------- basic-information crawls

  /** The information fetched for `symbol` exists and its save commits. */
  predicate Stored(f: Feeds, saveOk: BasicInfo -> bool, symbol: string)
  {
    FetchStockBasicInfo(f, symbol).Some? && saveOk(FetchStockBasicInfo(f, symbol).value)
  }

  function StoredBy(f: Feeds, saveOk: BasicInfo -> bool): string -> bool
  {
    (s: string) => Stored(f, saveOk, s)
  }

  /** The table holds `info` under its symbol. */
  predicate Holds(t: BasicInfoStore.Table, info: BasicInfo)
  {
    BasicInfoStore.Find(t, info.symbol).Some? && BasicInfoStore.Find(t, info.symbol).value.info == info
  }

  /** Every symbol among the first `n` whose information was stored is
      held by the table. */
  predicate HoldsStored(t: BasicInfoStore.Table, f: Feeds, saveOk: BasicInfo -> bool, symbols: seq<string>, n: int)
    requires 0 <= n <= |symbols|
  {
    forall k :: 0 <= k < n && Stored(f, saveOk, symbols[k]) ==> Holds(t, FetchStockBasicInfo(f, symbols[k]).value)
  }

  /** Symbols outside `symbols` have the rows they had in `t0`. */
  ghost predicate Untouched(t: BasicInfoStore.Table, t0: BasicInfoStore.Table, symbols: seq<string>)
  {
    forall s :: s !in symbols ==> BasicInfoStore.Find(t, s) == BasicInfoStore.Find(t0, s)
  }

  /** Fetch and save each symbol in turn; the loop of
      `crawl_all_stock_basic_info` and of both phases of
      `crawl_incremental_basic_info`. */
  method SaveEach(t: BasicInfoStore.Table, f: Feeds, saveOk: BasicInfo -> bool, stamp: int, symbols: seq<string>)
    returns (t': BasicInfoStore.Table, ok: nat, failed: nat)
    ensures ok == |Filter(symbols, StoredBy(f, saveOk))|
    ensures ok + failed == |symbols|
    ensures BasicInfoStore.Valid(t) ==> BasicInfoStore.Valid(t')
    ensures BasicInfoStore.Valid(t) ==> HoldsStored(t', f, saveOk, symbols, |symbols|)
    ensures Untouched(t', t, symbols)
  {
    var p := StoredBy(f, saveOk);
    t' := t;
    ok := 0;
    failed := 0;
    var i := 0;
    while i < |symbols|
      invariant 0 <= i <= |symbols|
      invariant ok == |Filter(symbols[..i], p)|
      invariant ok + failed == i
      invariant BasicInfoStore.Valid(t) ==> BasicInfoStore.Valid(t')
      invariant BasicInfoStore.Valid(t) ==> HoldsStored(t', f, saveOk, symbols, i)
      invariant Untouched(t', t, symbols[..i])
    {
      var symbol := symbols[i];
      var info := FetchStockBasicInfo(f, symbol);
      StoredStep(symbols, i, p);
      if info.Some? {
        var saved := BasicInfoStore.Save(t', info.value, stamp, stamp, saveOk(info.value));
        if saved.1 {
          SaveStep(t, t', f, saveOk, stamp, symbols, i);
          ok := ok + 1;
        } else {
          SkipStep(t, t', f, saveOk, symbols, i);
          failed := failed + 1;
        }
        t' := saved.0;
      } else {
        SkipStep(t, t', f, saveOk, symbols, i);
        failed := failed + 1;
      }
      i := i + 1;
    }
    assert symbols[..i] == symbols;
  }

  lemma StoredStep(symbols: seq<string>, i: int, p: string -> bool)
    requires 0 <= i < |symbols|
    ensures |Filter(symbols[..i + 1], p)| == |Filter(symbols[..i], p)| + (if p(symbols[i]) then 1 else 0)
  {
    FilterAppend(symbols[..i], [symbols[i]], p);
    assert symbols[..i + 1] == symbols[..i] + [symbols[i]];
  }

  /** A symbol whose information is not stored leaves the table as it is. */
  lemma SkipStep(t0: BasicInfoStore.Table, t: BasicInfoStore.Table, f: Feeds, saveOk: BasicInfo -> bool,
                 symbols: seq<string>, i: int)
    requires 0 <= i < |symbols| && !Stored(f, saveOk, symbols[i])
    requires BasicInfoStore.Valid(t0) ==> HoldsStored(t, f, saveOk, symbols, i)
    requires Untouched(t, t0, symbols[..i])
    ensures BasicInfoStore.Valid(t0) ==> HoldsStored(t, f, saveOk, symbols, i + 1)
    ensures Untouched(t, t0, symbols[..i + 1])
  {
    assert symbols[..i + 1] == symbols[..i] + [symbols[i]];
  }

  /** Saving a symbol's information makes the table hold it, keeps what it
      held for the others, and touches no other symbol. */
  lemma SaveStep(t0: BasicInfoStore.Table, t: BasicInfoStore.Table, f: Feeds, saveOk: BasicInfo -> bool, stamp: int,
                 symbols: seq<string>, i: int)
    requires 0 <= i < |symbols| && Stored(f, saveOk, symbols[i])
    requires BasicInfoStore.Valid(t0) ==> BasicInfoStore.Valid(t) && HoldsStored(t, f, saveOk, symbols, i)
    requires Untouched(t, t0, symbols[..i])
    ensures var t' := BasicInfoStore.Upsert(t, FetchStockBasicInfo(f, symbols[i]).value, stamp, stamp);
            && (BasicInfoStore.Valid(t0) ==> HoldsStored(t', f, saveOk, symbols, i + 1))
            && Untouched(t', t0, symbols[..i + 1])
  {
    var info := FetchStockBasicInfo(f, symbols[i]).value;
    SaveStepUntouched(t0, t, info, stamp, symbols, i);
    if BasicInfoStore.Valid(t0) {
      SaveStepHolds(t, f, saveOk, stamp, symbols, i);
    }
  }

  lemma SaveStepUntouched(t0: BasicInfoStore.Table, t: BasicInfoStore.Table, info: BasicInfo, stamp: int,
                          symbols: seq<string>, i: int)
    requires 0 <= i < |symbols| && info.symbol == symbols[i]
    requires Untouched(t, t0, symbols[..i])
    ensures Untouched(BasicInfoStore.Upsert(t, info, stamp, stamp), t0, symbols[..i + 1])
  {
    assert symbols[..i + 1] == symbols[..i] + [symbols[i]];
    SaveKeepsOthers(t, info, stamp);
  }

  lemma SaveStepHolds(t: BasicInfoStore.Table, f: Feeds, saveOk: BasicInfo -> bool, stamp: int,
                      symbols: seq<string>, i: int)
    requires 0 <= i < |symbols| && Stored(f, saveOk, symbols[i])
    requires BasicInfoStore.Valid(t) && HoldsStored(t, f, saveOk, symbols, i)
    ensures HoldsStored(BasicInfoStore.Upsert(t, FetchStockBasicInfo(f, symbols[i]).value, stamp, stamp),
                        f, saveOk, symbols, i + 1)
  {
    var info := FetchStockBasicInfo(f, symbols[i]).value;
    var t' := BasicInfoStore.Upsert(t, info, stamp, stamp);
    forall k | 0 <= k < i + 1 && Stored(f, saveOk, symbols[k])
      ensures Holds(t', FetchStockBasicInfo(f, symbols[k]).value)
    {
      UpsertHolds(t, info, stamp, FetchStockBasicInfo(f, symbols[k]).value);
    }
  }

  /** After an upsert the table holds the saved information, and still
      holds what it held under every other symbol. */
  lemma UpsertHolds(t: BasicInfoStore.Table, info: BasicInfo, stamp: int, other: BasicInfo)
    requires BasicInfoStore.Valid(t)
    requires other == info || (other.symbol != info.symbol && Holds(t, other))
    ensures Holds(BasicInfoStore.Upsert(t, info, stamp, stamp), other)
  {
    if other == info {
      BasicInfoStore.UpsertThenFind(t, info, stamp, stamp);
    } else {
      BasicInfoStore.UpsertOthers(t, info, stamp, stamp, other.symbol);
    }
  }

  /** An upsert changes only the row of the saved symbol. */
  lemma SaveKeepsOthers(t: BasicInfoStore.Table, info: BasicInfo, stamp: int)
    ensures forall s :: s != info.symbol ==>
              BasicInfoStore.Find(BasicInfoStore.Upsert(t, info, stamp, stamp), s) == BasicInfoStore.Find(t, s)
  {
    forall s | s != info.symbol
      ensures BasicInfoStore.Find(BasicInfoStore.Upsert(t, info, stamp, stamp), s) == BasicInfoStore.Find(t, s)
    {
      BasicInfoStore.UpsertOthers(t, info, stamp, stamp, s);
    }
  }

  /** `crawl_all_stock_basic_info`: every listed code in the window is
      fetched and saved; each is a success or a failure. */
  method CrawlAllStockBasicInfo(t: BasicInfoStore.Table, f: Feeds, saveOk: BasicInfo -> bool, stamp: int,
                                limit: Option<int>, offset: Option<int>)
    returns (t': BasicInfoStore.Table, success: nat, fail: nat)
    ensures var window := Window(Codes(StockList(f)), limit, offset);
            && success + fail == |window|
            && success == |Filter(window, StoredBy(f, saveOk))|
            && (BasicInfoStore.Valid(t) ==> HoldsStored(t', f, saveOk, window, |window|))
            && Untouched(t', t, window)
    ensures BasicInfoStore.Valid(t) ==> BasicInfoStore.Valid(t')
  {
    t', success, fail := SaveEach(t, f, saveOk, stamp, Window(Codes(StockList(f)), limit, offset));
  }

  datatype IncrementalCounts = IncrementalCounts(newCount: nat, updatedCount: nat, failedCount: nat, skippedCount: nat)

  function SymbolSet(s: seq<string>): set<string>
  {
    set x | x in s
  }

  /** The listed codes not yet stored, each once, in listing order. */
  function NewSymbols(listed: seq<string>, existing: set<string>): (r: seq<string>)
    ensures NoDuplicates(r)
    ensures forall s :: s in r <==> s in listed && s !in existing
    ensures |r| == |SymbolSet(listed) - existing|
  {
    var r := Filter(Dedup(listed), (s: string) => s !in existing);
    FilterDistinct(Dedup(listed), (s: string) => s !in existing);
    DistinctCard(r);
    assert SymbolSet(r) == SymbolSet(listed) - existing;
    r
  }

  /** The stored symbols, each once. */
  function Known(s: seq<string>): (r: seq<string>)
    ensures NoDuplicates(r)
    ensures forall x :: x in r <==> x in s
    ensures |r| == |SymbolSet(s)|
  {
    var r := Dedup(s);
    DistinctCard(r);
    assert SymbolSet(r) == SymbolSet(s);
    r
  }

  /** The first phase of `crawl_incremental_basic_info`: the listed codes
      not yet stored are crawled, and nothing stored before changes. */
  method CrawlNewPhase(t: BasicInfoStore.Table, existing: set<string>, f: Feeds, saveOk: BasicInfo -> bool, stamp: int)
    returns (t': BasicInfoStore.Table, newCount: nat, failedCount: nat, skippedCount: nat)
    ensures var newSymbols := SymbolSet(Codes(StockList(f))) - existing;
            && newCount + failedCount == |newSymbols|
            && skippedCount == (if newSymbols == {} then |existing| else 0)
            && newCount == |Filter(NewSymbols(Codes(StockList(f)), existing), StoredBy(f, saveOk))|
            && (BasicInfoStore.Valid(t) ==>
                  forall s :: s in newSymbols && Stored(f, saveOk, s) ==> Holds(t', FetchStockBasicInfo(f, s).value))
            && forall s :: s in existing ==> BasicInfoStore.Find(t', s) == BasicInfoStore.Find(t, s)
    ensures BasicInfoStore.Valid(t) ==> BasicInfoStore.Valid(t')
  {
    var newSymbols := NewSymbols(Codes(StockList(f)), existing);
    t', newCount, failedCount, skippedCount := t, 0, 0, 0;
    if newSymbols != [] {
      t', newCount, failedCount := SaveEach(t, f, saveOk, stamp, newSymbols);
    } else {
      skippedCount := |existing|;
    }
  }

  /** The second phase of `crawl_incremental_basic_info`: every stored
      symbol is crawled again, and rows of other symbols do not change. */
  method CrawlUpdatePhase(t: BasicInfoStore.Table, existingSeq: seq<string>, f: Feeds, saveOk: BasicInfo -> bool, stamp: int)
    returns (t': BasicInfoStore.Table, updatedCount: nat, failedCount: nat)
    ensures updatedCount + failedCount == |SymbolSet(existingSeq)|
    ensures updatedCount == |Filter(Known(existingSeq), StoredBy(f, saveOk))|
    ensures forall s :: s !in existingSeq ==> BasicInfoStore.Find(t', s) == BasicInfoStore.Find(t, s)
    ensures BasicInfoStore.Valid(t) ==> BasicInfoStore.Valid(t')
  {
    t', updatedCount, failedCount := SaveEach(t, f, saveOk, stamp, Known(existingSeq));
  }

  /** `crawl_incremental_basic_info`: crawls the listed codes that are not
      stored yet; with `updateExisting`, re-crawls every stored symbol as
      well. */
  method CrawlIncrementalBasicInfo(t: BasicInfoStore.Table, readOk: bool, f: Feeds, saveOk: BasicInfo -> bool,
                                   stamp: int, updateExisting: bool)
    returns (t': BasicInfoStore.Table, r: IncrementalCounts)
    ensures var existing := SymbolSet(BasicInfoStore.GetAllSymbols(t, readOk));
            var newSymbols := SymbolSet(Codes(StockList(f))) - existing;
            && (!updateExisting ==> r.newCount + r.failedCount == |newSymbols| && r.updatedCount == 0)
            && (updateExisting ==> r.newCount + r.updatedCount + r.failedCount == |newSymbols| + |existing|)
            && r.skippedCount == (if newSymbols == {} then |existing| else 0)
            && r.newCount == |Filter(NewSymbols(Codes(StockList(f)), existing), StoredBy(f, saveOk))|
            && (updateExisting ==>
                  r.updatedCount == |Filter(Known(BasicInfoStore.GetAllSymbols(t, readOk)), StoredBy(f, saveOk))|)
            && (BasicInfoStore.Valid(t) ==>
                  forall s :: s in newSymbols && Stored(f, saveOk, s) ==> Holds(t', FetchStockBasicInfo(f, s).value))
            && (!updateExisting ==> forall s :: s in existing ==> BasicInfoStore.Find(t', s) == BasicInfoStore.Find(t, s))
    ensures BasicInfoStore.Valid(t) ==> BasicInfoStore.Valid(t')
  {
    var existingSeq := BasicInfoStore.GetAllSymbols(t, readOk);
    var newCount, updatedCount, failedCount, skippedCount := 0, 0, 0, 0;
    t', newCount, failedCount, skippedCount := CrawlNewPhase(t, SymbolSet(existingSeq), f, saveOk, stamp);
    if updateExisting {
      var failedAgain;
      t', updatedCount, failedAgain := CrawlUpdatePhase(t', existingSeq, f, saveOk, stamp);
      failedCount := failedCount + failedAgain;
    }
    r := IncrementalCounts(newCount, updatedCount, failedCount, skippedCount);
  }
}

=== FILE: daily_trade_store.dfy ===
/** `StockDailyTrade`: the `stock_daily_trade` table, one row per
    (symbol, trade date), with its upsert, batch upsert and queries.

    Trade dates are integers `YYYYMMDD`, so their order is the calendar
    order. As for the basic-information table, timestamps are supplied by
    the caller and `ok` says whether the statement and its commit complete. */
module DailyTradeStore {
  import opened Wrappers
  import opened Seqs
  import opened Ordering

  /** One day's bar; every price column may be NULL. */
  datatype Bar = Bar(
    symbol: string,
    tradeDate: int,
    open: Option<real>,
    high: Option<real>,
    low: Option<real>,
    close: Option<real>,
    volume: Option<int>,
    amount: Option<real>,
    changePct: Option<real>,
    turnoverRate: Option<real>)

  datatype TradeRow = TradeRow(bar: Bar, createdAt: int)

  type Table = seq<TradeRow>

  predicate SameKey(a: Bar, b: Bar)
  {
    a.symbol == b.symbol && a.tradeDate == b.tradeDate
  }

  /** The unique key `uk_symbol_date` holds. */
  predicate Valid(t: Table)
  {
    forall i, j :: 0 <= i < j < |t| ==> !SameKey(t[i].bar, t[j].bar)
  }

  predicate HasKey(t: Table, bar: Bar)
  {
    exists i :: 0 <= i < |t| && SameKey(t[i].bar, bar)
  }

  /** `INSERT … ON DUPLICATE KEY UPDATE`: a new key appends a row; an
      existing one has its price columns replaced and keeps `created_at`. */
  function Upsert(t: Table, bar: Bar, createdAt: int): (r: Table)
    ensures |r| == if HasKey(t, bar) then |t| else |t| + 1
    ensures forall i :: 0 <= i < |t| ==> SameKey(r[i].bar, t[i].bar)
    ensures Valid(t) ==> Valid(r)
  {
    if HasKey(t, bar) then
      seq(|t|, i requires 0 <= i < |t| =>
        if SameKey(t[i].bar, bar) then TradeRow(bar, t[i].createdAt) else t[i])
    else
      t + [TradeRow(bar, createdAt)]
  }

  /** `get_by_symbol_and_date`: the row under a key. */
  function Find(t: Table, symbol: string, date: int): (r: Option<TradeRow>)
    ensures r.Some? <==> exists i :: 0 <= i < |t| && t[i].bar.symbol == symbol && t[i].bar.tradeDate == date
    ensures r.Some? ==> r.value in t && r.value.bar.symbol == symbol && r.value.bar.tradeDate == date
  {
    if t == [] then None
    else if t[0].bar.symbol == symbol && t[0].bar.tradeDate == date then Some(t[0])
    else
      var r := Find(t[1..], symbol, date);
      assert forall i :: 1 <= i < |t| ==> t[i] == t[1..][i - 1];
      r
  }

  /** After an upsert the key holds exactly the saved bar, with the
      `created_at` of the row it replaced or, for a new key, the one given;
      every other key holds what it held before. */
  lemma {:induction false} UpsertThenFind(t: Table, bar: Bar, createdAt: int, symbol: string, date: int)
    requires Valid(t)
    ensures symbol == bar.symbol && date == bar.tradeDate ==>
              Find(Upsert(t, bar, createdAt), symbol, date) ==
                Some(TradeRow(bar, if Find(t, symbol, date).Some? then Find(t, symbol, date).value.createdAt
                                   else createdAt))
    ensures !(symbol == bar.symbol && date == bar.tradeDate) ==>
              Find(Upsert(t, bar, createdAt), symbol, date) == Find(t, symbol, date)
  {
    var r := Upsert(t, bar, createdAt);
    if HasKey(t, bar) {
      ReplacedFind(t, r, bar, symbol, date);
    } else {
      AppendedFind(t, TradeRow(bar, createdAt), symbol, date);
    }
  }

  lemma {:induction false} ReplacedFind(t: Table, r: Table, bar: Bar, symbol: string, date: int)
    requires |r| == |t|
    requires forall i :: 0 <= i < |t| ==>
               r[i] == (if SameKey(t[i].bar, bar) then TradeRow(bar, t[i].createdAt) else t[i])
    requires HasKey(t, bar)
    ensures symbol == bar.symbol && date == bar.tradeDate ==>
              Find(t, symbol, date).Some? &&
              Find(r, symbol, date) == Some(TradeRow(bar, Find(t, symbol, date).value.createdAt))
    ensures !(symbol == bar.symbol && date == bar.tradeDate) ==> Find(r, symbol, date) == Find(t, symbol, date)
  {
    if SameKey(t[0].bar, bar) {
      if !(symbol == bar.symbol && date == bar.tradeDate) {
        UnrelatedFind(t[1..], r[1..], bar, symbol, date);
      }
    } else {
      var i :| 0 <= i < |t| && SameKey(t[i].bar, bar);
      assert SameKey(t[1..][i - 1].bar, bar);
      ReplacedFind(t[1..], r[1..], bar, symbol, date);
    }
  }

  /** Saving the same bar twice leaves the table as the first save left it:
      the second save finds the key and rewrites the row with itself. */
  lemma UpsertIdempotent(t: Table, bar: Bar, c1: int, c2: int)
    ensures Upsert(Upsert(t, bar, c1), bar, c2) == Upsert(t, bar, c1)
  {
    var u := Upsert(t, bar, c1);
    if HasKey(t, bar) {
      var i :| 0 <= i < |t| && SameKey(t[i].bar, bar);
      assert SameKey(u[i].bar, bar);
      forall k | 0 <= k < |u| && SameKey(u[k].bar, bar)
        ensures u[k].bar == bar
      {
        assert SameKey(t[k].bar, bar);
      }
    } else {
      assert SameKey(u[|t|].bar, bar);
      assert forall k :: 0 <= k < |t| ==> u[k] == t[k];
    }
    assert HasKey(u, bar);
  }

  lemma {:induction false} UnrelatedFind(t: Table, r: Table, bar: Bar, symbol: string, date: int)
    requires |r| == |t|
    requires forall i :: 0 <= i < |t| ==>
               r[i] == (if SameKey(t[i].bar, bar) then TradeRow(bar, t[i].createdAt) else t[i])
    requires !(symbol == bar.symbol && date == bar.tradeDate)
    ensures Find(r, symbol, date) == Find(t, symbol, date)
  {
    if t != [] {
      UnrelatedFind(t[1..], r[1..], bar, symbol, date);
    }
  }

  lemma {:induction false} AppendedFind(t: Table, row: TradeRow, symbol: string, date: int)
    requires !HasKey(t, row.bar)
    ensures symbol == row.bar.symbol && date == row.bar.tradeDate ==> Find(t + [row], symbol, date) == Some(row)
    ensures !(symbol == row.bar.symbol && date == row.bar.tradeDate) ==>
              Find(t + [row], symbol, date) == Find(t, symbol, date)
  {
    if t == [] {
      assert [row][1..] == [];
    } else {
      assert (t + [row])[1..] == t[1..] + [row];
      assert !HasKey(t[1..], row.bar) by {
        forall i | 0 <= i < |t[1..]|
          ensures !SameKey(t[1..][i].bar, row.bar)
        {
          assert t[1..][i] == t[i + 1];
        }
      }
      AppendedFind(t[1..], row, symbol, date);
    }
  }

  /** `save`. */
  function Save(t: Table, bar: Bar, createdAt: int, ok: bool): (r: (Table, bool))
    ensures r.1 == ok
    ensures ok ==> r.0 == Upsert(t, bar, createdAt)
    ensures !ok ==> r.0 == t
  {
    if ok then (Upsert(t, bar, createdAt), true) else (t, false)
  }

  /** `get_by_symbol_and_date`, with `None` on a failed query. */
  function GetBySymbolAndDate(t: Table, symbol: string, date: int, ok: bool): (r: Option<TradeRow>)
    ensures r.Some? ==> ok && r.value in t && r.value.bar.symbol == symbol && r.value.bar.tradeDate == date
    ensures ok && (exists i :: 0 <= i < |t| && t[i].bar.symbol == symbol && t[i].bar.tradeDate == date) ==> r.Some?
  {
    if ok then Find(t, symbol, date) else None
  }

  // ---------------------------------------------------------------- history

  /** The `WHERE` clause: the symbol, and the date bounds that were given. */
  predicate InWindow(row: TradeRow, symbol: string, start: Option<int>, end: Option<int>)
  {
    && row.bar.symbol == symbol
    && (start.Some? ==> start.value <= row.bar.tradeDate)
    && (end.Some? ==> row.bar.tradeDate <= end.value)
  }

  function DateKey(row: TradeRow): Key
  {
    NumKey(row.bar.tradeDate as real)
  }

  /** The rows the `WHERE` clause selects, in table order. */
  function Matching(t: Table, symbol: string, start: Option<int>, end: Option<int>): (r: seq<TradeRow>)
    ensures forall x :: x in r <==> x in t && InWindow(x, symbol, start, end)
  {
    Filter(t, (row: TradeRow) => InWindow(row, symbol, start, end))
  }

  /** `get_history_by_symbol`: `ORDER BY trade_date DESC LIMIT limit`. A
      negative limit is a syntax error in MySQL, so the call returns `[]`. */
  function GetHistoryBySymbol(t: Table, symbol: string, start: Option<int>, end: Option<int>,
                              limit: int, ok: bool): (r: seq<TradeRow>)
    ensures forall i :: 0 <= i < |r| ==> r[i] in t && InWindow(r[i], symbol, start, end)
    ensures forall i, j :: 0 <= i < j < |r| ==> r[i].bar.tradeDate >= r[j].bar.tradeDate
    ensures |r| <= if limit < 0 then 0 else limit
    ensures !ok || limit < 0 ==> r == []
    ensures ok && limit >= 0 ==>
              var matching := Matching(t, symbol, start, end);
              && |r| == (if limit < |matching| then limit else |matching|)
              && multiset(r) <= multiset(matching)
  {
    if !ok || limit < 0 then []
    else
      var sorted := SortBy(Matching(t, symbol, start, end), DateKey, true);
      assert forall i :: 0 <= i < |sorted| ==> sorted[i] in multiset(Matching(t, symbol, start, end));
      var r := PyTake(sorted, limit);
      PrefixMultiset(sorted, |r|);
      r
  }

  /** The history holds the newest matching rows: as many as the limit
      allows, each at most as often as it matches, all of them when the
      limit allows, and otherwise none older than a row it leaves out. */
  lemma HistoryComplete(t: Table, symbol: string, start: Option<int>, end: Option<int>, limit: int)
    requires limit >= 0
    ensures var r := GetHistoryBySymbol(t, symbol, start, end, limit, true);
            var matching := Matching(t, symbol, start, end);
            && |r| == (if limit < |matching| then limit else |matching|)
            && multiset(r) <= multiset(matching)
            && (limit >= |matching| ==> multiset(r) == multiset(matching))
            && (forall x :: x in matching && x !in r ==>
                  forall i :: 0 <= i < |r| ==> r[i].bar.tradeDate >= x.bar.tradeDate)
  {
    var r := GetHistoryBySymbol(t, symbol, start, end, limit, true);
    var sorted := SortBy(Matching(t, symbol, start, end), DateKey, true);
    assert r == PyTake(sorted, limit);
    forall x | x in Matching(t, symbol, start, end) && x !in r
      ensures forall i :: 0 <= i < |r| ==> r[i].bar.tradeDate >= x.bar.tradeDate
    {
      assert x in multiset(sorted);
      var j :| 0 <= j < |sorted| && sorted[j] == x;
      assert j >= |r|;
      forall i | 0 <= i < |r|
        ensures r[i].bar.tradeDate >= x.bar.tradeDate
      {
        assert !Before(DateKey, true, sorted[j], sorted[i]);
      }
    }
  }

  /** The newest date among rows. */
  function MaxDate(rows: seq<TradeRow>): (r: Option<int>)
    ensures r.None? <==> rows == []
    ensures r.Some? ==> (exists i :: 0 <= i < |rows| && rows[i].bar.tradeDate == r.value)
                        && forall i :: 0 <= i < |rows| ==> rows[i].bar.tradeDate <= r.value
  {
    if rows == [] then None
    else
      var rest := MaxDate(rows[1..]);
      assert forall i :: 1 <= i < |rows| ==> rows[i] == rows[1..][i - 1];
      if rest.None? || rest.value < rows[0].bar.tradeDate then Some(rows[0].bar.tradeDate) else rest
  }

  /** `get_latest_trade_date`: `MAX(trade_date)` for the symbol. */
  function GetLatestTradeDate(t: Table, symbol: string, ok: bool): (r: Option<int>)
    ensures r.Some? ==> ok && exists i :: 0 <= i < |t| && t[i].bar.symbol == symbol && t[i].bar.tradeDate == r.value
    ensures r.Some? ==> forall i :: 0 <= i < |t| && t[i].bar.symbol == symbol ==> t[i].bar.tradeDate <= r.value
    ensures ok && (exists i :: 0 <= i < |t| && t[i].bar.symbol == symbol) ==> r.Some?
  {
    if ok then
      var rows := Matching(t, symbol, None, None);
      assert forall i :: 0 <= i < |t| && t[i].bar.symbol == symbol ==> t[i] in rows;
      MaxDate(rows)
    else None
  }

  /** The first row of a newest-first ordering carries the newest date. */
  lemma SortedHeadIsMax(rows: seq<TradeRow>)
    requires rows != []
    ensures SortBy(rows, DateKey, true) != []
    ensures MaxDate(rows) == Some(SortBy(rows, DateKey, true)[0].bar.tradeDate)
  {
    var sorted := SortBy(rows, DateKey, true);
    assert rows[0] in multiset(sorted);
    HeadIsMax(rows, sorted);
  }

  lemma HeadIsMax(rows: seq<TradeRow>, sorted: seq<TradeRow>)
    requires rows != [] && sorted != []
    requires multiset(sorted) == multiset(rows)
    requires SortedBy(sorted, DateKey, true)
    ensures MaxDate(rows) == Some(sorted[0].bar.tradeDate)
  {
    var m := MaxDate(rows).value;
    assert sorted[0] in multiset(rows);
    var i :| 0 <= i < |rows| && rows[i].bar.tradeDate == m;
    assert rows[i] in multiset(sorted);
    var j :| 0 <= j < |sorted| && sorted[j] == rows[i];
    if j > 0 {
      assert !Before(DateKey, true, sorted[j], sorted[0]);
      assert !KeyLt(DateKey(sorted[0]), DateKey(sorted[j]));
    }
  }

  /** The latest date is the date of the one-row, unbounded history. */
  lemma LatestIsNewestHistory(t: Table, symbol: string)
    ensures var h := GetHistoryBySymbol(t, symbol, None, None, 1, true);
            GetLatestTradeDate(t, symbol, true) == if h == [] then None else Some(h[0].bar.tradeDate)
  {
    var rows := Matching(t, symbol, None, None);
    if rows != [] {
      SortedHeadIsMax(rows);
    }
  }

  // ---------------------------------------------------------------- batches and symbols

  /** One element of `batch_save`'s argument. `present` lists the keys the
      dictionary has; `change_pct` and `turnover_rate` are read with `get`,
      every other column by subscript. */
  datatype TradeInput = TradeInput(fields: Bar, present: set<string>)

  const RequiredKeys: set<string> :=
    {"symbol", "trade_date", "open_price", "high_price", "low_price", "close_price", "volume", "amount"}

  predicate Complete(x: TradeInput)
  {
    RequiredKeys <= x.present
  }

  /** The bar an input saves: an absent optional key is NULL. */
  function ToBar(x: TradeInput): (r: Bar)
    ensures SameKey(r, x.fields)
    ensures ("change_pct" in x.present ==> r.changePct == x.fields.changePct)
            && ("change_pct" !in x.present ==> r.changePct == None)
    ensures ("turnover_rate" in x.present ==> r.turnoverRate == x.fields.turnoverRate)
            && ("turnover_rate" !in x.present ==> r.turnoverRate == None)
  {
    x.fields.(changePct := if "change_pct" in x.present then x.fields.changePct else None,
              turnoverRate := if "turnover_rate" in x.present then x.fields.turnoverRate else None)
  }

  function UpsertAll(t: Table, xs: seq<TradeInput>, createdAt: int): (r: Table)
    ensures Valid(t) ==> Valid(r)
    decreases |xs|
  {
    if xs == [] then t else UpsertAll(Upsert(t, ToBar(xs[0]), createdAt), xs[1..], createdAt)
  }

  /** `batch_save`: all upserts with one `created_at`, committed together; a
      missing key or a failed statement commits nothing. */
  function BatchSave(t: Table, xs: seq<TradeInput>, createdAt: int, ok: bool): (r: (Table, bool))
    ensures r.1 <==> ok && forall i :: 0 <= i < |xs| ==> Complete(xs[i])
    ensures r.1 ==> r.0 == UpsertAll(t, xs, createdAt)
    ensures !r.1 ==> r.0 == t
  {
    if ok && forall i :: 0 <= i < |xs| ==> Complete(xs[i]) then (UpsertAll(t, xs, createdAt), true)
    else (t, false)
  }

  /** After a successful batch every input's key is present with the bar of
      the last input that names it. */
  lemma {:induction false} BatchLastWins(t: Table, xs: seq<TradeInput>, createdAt: int, i: int)
    requires Valid(t)
    requires 0 <= i < |xs|
    requires forall k :: i < k < |xs| ==> !SameKey(xs[k].fields, xs[i].fields)
    ensures var f := Find(UpsertAll(t, xs, createdAt), xs[i].fields.symbol, xs[i].fields.tradeDate);
            f.Some? && f.value.bar == ToBar(xs[i])
    decreases |xs|
  {
    var next := Upsert(t, ToBar(xs[0]), createdAt);
    if i == 0 {
      UpsertThenFind(t, ToBar(xs[0]), createdAt, xs[0].fields.symbol, xs[0].fields.tradeDate);
      UpsertAllOthers(next, xs[1..], createdAt, xs[0].fields.symbol, xs[0].fields.tradeDate);
    } else {
      BatchLastWins(next, xs[1..], createdAt, i - 1);
    }
  }

  lemma {:induction false} UpsertAllOthers(t: Table, xs: seq<TradeInput>, createdAt: int, symbol: string, date: int)
    requires Valid(t)
    requires forall k :: 0 <= k < |xs| ==> !(xs[k].fields.symbol == symbol && xs[k].fields.tradeDate == date)
    ensures Find(UpsertAll(t, xs, createdAt), symbol, date) == Find(t, symbol, date)
    decreases |xs|
  {
    if xs != [] {
      UpsertThenFind(t, ToBar(xs[0]), createdAt, symbol, date);
      UpsertAllOthers(Upsert(t, ToBar(xs[0]), createdAt), xs[1..], createdAt, symbol, date);
    }
  }

  /** Symbols in order of first appearance, each once. */
  function DistinctSymbols(t: Table): (r: seq<string>)
    ensures NoDuplicates(r)
    ensures forall s :: s in r <==> exists i :: 0 <= i < |t| && t[i].bar.symbol == s
  {
    if t == [] then []
    else
      var init := DistinctSymbols(t[..|t| - 1]);
      assert forall i :: 0 <= i < |t| - 1 ==> t[..|t| - 1][i] == t[i];
      if t[|t| - 1].bar.symbol in init then init else init + [t[|t| - 1].bar.symbol]
  }

  /** `get_all_symbols`: `SELECT DISTINCT symbol`. */
  function GetAllSymbols(t: Table, ok: bool): (r: seq<string>)
    ensures NoDuplicates(r)
    ensures forall s :: s in r <==> ok && exists i :: 0 <= i < |t| && t[i].bar.symbol == s
  {
    if ok then DistinctSymbols(t) else []
  }

  /** A symbol has trading data exactly when it has a latest date. */
  lemma SymbolsHaveLatest(t: Table, symbol: string)
    ensures symbol in GetAllSymbols(t, true) <==> GetLatestTradeDate(t, symbol, true).Some?
  {
  }
}

=== FILE: data_processor.dfy ===
/** `DataProcessor`: merging the three per-stock dictionaries, the banded
    investment score and its rating, the risk flags and their level, and
    the normalisation of supply-chain rows.

    Values are dynamically typed (`Values.Value`); a comparison or `abs`
    that Python would reject with `TypeError`, and a `.lower()` on a value
    that is not a string, yield `Failure`. */
module DataProcessor {
  import opened Wrappers
  import opened Text
  import opened Values

  // ---------------------------------------------------------------- integration

  /** A dictionary argument that may be `None`. */
  function AsDict(d: Option<Record>): Record
  {
    if d.Some? then d.value else map[]
  }

  /** `integrate_stock_data`: `dict.update` with basic information, then the
      quote, then valuation, each skipped when falsy. */
  function Integrate(basic: Option<Record>, quote: Option<Record>, valuation: Option<Record>): (r: Record)
    ensures r.Keys == AsDict(basic).Keys + AsDict(quote).Keys + AsDict(valuation).Keys
    ensures forall k :: k in AsDict(valuation) ==> r[k] == AsDict(valuation)[k]
    ensures forall k :: k in AsDict(quote) && k !in AsDict(valuation) ==> r[k] == AsDict(quote)[k]
    ensures forall k :: k in AsDict(basic) && k !in AsDict(quote) && k !in AsDict(valuation) ==>
              r[k] == AsDict(basic)[k]
  {
    var withBasic := if AsDict(basic) != map[] then map[] + AsDict(basic) else map[];
    var withQuote := if AsDict(quote) != map[] then withBasic + AsDict(quote) else withBasic;
    if AsDict(valuation) != map[] then withQuote + AsDict(valuation) else withQuote
  }

  /** Merging is insensitive to a missing dictionary: `None` and `{}` both
      contribute nothing. */
  lemma IntegrateIgnoresEmpty(d: Record)
    ensures Integrate(None, Some(d), None) == d
    ensures Integrate(Some(map[]), Some(d), Some(map[])) == d
    ensures Integrate(Some(d), None, None) == d
  {
  }

  // ---------------------------------------------------------------- investment score

  datatype Rating = Excellent | Good | Fair | Poor
  {
    /** The label the source reports. */
    function Label(): string
    {
      match this
      case Excellent => "优秀"
      case Good => "良好"
      case Fair => "一般"
      case Poor => "较差"
    }

    /** Position in the scale, best first. */
    function Rank(): nat
    {
      match this
      case Excellent => 3
      case Good => 2
      case Fair => 1
      case Poor => 0
    }
  }

  /** The rating cut-offs at 80, 60 and 40. */
  function RatingOf(total: int): (r: Rating)
    ensures r == Excellent <==> total >= 80
    ensures r == Poor <==> total < 40
  {
    if total >= 80 then Excellent
    else if total >= 60 then Good
    else if total >= 40 then Fair
    else Poor
  }

  /** A higher total never earns a worse rating. */
  lemma RatingMonotone(a: int, b: int)
    requires a <= b
    ensures RatingOf(a).Rank() <= RatingOf(b).Rank()
  {
  }

  datatype InvestmentScore = InvestmentScore(
    total: int,
    rating: Rating,
    valuation: nat,
    growth: nat,
    technical: nat,
    industry: nat,
    factors: seq<string>)

  /** The valuation band of a numeric price-earnings ratio and the factor
      it contributes. */
  function ValuationBand(pe: real): (r: (nat, seq<string>))
    ensures r.0 == 30 <==> 0.0 < pe < 10.0
    ensures r.0 == 20 <==> 10.0 <= pe < 20.0
    ensures r.0 == 10 <==> 20.0 <= pe < 30.0
    ensures r.0 == 0 <==> pe <= 0.0 || 30.0 <= pe
    ensures |r.1| == (if r.0 == 0 then 0 else 1)
  {
    if 0.0 < pe && pe < 10.0 then (30, ["低市盈率（PE<10）"])
    else if pe >= 10.0 && pe < 20.0 then (20, ["合理市盈率（10≤PE<20）"])
    else if pe >= 20.0 && pe < 30.0 then (10, ["较高市盈率（20≤PE<30）"])
    else (0, [])
  }

  /** `pe_ttm` holds a value Python can compare with a number. */
  predicate ComparablePe(data: Record)
  {
    "pe_ttm" !in data || Numeric(data["pe_ttm"]).Some?
  }

  /** `calculate_investment_score`. Comparing a string or `None` with a
      number raises. */
  function InvestmentScoreOf(data: Record): (r: Result<InvestmentScore>)
    ensures r.Failure? <==> !ComparablePe(data)
    ensures r.Success? ==>
              && r.value.total == r.value.valuation + r.value.growth + r.value.technical + r.value.industry
              && r.value.growth == 15 && r.value.technical == 10
              && (r.value.industry == 10 <==> "industry" in data)
              && (r.value.industry == 0 <==> "industry" !in data)
              && ("pe_ttm" !in data ==> r.value.valuation == 0)
              && ("pe_ttm" in data ==> r.value.valuation == ValuationBand(Numeric(data["pe_ttm"]).value).0)
              && r.value.rating == RatingOf(r.value.total)
  {
    if !ComparablePe(data) then Failure("TypeError: '>' not supported")
    else
      var band := if "pe_ttm" in data then ValuationBand(Numeric(data["pe_ttm"]).value) else (0, []);
      var industry := if "industry" in data then 10 else 0;
      var factors := band.1 + ["成长潜力评估", "技术形态评估"]
                     + (if "industry" in data then ["行业前景评估"] else []);
      var total := band.0 + 15 + 10 + industry;
      Success(InvestmentScore(total, RatingOf(total), band.0, 15, 10, industry, factors))
  }

  /** The total takes one of five values, so the top rating is never given,
      and `良好` is given exactly to a low price-earnings ratio with an
      industry. */
  lemma InvestmentScoreRange(data: Record)
    requires InvestmentScoreOf(data).Success?
    ensures InvestmentScoreOf(data).value.total in {25, 35, 45, 55, 65}
    ensures InvestmentScoreOf(data).value.rating != Excellent
    ensures InvestmentScoreOf(data).value.rating == Good <==>
              "pe_ttm" in data && 0.0 < Numeric(data["pe_ttm"]).value < 10.0 && "industry" in data
  {
  }

  // ---------------------------------------------------------------- risk score

  /** A triggered risk flag and the value it reports. */
  datatype RiskFactor = HighValuation(pe: Value) | HighVolatility(changePct: Value) | IndustryRisk(industry: Value)

  datatype RiskLevel = Low | Medium | High
  {
    function Label(): string
    {
      match this
      case Low => "low"
      case Medium => "medium"
      case High => "high"
    }
  }

  datatype RiskScore = RiskScore(level: RiskLevel, factors: seq<RiskFactor>, count: nat)

  function LevelOf(count: nat): RiskLevel
  {
    if count >= 3 then High else if count == 0 then Low else Medium
  }

  /** `pe > 50` holds. */
  predicate HighPe(data: Record)
    requires "pe_ttm" in data && Numeric(data["pe_ttm"]).Some?
  {
    Numeric(data["pe_ttm"]).value > 50.0
  }

  /** `abs(change_pct) > 7` holds. */
  predicate HighChange(data: Record)
    requires "change_pct" in data && Numeric(data["change_pct"]).Some?
  {
    var x := Numeric(data["change_pct"]).value;
    x > 7.0 || x < -7.0
  }

  /** Every value the risk rules inspect is one Python accepts. */
  predicate RiskInputsValid(data: Record)
  {
    && ("pe_ttm" !in data || Numeric(data["pe_ttm"]).Some?)
    && ("change_pct" !in data || Numeric(data["change_pct"]).Some?)
  }

  /** `calculate_risk_score`. */
  function RiskScoreOf(data: Record): (r: Result<RiskScore>)
    ensures r.Failure? <==> !RiskInputsValid(data)
    ensures r.Success? ==>
              && r.value.count == |r.value.factors| <= 3
              && r.value.count ==
                   (if "pe_ttm" in data && HighPe(data) then 1 else 0)
                   + (if "change_pct" in data && HighChange(data) then 1 else 0)
                   + (if "industry" in data then 1 else 0)
              && (r.value.level == Low <==> r.value.count == 0)
              && (r.value.level == High <==> r.value.count == 3)
  {
    if !RiskInputsValid(data) then Failure("TypeError: bad operand type")
    else
      var valuation := if "pe_ttm" in data && HighPe(data) then [HighValuation(data["pe_ttm"])] else [];
      var volatility := if "change_pct" in data && HighChange(data) then [HighVolatility(data["change_pct"])] else [];
      var industry := if "industry" in data then [IndustryRisk(data["industry"])] else [];
      var factors := valuation + volatility + industry;
      Success(RiskScore(LevelOf(|factors|), factors, |factors|))
  }

  /** A record with none of the inspected keys is low risk; every record
      with all three flags raised is high risk. */
  lemma RiskExtremes(data: Record)
    ensures "pe_ttm" !in data && "change_pct" !in data && "industry" !in data ==>
              RiskScoreOf(data) == Success(RiskScore(Low, [], 0))
    ensures RiskInputsValid(data) && "pe_ttm" in data && HighPe(data)
            && "change_pct" in data && HighChange(data) && "industry" in data ==>
              RiskScoreOf(data).value.level == High
  {
  }

  // ---------------------------------------------------------------- supply-chain rows

  /** `relationship_type` from a relationship label. */
  function RelationshipType(relationship: string): (r: string)
    ensures r in {"supplier", "customer", "other"}
  {
    if Contains(Lower(relationship), "supplier") then "supplier"
    else if Contains(Lower(relationship), "customer") then "customer"
    else "other"
  }

  /** The classification ignores letter case. */
  lemma RelationshipTypeIgnoresCase(relationship: string)
    ensures RelationshipType(Lower(relationship)) == RelationshipType(relationship)
  {
    LowerIdempotent(relationship);
  }

  /** The keys of a processed row, with the default used for each missing one. */
  const RowDefaults: map<string, Value> := map[
    "company_name" := Text(""),
    "company_code" := Text(""),
    "relationship" := Text(""),
    "supply_type" := Text("direct"),
    "is_listed" := Flag(false),
    "listed_company" := Text(""),
    "stock_code" := Text(""),
    "industry" := Text("")]

  /** One row of `process_supply_chain_data`; `.lower()` on a relationship
      that is not a string raises. */
  function ProcessRow(item: Record): (r: Result<Record>)
    ensures r.Failure? <==> !Get(item, "relationship", Text("")).Text?
    ensures r.Success? ==>
              && r.value.Keys == RowDefaults.Keys + {"relationship_type"}
              && (forall k :: k in RowDefaults ==> r.value[k] == Get(item, k, RowDefaults[k]))
              && r.value["relationship_type"] == Text(RelationshipType(Get(item, "relationship", Text("")).s))
  {
    var cleaned := map k | k in RowDefaults :: Get(item, k, RowDefaults[k]);
    match cleaned["relationship"]
    case Text(rel) => Success(cleaned["relationship_type" := Text(RelationshipType(rel))])
    case _ => Failure("AttributeError: object has no attribute 'lower'")
  }

  /** Applying a raising operation to each element in order: the first
      failure aborts the whole loop. */
  function MapAll<A, B>(xs: seq<A>, f: A -> Result<B>): (r: Result<seq<B>>)
    ensures r.Failure? <==> exists i :: 0 <= i < |xs| && f(xs[i]).Failure?
    ensures r.Success? ==> |r.value| == |xs| && forall i :: 0 <= i < |xs| ==> r.value[i] == f(xs[i]).value
  {
    if xs == [] then Success([])
    else
      match f(xs[0])
      case Failure(e) => Failure(e)
      case Success(y) =>
        var rest := MapAll(xs[1..], f);
        assert forall i :: 1 <= i < |xs| ==> xs[1..][i - 1] == xs[i];
        match rest
        case Failure(e) => Failure(e)
        case Success(ys) => Success([y] + ys)
  }

  /** `process_supply_chain_data`: row by row, in order; the first bad row
      aborts the whole call. */
  function ProcessSupplyChainData(items: seq<Record>): (r: Result<seq<Record>>)
    ensures r.Failure? <==> exists i :: 0 <= i < |items| && ProcessRow(items[i]).Failure?
    ensures r.Success? ==>
              |r.value| == |items| && forall i :: 0 <= i < |items| ==> r.value[i] == ProcessRow(items[i]).value
  {
    MapAll(items, ProcessRow)
  }
}

=== FILE: dates.dfy ===
/** Calendar dates as the integers `YYYYMMDD`, and the strict `YYYY-MM-DD`
    reading of `datetime.strptime(s, '%Y-%m-%d')`. */
module Dates {
  import opened Wrappers
  import opened Text

  predicate IsLeap(y: int)
  {
    y % 4 == 0 && (y % 100 != 0 || y % 400 == 0)
  }

  function DaysInMonth(y: int, m: int): (r: int)
    requires 1 <= m <= 12
    ensures 28 <= r <= 31
  {
    if m == 2 then (if IsLeap(y) then 29 else 28)
    else if m == 4 || m == 6 || m == 9 || m == 11 then 30
    else 31
  }

  /** A day `datetime` can represent. */
  predicate ValidDate(y: int, m: int, d: int)
  {
    1 <= y <= 9999 && 1 <= m <= 12 && 1 <= d <= DaysInMonth(y, m)
  }

  function Encode(y: int, m: int, d: int): int
  {
    y * 10000 + m * 100 + d
  }

  /** `n` is the code of a valid day. */
  predicate IsDateCode(n: int)
  {
    n >= 0 && ValidDate(n / 10000, n / 100 % 100, n % 100)
  }

  /** A value `datetime.now().date()` can take. */
  type DateCode = n: int | IsDateCode(n) witness 19700101

  /** The code order is the calendar order. */
  lemma EncodeOrder(y1: int, m1: int, d1: int, y2: int, m2: int, d2: int)
    requires ValidDate(y1, m1, d1) && ValidDate(y2, m2, d2)
    ensures Encode(y1, m1, d1) < Encode(y2, m2, d2) <==>
              y1 < y2 || (y1 == y2 && (m1 < m2 || (m1 == m2 && d1 < d2)))
  {
  }

  function DigitValue(c: char): nat
    requires IsAsciiDigit(c)
  {
    (c as int) - ('0' as int)
  }

  function Digit(n: int): (c: char)
    requires 0 <= n < 10
    ensures IsAsciiDigit(c) && DigitValue(c) == n
  {
    (('0' as int) + n) as char
  }

  /** Ten characters: four digits, a dash, two digits, a dash, two digits. */
  predicate IsoShape(s: string)
  {
    |s| == 10 && s[4] == '-' && s[7] == '-'
    && IsAsciiDigit(s[0]) && IsAsciiDigit(s[1]) && IsAsciiDigit(s[2]) && IsAsciiDigit(s[3])
    && IsAsciiDigit(s[5]) && IsAsciiDigit(s[6]) && IsAsciiDigit(s[8]) && IsAsciiDigit(s[9])
  }

  /** The date the ten characters `YYYY-MM-DD` denote. */
  function ParseIsoDate(s: string): (r: Option<int>)
    ensures r.Some? ==> IsDateCode(r.value)
    ensures r.Some? ==> IsoShape(s)
  {
    if IsoShape(s) && ValidDate(IsoYear(s), IsoMonth(s), IsoDay(s)) then
      DecodeEncode(IsoYear(s), IsoMonth(s), IsoDay(s));
      Some(Encode(IsoYear(s), IsoMonth(s), IsoDay(s)))
    else None
  }

  /** The numbers the digit fields of a `YYYY-MM-DD` shape spell. */
  function IsoYear(s: string): int
    requires IsoShape(s)
  {
    1000 * DigitValue(s[0]) + 100 * DigitValue(s[1]) + 10 * DigitValue(s[2]) + DigitValue(s[3])
  }

  function IsoMonth(s: string): int
    requires IsoShape(s)
  {
    10 * DigitValue(s[5]) + DigitValue(s[6])
  }

  function IsoDay(s: string): int
    requires IsoShape(s)
  {
    10 * DigitValue(s[8]) + DigitValue(s[9])
  }

  /** `date.strftime('%Y-%m-%d')`. */
  function FormatIsoDate(n: int): (s: string)
    requires IsDateCode(n)
    ensures |s| == 10
  {
    var y := n / 10000;
    var m := n / 100 % 100;
    var d := n % 100;
    [Digit(y / 1000), Digit(y / 100 % 10), Digit(y / 10 % 10), Digit(y % 10), '-',
     Digit(m / 10), Digit(m % 10), '-', Digit(d / 10), Digit(d % 10)]
  }

  lemma Split4(y: int)
    requires 0 <= y < 10000
    ensures 1000 * (y / 1000) + 100 * (y / 100 % 10) + 10 * (y / 10 % 10) + y % 10 == y
  {
    var q1, r0 := y / 10, y % 10;
    var q2, r1 := q1 / 10, q1 % 10;
    var q3, r2 := q2 / 10, q2 % 10;
    Div100(y, q2, 10 * r1 + r0);
    Div1000(y, q3, 100 * r2 + 10 * r1 + r0);
  }

  lemma Split2(m: int)
    requires 0 <= m < 100
    ensures 10 * (m / 10) + m % 10 == m
  {
  }

  /** Division by ten, a hundred and so on is determined by quotient and
      remainder. */
  lemma Div10(y: int, q: int, r: int)
    requires 0 <= r < 10 && y == 10 * q + r
    ensures y / 10 == q && y % 10 == r
  {
  }

  lemma Div100(y: int, q: int, r: int)
    requires 0 <= r < 100 && y == 100 * q + r
    ensures y / 100 == q && y % 100 == r
  {
  }

  lemma Div1000(y: int, q: int, r: int)
    requires 0 <= r < 1000 && y == 1000 * q + r
    ensures y / 1000 == q && y % 1000 == r
  {
  }

  lemma Div10000(y: int, q: int, r: int)
    requires 0 <= r < 10000 && y == 10000 * q + r
    ensures y / 10000 == q && y % 10000 == r
  {
  }

  lemma Join4(a: int, b: int, c: int, e: int)
    requires 0 <= a < 10 && 0 <= b < 10 && 0 <= c < 10 && 0 <= e < 10
    ensures var y := 1000 * a + 100 * b + 10 * c + e;
            y / 1000 == a && y / 100 % 10 == b && y / 10 % 10 == c && y % 10 == e
  {
    var y := 1000 * a + 100 * b + 10 * c + e;
    Div1000(y, a, 100 * b + 10 * c + e);
    Div100(y, 10 * a + b, 10 * c + e);
    Div10(10 * a + b, a, b);
    Div10(y, 100 * a + 10 * b + c, e);
    Div10(100 * a + 10 * b + c, 10 * a + b, c);
  }

  lemma Join2(a: int, b: int)
    requires 0 <= a < 10 && 0 <= b < 10
    ensures (10 * a + b) / 10 == a && (10 * a + b) % 10 == b
  {
    Div10(10 * a + b, a, b);
  }

  /** The fields of a code are the year, month and day it was built from. */
  lemma DecodeEncode(y: int, m: int, d: int)
    requires 0 <= m < 100 && 0 <= d < 100
    ensures Encode(y, m, d) / 10000 == y && Encode(y, m, d) / 100 % 100 == m && Encode(y, m, d) % 100 == d
  {
    var n := Encode(y, m, d);
    Div10000(n, y, 100 * m + d);
    Div100(n, 100 * y + m, d);
    Div100(100 * y + m, y, m);
  }

  lemma EncodeParts(n: int)
    requires n >= 0
    ensures Encode(n / 10000, n / 100 % 100, n % 100) == n
  {
  }

  /** Reading a formatted date gives the date back. */
  lemma ParseFormat(n: int)
    requires IsDateCode(n)
    ensures ParseIsoDate(FormatIsoDate(n)) == Some(n)
  {
    var s := FormatIsoDate(n);
    var y := n / 10000;
    var m := n / 100 % 100;
    var d := n % 100;
    Split4(y);
    Split2(m);
    Split2(d);
    EncodeParts(n);
    assert IsoShape(s);
    assert IsoYear(s) == y && IsoMonth(s) == m && IsoDay(s) == d;
    assert ValidDate(y, m, d) && Encode(y, m, d) == n;
  }

  /** A digit character is the digit of its value. */
  lemma DigitOfValue(c: char)
    requires IsAsciiDigit(c)
    ensures Digit(DigitValue(c)) == c
  {
  }

  /** The text of a date given by its digits. */
  lemma FormatDigits(a: int, b: int, c: int, e: int, f: int, g: int, h: int, i: int)
    requires 0 <= a < 10 && 0 <= b < 10 && 0 <= c < 10 && 0 <= e < 10
    requires 0 <= f < 10 && 0 <= g < 10 && 0 <= h < 10 && 0 <= i < 10
    requires ValidDate(1000 * a + 100 * b + 10 * c + e, 10 * f + g, 10 * h + i)
    ensures IsDateCode(Encode(1000 * a + 100 * b + 10 * c + e, 10 * f + g, 10 * h + i))
    ensures FormatIsoDate(Encode(1000 * a + 100 * b + 10 * c + e, 10 * f + g, 10 * h + i)) ==
              [Digit(a), Digit(b), Digit(c), Digit(e), '-', Digit(f), Digit(g), '-', Digit(h), Digit(i)]
  {
    var y := 1000 * a + 100 * b + 10 * c + e;
    var m := 10 * f + g;
    var d := 10 * h + i;
    DecodeEncode(y, m, d);
    Join4(a, b, c, e);
    Join2(f, g);
    Join2(h, i);
  }

  /** Formatting a date that was read gives the text back: the reading
      accepts no two spellings of one day. */
  lemma FormatParse(s: string)
    requires ParseIsoDate(s).Some?
    ensures FormatIsoDate(ParseIsoDate(s).value) == s
  {
    var a, b, c, e := DigitValue(s[0]), DigitValue(s[1]), DigitValue(s[2]), DigitValue(s[3]);
    var f, g, h, i := DigitValue(s[5]), DigitValue(s[6]), DigitValue(s[8]), DigitValue(s[9]);
    assert ParseIsoDate(s).value == Encode(1000 * a + 100 * b + 10 * c + e, 10 * f + g, 10 * h + i);
    FormatDigits(a, b, c, e, f, g, h, i);
    SpellDigits(s);
  }

  /** A `YYYY-MM-DD` shape is spelled by the digits of its digit values. */
  lemma SpellDigits(s: string)
    requires IsoShape(s)
    ensures [Digit(DigitValue(s[0])), Digit(DigitValue(s[1])), Digit(DigitValue(s[2])), Digit(DigitValue(s[3])), '-',
             Digit(DigitValue(s[5])), Digit(DigitValue(s[6])), '-', Digit(DigitValue(s[8])), Digit(DigitValue(s[9]))] == s
  {
    DigitOfValue(s[0]);
    DigitOfValue(s[1]);
    DigitOfValue(s[2]);
    DigitOfValue(s[3]);
    DigitOfValue(s[5]);
    DigitOfValue(s[6]);
    DigitOfValue(s[8]);
    DigitOfValue(s[9]);
  }

  /** `date.strftime('%Y%m%d')`. */
  function FormatCompactDate(n: int): (s: string)
    requires IsDateCode(n)
    ensures |s| == 8 && forall i :: 0 <= i < 8 ==> IsAsciiDigit(s[i])
  {
    var y := n / 10000;
    var m := n / 100 % 100;
    var d := n % 100;
    [Digit(y / 1000), Digit(y / 100 % 10), Digit(y / 10 % 10), Digit(y % 10),
     Digit(m / 10), Digit(m % 10), Digit(d / 10), Digit(d % 10)]
  }

  /** Removing the dashes from `YYYY-MM-DD` gives `YYYYMMDD` for the same day. */
  lemma CompactOfIso(n: int)
    requires IsDateCode(n)
    ensures RemoveChar(FormatIsoDate(n), '-') == FormatCompactDate(n)
  {
    var y, m, d := n / 10000, n / 100 % 100, n % 100;
    var year := [Digit(y / 1000), Digit(y / 100 % 10), Digit(y / 10 % 10), Digit(y % 10)];
    var month := [Digit(m / 10), Digit(m % 10)];
    var day := [Digit(d / 10), Digit(d % 10)];
    assert FormatIsoDate(n) == year + ['-'] + month + ['-'] + day;
    assert FormatCompactDate(n) == year + month + day;
    RemoveCharNoop(year, '-');
    RemoveCharNoop(month, '-');
    RemoveCharNoop(day, '-');
    assert RemoveChar(['-'], '-') == [];
    RemoveCharAppend(year, ['-'], '-');
    assert RemoveChar(year + ['-'], '-') == year;
    RemoveCharAppend(year + ['-'], month, '-');
    assert RemoveChar(year + ['-'] + month, '-') == year + month;
    RemoveCharAppend(year + ['-'] + month, ['-'], '-');
    assert RemoveChar(year + ['-'] + month + ['-'], '-') == year + month;
    RemoveCharAppend(year + ['-'] + month + ['-'], day, '-');
  }

  /** A compact date has no dash to remove. */
  lemma CompactHasNoDash(n: int)
    requires IsDateCode(n)
    ensures RemoveChar(FormatCompactDate(n), '-') == FormatCompactDate(n)
  {
    RemoveCharNoop(FormatCompactDate(n), '-');
  }
}

=== FILE: market_data.dfy ===
/** `AkShareData` and the akshare frames the crawler reads, as plain data:
    the service and the crawler receive them as function parameters, so
    only their shapes are stated here. */
module MarketData {
  import opened Wrappers
  import DailyTradeStore

  /** A row of a daily history frame. The frame always has the price,
      volume and amount columns; `涨跌幅` and `换手率` may be missing. */
  datatype ApiRow = ApiRow(
    date: int,
    open: real,
    high: real,
    low: real,
    close: real,
    volume: int,
    amount: real,
    changePct: Option<real>,
    turnoverRate: Option<real>)

  /** The table row a history row is saved as: every column as the frame
      gave it, under the symbol it was requested for. */
  function BarOf(symbol: string, a: ApiRow): (r: DailyTradeStore.Bar)
    ensures r.symbol == symbol && r.tradeDate == a.date
    ensures r.open == Some(a.open) && r.high == Some(a.high) && r.low == Some(a.low) && r.close == Some(a.close)
    ensures r.volume == Some(a.volume) && r.amount == Some(a.amount)
    ensures r.changePct == a.changePct && r.turnoverRate == a.turnoverRate
  {
    DailyTradeStore.Bar(symbol, a.date, Some(a.open), Some(a.high), Some(a.low), Some(a.close),
                        Some(a.volume), Some(a.amount), a.changePct, a.turnoverRate)
  }

  /** One entry of the A-share code list. */
  datatype Listing = Listing(code: string, name: string)

  /** The items of `stock_individual_info_em` the crawler reads; an absent
      item is `''`. */
  datatype Detail = Detail(name: string, industry: string, region: string, listDate: string)

  /** A row of the concept-board list. */
  datatype Board = Board(name: string, code: string)
}

=== FILE: ordering.dfy ===
/** Python's ordering of sort keys and its stable `sorted(..., key=...,
    reverse=...)`, modelled as an insertion sort whose contract is the
    reference behaviour: a permutation, ordered by key, and stable (elements
    with equal keys keep their input order, also when `reverse` is set). */
module Ordering {
  import opened Seqs

  /** Python's `a < b` on strings: code-point lexicographic order. */
  predicate StrLt(a: string, b: string)
    decreases |a|
  {
    |b| > 0 && (|a| == 0 || a[0] < b[0] || (a[0] == b[0] && StrLt(a[1..], b[1..])))
  }

  lemma {:induction false} StrLtIrreflexive(a: string)
    ensures !StrLt(a, a)
    decreases |a|
  {
    if |a| > 0 {
      StrLtIrreflexive(a[1..]);
    }
  }

  lemma {:induction false} StrLtTransitive(a: string, b: string, c: string)
    requires StrLt(a, b) && StrLt(b, c)
    ensures StrLt(a, c)
    decreases |a|
  {
    if |a| > 0 && a[0] == b[0] && b[0] == c[0] {
      StrLtTransitive(a[1..], b[1..], c[1..]);
    }
  }

  /** A sort key as Python compares it: numbers (ints, floats and bools)
      among themselves, strings among themselves. */
  datatype Key = NumKey(x: real) | TextKey(t: string)

  /** Strict order on keys. Numbers and strings are never compared by the
      source (Python raises instead); placing numbers first only makes the
      relation a strict order on all keys. */
  predicate KeyLt(a: Key, b: Key)
  {
    match (a, b)
    case (NumKey(x), NumKey(y)) => x < y
    case (TextKey(s), TextKey(t)) => StrLt(s, t)
    case (NumKey(_), TextKey(_)) => true
    case (TextKey(_), NumKey(_)) => false
  }

  lemma KeyLtIrreflexive(a: Key)
    ensures !KeyLt(a, a)
  {
    if a.TextKey? {
      StrLtIrreflexive(a.t);
    }
  }

  lemma KeyLtTransitive(a: Key, b: Key, c: Key)
    requires KeyLt(a, b) && KeyLt(b, c)
    ensures KeyLt(a, c)
  {
    if a.TextKey? && b.TextKey? && c.TextKey? {
      StrLtTransitive(a.t, b.t, c.t);
    }
  }

  /** `a` must be placed strictly before `b`. */
  predicate Before<T>(key: T -> Key, desc: bool, a: T, b: T)
  {
    if desc then KeyLt(key(b), key(a)) else KeyLt(key(a), key(b))
  }

  lemma BeforeIrreflexive<T>(key: T -> Key, desc: bool, a: T)
    ensures !Before(key, desc, a, a)
  {
    KeyLtIrreflexive(key(a));
  }

  lemma BeforeTransitive<T>(key: T -> Key, desc: bool, a: T, b: T, c: T)
    requires Before(key, desc, a, b) && Before(key, desc, b, c)
    ensures Before(key, desc, a, c)
  {
    if desc {
      KeyLtTransitive(key(c), key(b), key(a));
    } else {
      KeyLtTransitive(key(a), key(b), key(c));
    }
  }

  /** No element is placed after one it must precede. */
  predicate SortedBy<T>(s: seq<T>, key: T -> Key, desc: bool)
  {
    forall i, j :: 0 <= i < j < |s| ==> !Before(key, desc, s[j], s[i])
  }

  /** The elements of `s` whose key is `k`, in order. */
  function WithKey<T(==)>(s: seq<T>, key: T -> Key, k: Key): seq<T>
  {
    Filter(s, x => key(x) == k)
  }

  function Insert<T>(x: T, s: seq<T>, key: T -> Key, desc: bool): seq<T>
  {
    if s == [] then [x]
    else if Before(key, desc, x, s[0]) then [x] + s
    else [s[0]] + Insert(x, s[1..], key, desc)
  }

  /** Python's `sorted(s, key=key, reverse=desc)`. */
  function SortBy<T(==)>(s: seq<T>, key: T -> Key, desc: bool): (r: seq<T>)
    ensures multiset(r) == multiset(s)
    ensures SortedBy(r, key, desc)
    ensures forall k :: WithKey(r, key, k) == WithKey(s, key, k)
  {
    if s == [] then []
    else
      var sortedInit := SortBy(s[..|s| - 1], key, desc);
      InsertLast(s, sortedInit, key, desc);
      Insert(s[|s| - 1], sortedInit, key, desc)
  }

  /** Inserting the last element into a sorted, stable arrangement of the
      others gives a sorted, stable arrangement of all. */
  lemma InsertLast<T>(s: seq<T>, sortedInit: seq<T>, key: T -> Key, desc: bool)
    requires s != []
    requires multiset(sortedInit) == multiset(s[..|s| - 1])
    requires SortedBy(sortedInit, key, desc)
    requires forall k :: WithKey(sortedInit, key, k) == WithKey(s[..|s| - 1], key, k)
    ensures multiset(Insert(s[|s| - 1], sortedInit, key, desc)) == multiset(s)
    ensures SortedBy(Insert(s[|s| - 1], sortedInit, key, desc), key, desc)
    ensures forall k :: WithKey(Insert(s[|s| - 1], sortedInit, key, desc), key, k) == WithKey(s, key, k)
  {
    var init := s[..|s| - 1];
    var last := s[|s| - 1];
    assert s == init + [last];
    InsertPermutes(last, sortedInit, key, desc);
    InsertSorted(last, sortedInit, key, desc);
    forall k
      ensures WithKey(Insert(last, sortedInit, key, desc), key, k) == WithKey(s, key, k)
    {
      InsertStable(last, sortedInit, key, desc, k);
      WithKeyAppend(init, [last], key, k);
    }
  }

  lemma {:induction false} WithKeyAppend<T>(a: seq<T>, b: seq<T>, key: T -> Key, k: Key)
    ensures WithKey(a + b, key, k) == WithKey(a, key, k) + WithKey(b, key, k)
  {
    if a == [] {
      assert a + b == b;
    } else {
      assert (a + b)[1..] == a[1..] + b;
      WithKeyAppend(a[1..], b, key, k);
    }
  }

  lemma {:induction false} InsertPermutes<T>(x: T, s: seq<T>, key: T -> Key, desc: bool)
    ensures multiset(Insert(x, s, key, desc)) == multiset(s) + multiset{x}
  {
    if s != [] && !Before(key, desc, x, s[0]) {
      InsertPermutes(x, s[1..], key, desc);
      assert s == [s[0]] + s[1..];
    }
  }

  lemma {:induction false} InsertSorted<T>(x: T, s: seq<T>, key: T -> Key, desc: bool)
    requires SortedBy(s, key, desc)
    ensures SortedBy(Insert(x, s, key, desc), key, desc)
  {
    if s == [] {
    } else if Before(key, desc, x, s[0]) {
      PrependSorted(x, s, key, desc);
    } else {
      var t := Insert(x, s[1..], key, desc);
      InsertSorted(x, s[1..], key, desc);
      InsertPermutes(x, s[1..], key, desc);
      ConsSorted(x, s, t, key, desc);
    }
  }

  /** An element placed before the first of a sorted sequence keeps it
      sorted. */
  lemma PrependSorted<T>(x: T, s: seq<T>, key: T -> Key, desc: bool)
    requires SortedBy(s, key, desc) && s != [] && Before(key, desc, x, s[0])
    ensures SortedBy([x] + s, key, desc)
  {
    var r := [x] + s;
    forall j | 1 <= j < |r|
      ensures !Before(key, desc, r[j], x)
    {
      if Before(key, desc, r[j], x) {
        BeforeTransitive(key, desc, r[j], x, s[0]);
        if j == 1 {
          BeforeIrreflexive(key, desc, s[0]);
        }
      }
    }
    assert forall i, j :: 1 <= i < j < |r| ==> r[i] == s[i - 1] && r[j] == s[j - 1];
  }

  /** The first element of a sorted sequence, kept in front of the others
      with `x` inserted, keeps the whole sorted when `x` need not precede
      it. */
  lemma ConsSorted<T>(x: T, s: seq<T>, t: seq<T>, key: T -> Key, desc: bool)
    requires SortedBy(s, key, desc) && s != [] && !Before(key, desc, x, s[0])
    requires SortedBy(t, key, desc) && multiset(t) == multiset(s[1..]) + multiset{x}
    ensures SortedBy([s[0]] + t, key, desc)
  {
    var r := [s[0]] + t;
    forall j | 1 <= j < |r|
      ensures !Before(key, desc, r[j], s[0])
    {
      var e := r[j];
      assert e in multiset(t);
      if e != x {
        assert e in multiset(s[1..]);
        var m :| 0 <= m < |s[1..]| && s[1..][m] == e;
        assert s[m + 1] == e;
      }
    }
    assert forall i, j :: 1 <= i < j < |r| ==> r[i] == t[i - 1] && r[j] == t[j - 1];
  }

  lemma {:induction false} NoneWithKey<T>(s: seq<T>, key: T -> Key, k: Key)
    requires forall i :: 0 <= i < |s| ==> key(s[i]) != k
    ensures WithKey(s, key, k) == []
  {
    if s != [] {
      NoneWithKey(s[1..], key, k);
    }
  }

  /** Inserting into a sorted sequence puts the new element after every
      element with the same key. */
  lemma {:induction false} InsertStable<T>(x: T, s: seq<T>, key: T -> Key, desc: bool, k: Key)
    requires SortedBy(s, key, desc)
    ensures WithKey(Insert(x, s, key, desc), key, k)
         == WithKey(s, key, k) + (if key(x) == k then [x] else [])
  {
    if s == [] {
    } else if Before(key, desc, x, s[0]) {
      PrependStable(x, s, key, desc, k);
    } else {
      var t := Insert(x, s[1..], key, desc);
      InsertStable(x, s[1..], key, desc, k);
      assert Insert(x, s, key, desc) == [s[0]] + t;
      ConsStable(s, t, key, k);
    }
  }

  lemma PrependStable<T>(x: T, s: seq<T>, key: T -> Key, desc: bool, k: Key)
    requires SortedBy(s, key, desc) && s != [] && Before(key, desc, x, s[0])
    ensures WithKey([x] + s, key, k) == WithKey(s, key, k) + (if key(x) == k then [x] else [])
  {
    WithKeyCons(x, s, key, k);
    if key(x) == k {
      KeyAbsentAfter(x, s, key, desc);
      NoneWithKey(s, key, k);
    }
  }

  lemma ConsStable<T>(s: seq<T>, t: seq<T>, key: T -> Key, k: Key)
    requires s != []
    ensures WithKey([s[0]] + t, key, k) == WithKey([s[0]], key, k) + WithKey(t, key, k)
    ensures WithKey(s, key, k) == WithKey([s[0]], key, k) + WithKey(s[1..], key, k)
  {
    WithKeyCons(s[0], t, key, k);
    WithKeyCons(s[0], s[1..], key, k);
    WithKeyCons(s[0], [], key, k);
    assert [s[0]] + [] == [s[0]];
    assert s == [s[0]] + s[1..];
  }

  lemma WithKeyCons<T>(a: T, rest: seq<T>, key: T -> Key, k: Key)
    ensures WithKey([a] + rest, key, k) == (if key(a) == k then [a] else []) + WithKey(rest, key, k)
  {
    assert ([a] + rest)[1..] == rest;
  }

  /** An element that must precede the first of a sorted sequence shares
      its key with none of it. */
  lemma KeyAbsentAfter<T>(x: T, s: seq<T>, key: T -> Key, desc: bool)
    requires SortedBy(s, key, desc) && s != [] && Before(key, desc, x, s[0])
    ensures forall i :: 0 <= i < |s| ==> key(s[i]) != key(x)
  {
    forall i | 0 <= i < |s|
      ensures key(s[i]) != key(x)
    {
      if key(s[i]) == key(x) {
        assert Before(key, desc, s[i], s[0]);
        if i == 0 {
          BeforeIrreflexive(key, desc, s[0]);
        }
      }
    }
  }
}

=== FILE: search_engine.dfy ===
/** `search_engine`: searching quote rows by code or name, by industry, by
    concept and by theme, with optional range filters and a sort order.
    Quote rows and filter dictionaries are `Values.Record`s; the lists the
    data source returns (industry and concept members, the industry and
    concept names, a stock's basic information) are parameters. The data
    source turns its own failures into empty lists, so they need no error
    path here. */
module SearchEngine {
  import opened Wrappers
  import opened Seqs
  import opened Text
  import opened Values
  import opened Ordering

  // ---------------------------------------------------------------- filters

  /** One range filter: the filter keys of its two bounds, the quote column
      it tests, and the lower bound used when only the upper one is given. */
  datatype RangeFilter = RangeFilter(minKey: string, maxKey: string, column: string, lowDefault: Operand)

  const PriceRange := RangeFilter("price_min", "price_max", "最新价", Val(Num(0.0)))
  const ChangeRange := RangeFilter("change_pct_min", "change_pct_max", "涨跌幅", NegInf)
  const PeRange := RangeFilter("pe_min", "pe_max", "市盈率-动态", Val(Num(0.0)))
  const TurnoverRange := RangeFilter("turnover_min", "turnover_max", "换手率", Val(Num(0.0)))

  /** The range filters in the order they are applied. */
  const Ranges := [PriceRange, ChangeRange, PeRange, TurnoverRange]

  /** A range takes part when either of its bounds is given. */
  predicate Active(filters: Record, f: RangeFilter)
  {
    f.minKey in filters || f.maxKey in filters
  }

  function Low(filters: Record, f: RangeFilter): Operand
  {
    if f.minKey in filters then Val(filters[f.minKey]) else f.lowDefault
  }

  function High(filters: Record, f: RangeFilter): Operand
  {
    if f.maxKey in filters then Val(filters[f.maxKey]) else PosInf
  }

  /** Python's chained `lo <= x <= hi`: the second comparison is made only
      when the first holds, so only then can it raise. */
  function ChainLe(lo: Operand, x: Operand, hi: Operand): (r: Result<bool>)
    ensures r == Success(true) <==> PyLe(lo, x) == Success(true) && PyLe(x, hi) == Success(true)
    ensures r.Failure? <==> PyLe(lo, x).Failure? || (PyLe(lo, x) == Success(true) && PyLe(x, hi).Failure?)
  {
    var first := PyLe(lo, x);
    if first.Failure? || !first.value then first else PyLe(x, hi)
  }

  /** A value below the lower bound is rejected without comparing it with
      the upper bound, so an upper bound of the wrong type goes unnoticed;
      a value above the lower bound meets it and raises. */
  lemma ChainShortCircuits()
    ensures ChainLe(Val(Num(5.0)), Val(Num(1.0)), Val(Text("x"))) == Success(false)
    ensures ChainLe(Val(Num(0.0)), Val(Num(1.0)), Val(Text("x"))).Failure?
  {
  }

  /** The value a row shows in a range's column; a missing column reads as 0. */
  function Column(s: Record, f: RangeFilter): Value
  {
    Get(s, f.column, Num(0.0))
  }

  /** The test one range makes on one row. */
  function Test(filters: Record, f: RangeFilter, s: Record): Result<bool>
  {
    ChainLe(Low(filters, f), Val(Column(s, f)), High(filters, f))
  }

  /** The row lies in the range. */
  function InRange(filters: Record, f: RangeFilter): Record -> bool
  {
    s => Test(filters, f, s) == Success(true)
  }

  /** `[s for s in stocks if lo <= s.get(column, 0) <= hi]`: a comparison
      that raises aborts the whole list. */
  function KeepInRange(stocks: seq<Record>, filters: Record, f: RangeFilter): (r: Result<seq<Record>>)
    ensures r.Success? <==> forall i :: 0 <= i < |stocks| ==> Test(filters, f, stocks[i]).Success?
    ensures r.Success? ==> r.value == Filter(stocks, InRange(filters, f))
  {
    if stocks == [] then Success([])
    else
      var t := Test(filters, f, stocks[0]);
      var rest := KeepInRange(stocks[1..], filters, f);
      if t.Failure? then Failure(t.error)
      else if rest.Failure? then rest
      else if t.value then Success([stocks[0]] + rest.value)
      else rest
  }

  /** The row passes the range, or the range does not take part. */
  predicate Passes(filters: Record, f: RangeFilter, s: Record)
  {
    !Active(filters, f) || Test(filters, f, s) == Success(true)
  }

  /** The row passes every range of `fs`. */
  function PassesAll(filters: Record, fs: seq<RangeFilter>): Record -> bool
  {
    s => forall i :: 0 <= i < |fs| ==> Passes(filters, fs[i], s)
  }

  /** Some range of `fs` that takes part raises on some row of `stocks`. */
  predicate Raises(stocks: seq<Record>, filters: Record, fs: seq<RangeFilter>)
  {
    exists x, j :: x in stocks && 0 <= j < |fs| && Active(filters, fs[j]) && Test(filters, fs[j], x).Failure?
  }

  /** The ranges of `fs` applied one after another. */
  function ApplyRanges(stocks: seq<Record>, filters: Record, fs: seq<RangeFilter>): Result<seq<Record>>
    decreases |fs|
  {
    if fs == [] then Success(stocks)
    else
      var step := if Active(filters, fs[0]) then KeepInRange(stocks, filters, fs[0]) else Success(stocks);
      if step.Failure? then step else ApplyRanges(step.value, filters, fs[1..])
  }

  lemma PassesAllCons(filters: Record, fs: seq<RangeFilter>, s: Record)
    requires fs != []
    ensures PassesAll(filters, fs)(s) == (Passes(filters, fs[0], s) && PassesAll(filters, fs[1..])(s))
  {
    if PassesAll(filters, fs[1..])(s) && Passes(filters, fs[0], s) {
      forall i | 0 <= i < |fs|
        ensures Passes(filters, fs[i], s)
      {
        if i > 0 {
          assert fs[i] == fs[1..][i - 1];
        }
      }
    }
  }

  /** Applying the ranges in turn keeps, in order, exactly the rows that
      pass them all; it fails only when a comparison raises, and does not
      fail when none can. */
  lemma {:induction false} ApplyRangesSpec(stocks: seq<Record>, filters: Record, fs: seq<RangeFilter>)
    ensures ApplyRanges(stocks, filters, fs).Success? ==>
              ApplyRanges(stocks, filters, fs).value == Filter(stocks, PassesAll(filters, fs))
    ensures ApplyRanges(stocks, filters, fs).Failure? ==> Raises(stocks, filters, fs)
    ensures !Raises(stocks, filters, fs) ==> ApplyRanges(stocks, filters, fs).Success?
    decreases |fs|
  {
    if fs == [] {
      FilterAll(stocks, PassesAll(filters, fs));
    } else {
      var f := fs[0];
      var step := if Active(filters, f) then KeepInRange(stocks, filters, f) else Success(stocks);
      if step.Failure? {
        var i :| 0 <= i < |stocks| && Test(filters, f, stocks[i]).Failure?;
        assert stocks[i] in stocks && Active(filters, fs[0]);
      } else {
        var kept := step.value;
        ApplyRangesSpec(kept, filters, fs[1..]);
        forall s
          ensures Active(filters, f) ==> PassesAll(filters, fs)(s) == (InRange(filters, f)(s) && PassesAll(filters, fs[1..])(s))
          ensures !Active(filters, f) ==> PassesAll(filters, fs)(s) == PassesAll(filters, fs[1..])(s)
        {
          PassesAllCons(filters, fs, s);
        }
        if Active(filters, f) {
          FilterFilter(stocks, InRange(filters, f), PassesAll(filters, fs[1..]), PassesAll(filters, fs));
        } else {
          FilterSame(stocks, PassesAll(filters, fs[1..]), PassesAll(filters, fs));
        }
        if Raises(kept, filters, fs[1..]) {
          var x, j :| x in kept && 0 <= j < |fs[1..]| && Active(filters, fs[1..][j])
                     && Test(filters, fs[1..][j], x).Failure?;
          assert fs[1..][j] == fs[j + 1];
          assert x in stocks;
        }
        if !Raises(stocks, filters, fs) && Active(filters, f) {
          forall i | 0 <= i < |stocks|
            ensures Test(filters, f, stocks[i]).Success?
          {
            assert stocks[i] in stocks;
          }
        }
      }
    }
  }

  /** `_apply_filters`: no filters, or an empty dictionary, leave the list
      as it is. */
  function ApplyFilters(stocks: seq<Record>, filters: Option<Record>): (r: Result<seq<Record>>)
    ensures filters.None? || filters.value == map[] ==> r == Success(stocks)
  {
    if filters.None? || filters.value == map[] then Success(stocks)
    else ApplyRanges(stocks, filters.value, Ranges)
  }

  /** The row satisfies every range the filters give. */
  predicate Admitted(filters: Option<Record>, s: Record)
  {
    filters.None? || PassesAll(filters.value, Ranges)(s)
  }

  function Admits(filters: Option<Record>): Record -> bool
  {
    s => Admitted(filters, s)
  }

  /** Filtering keeps, in their order, exactly the rows every given range
      admits; an error comes only from a comparison that raises. */
  lemma FiltersSpec(stocks: seq<Record>, filters: Option<Record>)
    ensures ApplyFilters(stocks, filters).Success? ==>
              && ApplyFilters(stocks, filters).value == Filter(stocks, Admits(filters))
              && IsSubsequence(ApplyFilters(stocks, filters).value, stocks)
    ensures ApplyFilters(stocks, filters).Failure? ==> filters.Some? && Raises(stocks, filters.value, Ranges)
    ensures filters.None? || !Raises(stocks, filters.value, Ranges) ==> ApplyFilters(stocks, filters).Success?
  {
    FilterIsSubsequence(stocks, Admits(filters));
    if filters.None? || filters.value == map[] {
      forall i | 0 <= i < |stocks|
        ensures Admits(filters)(stocks[i])
      {
        if filters.Some? {
          forall k | 0 <= k < |Ranges|
            ensures Passes(filters.value, Ranges[k], stocks[i])
          {
          }
        }
      }
      FilterAll(stocks, Admits(filters));
    } else {
      ApplyRangesSpec(stocks, filters.value, Ranges);
      FilterSame(stocks, PassesAll(filters.value, Ranges), Admits(filters));
    }
  }

  /** Filtering what was already filtered changes nothing. */
  lemma FiltersIdempotent(stocks: seq<Record>, filters: Option<Record>)
    requires ApplyFilters(stocks, filters).Success?
    ensures ApplyFilters(ApplyFilters(stocks, filters).value, filters) == ApplyFilters(stocks, filters)
  {
    var kept := ApplyFilters(stocks, filters).value;
    FiltersSpec(stocks, filters);
    if filters.Some? && filters.value != map[] {
      forall x, j | x in kept && 0 <= j < |Ranges| && Active(filters.value, Ranges[j])
        ensures Test(filters.value, Ranges[j], x).Success?
      {
        assert Admits(filters)(x);
        assert Passes(filters.value, Ranges[j], x);
      }
      assert !Raises(kept, filters.value, Ranges);
    }
    FiltersSpec(kept, filters);
    FilterIdempotent(stocks, Admits(filters));
  }

  /** A row with a negative dynamic P/E never passes a P/E range whose
      lower bound is absent or a non-negative number, even one given only by
      its upper bound: the lower bound then defaults to 0. */
  lemma NegativePeExcluded(filters: Record, s: Record)
    requires "pe_min" in filters || "pe_max" in filters
    requires "pe_min" in filters ==> filters["pe_min"].Num? && filters["pe_min"].n >= 0.0
    requires Column(s, PeRange).Num? && Column(s, PeRange).n < 0.0
    ensures !Admitted(Some(filters), s)
  {
    assert !Passes(filters, Ranges[2], s);
  }

  /** A price range over a row without a price reads the price as 0; a
      price of the wrong type is an error, not a miss. */
  lemma FilterExamples()
    ensures ApplyFilters([map[]], Some(map["price_min" := Num(1.0)])) == Success([])
    ensures ApplyFilters([map["最新价" := Text("-")]], Some(map["price_max" := Num(10.0)])).Failure?
  {
    var noPrice: Record := map[];
    var f := map["price_min" := Num(1.0)];
    assert Column(noPrice, PriceRange) == Num(0.0);
    assert KeepInRange([noPrice], f, PriceRange) == Success([]);
    assert ApplyRanges([noPrice], f, Ranges) == ApplyRanges([], f, Ranges[1..]);
    ApplyRangesSpec([], f, Ranges[1..]);
    var dash: Record := map["最新价" := Text("-")];
    assert Column(dash, PriceRange) == Text("-");
  }

  // ---------------------------------------------------------------- sorting

  /** The field `sort_by` names: the text before its first colon. */
  function SortField(sortBy: string): string
  {
    Split(sortBy, ':')[0]
  }

  /** The order `sort_by` names after the colon, descending when absent;
      anything but `desc` in some letter case sorts ascending. */
  predicate Descending(sortBy: string)
  {
    var parts := Split(sortBy, ':');
    Lower(if |parts| > 1 then parts[1] else "desc") == "desc"
  }

  /** `field:order` names the field and the order; a bare field sorts
      descending. */
  lemma SortSpecOf(field: string, order: string)
    requires ':' !in field && ':' !in order
    ensures SortField(field + ":" + order) == field
    ensures Descending(field + ":" + order) <==> Lower(order) == "desc"
    ensures SortField(field) == field && Descending(field)
  {
    SplitAppend(field, order, ':');
    SplitNoSep(order, ':');
    SplitNoSep(field, ':');
    assert field + ":" + order == field + [':'] + order;
  }

  /** The key `x.get(field, 0)` yields, or None when Python cannot compare it. */
  function KeyOf(field: string, x: Record): Option<Key>
  {
    SortKey(Get(x, field, Num(0.0)))
  }

  predicate AllNumKeys(stocks: seq<Record>, field: string)
  {
    forall i :: 0 <= i < |stocks| ==> KeyOf(field, stocks[i]).Some? && KeyOf(field, stocks[i]).value.NumKey?
  }

  predicate AllTextKeys(stocks: seq<Record>, field: string)
  {
    forall i :: 0 <= i < |stocks| ==> KeyOf(field, stocks[i]).Some? && KeyOf(field, stocks[i]).value.TextKey?
  }

  /** Python can order the rows by the field: no key is `None` and numbers
      and strings are not mixed. With two or more rows any comparison sort
      compares every row with some other, so otherwise `sorted` raises. */
  predicate Orderable(stocks: seq<Record>, field: string)
  {
    |stocks| <= 1 || AllNumKeys(stocks, field) || AllTextKeys(stocks, field)
  }

  function KeyFn(field: string): Record -> Key
  {
    x => KeyOf(field, x).GetOr(NumKey(0.0))
  }

  /** `_apply_sort`: a stable sort on the named field, in the named order;
      no `sort_by`, or one `sorted` raises on, leaves the list as it is. */
  function ApplySort(stocks: seq<Record>, sortBy: Option<string>): (r: seq<Record>)
    ensures multiset(r) == multiset(stocks)
    ensures sortBy.None? || sortBy.value == "" ==> r == stocks
    ensures sortBy.Some? && sortBy.value != "" && !Orderable(stocks, SortField(sortBy.value)) ==> r == stocks
    ensures sortBy.Some? && sortBy.value != "" && Orderable(stocks, SortField(sortBy.value)) ==>
              && SortedBy(r, KeyFn(SortField(sortBy.value)), Descending(sortBy.value))
              && forall k :: WithKey(r, KeyFn(SortField(sortBy.value)), k) == WithKey(stocks, KeyFn(SortField(sortBy.value)), k)
  {
    if sortBy.None? || sortBy.value == "" then stocks
    else
      var field := SortField(sortBy.value);
      if !Orderable(stocks, field) then stocks
      else SortBy(stocks, KeyFn(field), Descending(sortBy.value))
  }

  /** Rows sorted ascending by a numeric field have non-decreasing values. */
  lemma AscendingByNumber(stocks: seq<Record>, field: string, order: string)
    requires ':' !in field && ':' !in order && Lower(order) != "desc"
    requires AllNumKeys(stocks, field)
    ensures var r := ApplySort(stocks, Some(field + ":" + order));
            forall i, j :: 0 <= i < j < |r| ==> NumberAt(field, r[i]) <= NumberAt(field, r[j])
  {
    SortSpecOf(field, order);
    var r := ApplySort(stocks, Some(field + ":" + order));
    assert SortedBy(r, KeyFn(field), false);
    forall i, j | 0 <= i < j < |r|
      ensures NumberAt(field, r[i]) <= NumberAt(field, r[j])
    {
      assert !Before(KeyFn(field), false, r[j], r[i]);
      assert r[i] in multiset(stocks) && r[j] in multiset(stocks);
      NumberKey(stocks, field, r[i]);
      NumberKey(stocks, field, r[j]);
    }
  }

  /** A row of a list with numeric keys is keyed by the number it shows. */
  lemma NumberKey(stocks: seq<Record>, field: string, x: Record)
    requires AllNumKeys(stocks, field) && x in stocks
    ensures KeyFn(field)(x) == NumKey(NumberAt(field, x))
  {
    var a :| 0 <= a < |stocks| && stocks[a] == x;
    assert KeyOf(field, stocks[a]).Some? && KeyOf(field, stocks[a]).value.NumKey?;
  }

  /** The number a row shows in a field, 0 when it shows none. */
  function NumberAt(field: string, x: Record): real
  {
    Numeric(Get(x, field, Num(0.0))).GetOr(0.0)
  }

  // ---------------------------------------------------------------- industry and concept

  /** What `search_by_industry` and `search_by_concept` report: the first
      `limit` rows, how many rows passed the filters, or an error. */
  datatype Found = Found(results: seq<Record>, total: nat, error: Option<string>)

  /** The common body of the two searches over one board's members. */
  function SearchMembers(stocks: seq<Record>, notFound: string, filters: Option<Record>,
                         sortBy: Option<string>, limit: int): (r: Found)
    ensures r.error.None? <==> stocks != [] && ApplyFilters(stocks, filters).Success?
    ensures stocks == [] ==> r.error == Some(notFound)
    ensures stocks != [] && ApplyFilters(stocks, filters).Failure? ==>
              r.error == Some(ApplyFilters(stocks, filters).error)
    ensures r.error.Some? ==> r.results == [] && r.total == 0
    ensures r.error.None? ==> r.results == PyTake(ApplySort(ApplyFilters(stocks, filters).value, sortBy), limit)
    ensures r.error.None? ==>
              && r.total == |ApplyFilters(stocks, filters).value|
              && |r.results| <= r.total
              && multiset(r.results) <= multiset(ApplyFilters(stocks, filters).value)
              && (limit >= 0 ==> |r.results| == if limit < r.total then limit else r.total)
              && (limit >= r.total ==> multiset(r.results) == multiset(ApplyFilters(stocks, filters).value))
  {
    if stocks == [] then Found([], 0, Some(notFound))
    else
      match ApplyFilters(stocks, filters)
      case Failure(e) => Found([], 0, Some(e))
      case Success(kept) =>
        var sorted := ApplySort(kept, sortBy);
        PrefixMultiset(sorted, |PyTake(sorted, limit)|);
        assert limit >= |sorted| ==> PyTake(sorted, limit) == sorted;
        Found(PyTake(sorted, limit), |sorted|, None)
  }

  /** Every row a board search returns is a member the filters admit, and
      the total counts exactly those members. */
  lemma MemberSearchRows(stocks: seq<Record>, notFound: string, filters: Option<Record>,
                         sortBy: Option<string>, limit: int)
    ensures var r := SearchMembers(stocks, notFound, filters, sortBy, limit);
            && (forall x :: x in r.results ==> x in stocks && Admitted(filters, x))
            && (r.error.None? ==> r.total == |Filter(stocks, Admits(filters))|)
  {
    var r := SearchMembers(stocks, notFound, filters, sortBy, limit);
    FiltersSpec(stocks, filters);
    if r.error.None? {
      var kept := ApplyFilters(stocks, filters).value;
      forall x | x in r.results
        ensures x in stocks && Admitted(filters, x)
      {
        assert x in multiset(r.results);
        assert x in multiset(kept);
        var i :| 0 <= i < |kept| && kept[i] == x;
      }
    }
  }

  function IndustryNotFound(name: string): string
  {
    "未找到行业：" + name
  }

  function ConceptNotFound(name: string): string
  {
    "未找到概念：" + name
  }

  /** `search_by_industry` over the industry's members. */
  function SearchByIndustry(name: string, members: seq<Record>, filters: Option<Record>,
                            sortBy: Option<string>, limit: int): (r: Found)
    ensures members == [] ==> r.error == Some(IndustryNotFound(name))
    ensures r.error.None? <==> members != [] && ApplyFilters(members, filters).Success?
    ensures members != [] && ApplyFilters(members, filters).Failure? ==>
              r.error == Some(ApplyFilters(members, filters).error)
    ensures r.error.Some? ==> r.results == [] && r.total == 0
    ensures r.error.None? ==> r.results == PyTake(ApplySort(ApplyFilters(members, filters).value, sortBy), limit)
    ensures r.error.None? ==> r.total == |Filter(members, Admits(filters))| && |r.results| <= r.total
    ensures forall x :: x in r.results ==> x in members && Admitted(filters, x)
  {
    MemberSearchRows(members, IndustryNotFound(name), filters, sortBy, limit);
    SearchMembers(members, IndustryNotFound(name), filters, sortBy, limit)
  }

  /** `search_by_concept` over the concept's members. */
  function SearchByConcept(name: string, members: seq<Record>, filters: Option<Record>,
                           sortBy: Option<string>, limit: int): (r: Found)
    ensures members == [] ==> r.error == Some(ConceptNotFound(name))
    ensures r.error.None? <==> members != [] && ApplyFilters(members, filters).Success?
    ensures members != [] && ApplyFilters(members, filters).Failure? ==>
              r.error == Some(ApplyFilters(members, filters).error)
    ensures r.error.Some? ==> r.results == [] && r.total == 0
    ensures r.error.None? ==> r.results == PyTake(ApplySort(ApplyFilters(members, filters).value, sortBy), limit)
    ensures r.error.None? ==> r.total == |Filter(members, Admits(filters))| && |r.results| <= r.total
    ensures forall x :: x in r.results ==> x in members && Admitted(filters, x)
  {
    MemberSearchRows(members, ConceptNotFound(name), filters, sortBy, limit);
    SearchMembers(members, ConceptNotFound(name), filters, sortBy, limit)
  }

  // ---------------------------------------------------------------- theme

  /** A row's `代码`, empty when missing. */
  function Code(s: Record): Value
  {
    Get(s, "代码", Text(""))
  }

  function CodesOf(r: seq<Record>): set<Value>
  {
    set i | 0 <= i < |r| :: Code(r[i])
  }

  /** The rows whose code is non-empty and not yet seen, each code kept at
      its first row. */
  function MergeByCode(stocks: seq<Record>, seen: set<Value>): (r: seq<Record>)
    ensures forall i :: 0 <= i < |r| ==> r[i] in stocks && Truthy(Code(r[i])) && Code(r[i]) !in seen
    ensures forall i, j :: 0 <= i < j < |r| ==> Code(r[i]) != Code(r[j])
    ensures |r| <= |stocks|
  {
    if stocks == [] then []
    else
      var c := Code(stocks[0]);
      if Truthy(c) && c !in seen then [stocks[0]] + MergeByCode(stocks[1..], seen + {c})
      else MergeByCode(stocks[1..], seen)
  }

  /** Every non-empty code not seen before is kept, at some row. */
  lemma {:induction false} MergeCovers(stocks: seq<Record>, seen: set<Value>, x: Record)
    requires x in stocks && Truthy(Code(x)) && Code(x) !in seen
    ensures exists i :: 0 <= i < |MergeByCode(stocks, seen)| && Code(MergeByCode(stocks, seen)[i]) == Code(x)
  {
    var r := MergeByCode(stocks, seen);
    var c := Code(stocks[0]);
    var k :| 0 <= k < |stocks| && stocks[k] == x;
    if Truthy(c) && c !in seen && c == Code(x) {
      assert Code(r[0]) == Code(x);
    } else if Truthy(c) && c !in seen {
      assert stocks[1..][k - 1] == x;
      MergeCovers(stocks[1..], seen + {c}, x);
      var rest := MergeByCode(stocks[1..], seen + {c});
      assert r == [stocks[0]] + rest;
      var i :| 0 <= i < |rest| && Code(rest[i]) == Code(x);
      assert r[i + 1] == rest[i];
    } else {
      assert stocks[1..][k - 1] == x;
      MergeCovers(stocks[1..], seen, x);
      assert r == MergeByCode(stocks[1..], seen);
    }
  }

  lemma CodesOfCons(x: Record, r: seq<Record>)
    ensures CodesOf([x] + r) == {Code(x)} + CodesOf(r)
  {
    var l := [x] + r;
    forall c | c in CodesOf(l)
      ensures c in {Code(x)} + CodesOf(r)
    {
      var i :| 0 <= i < |l| && Code(l[i]) == c;
      if i > 0 {
        assert l[i] == r[i - 1];
      }
    }
    forall c | c in CodesOf(r)
      ensures c in CodesOf(l)
    {
      var i :| 0 <= i < |r| && Code(r[i]) == c;
      assert l[i + 1] == r[i];
    }
    assert Code(l[0]) == Code(x);
  }

  /** Merging two lists keeps the first list's rows first: the second
      contributes only codes the first did not. */
  lemma {:induction false} MergeAppend(a: seq<Record>, b: seq<Record>, seen: set<Value>)
    ensures MergeByCode(a + b, seen) == MergeByCode(a, seen) + MergeByCode(b, seen + CodesOf(MergeByCode(a, seen)))
  {
    if a == [] {
      assert a + b == b;
      assert CodesOf([]) == {};
      assert seen + {} == seen;
    } else {
      assert (a + b)[0] == a[0] && (a + b)[1..] == a[1..] + b;
      var c := Code(a[0]);
      if Truthy(c) && c !in seen {
        MergeAppend(a[1..], b, seen + {c});
        var rest := MergeByCode(a[1..], seen + {c});
        CodesOfCons(a[0], rest);
        assert seen + {c} + CodesOf(rest) == seen + CodesOf([a[0]] + rest);
      } else {
        MergeAppend(a[1..], b, seen);
      }
    }
  }

  /** What `search_by_theme` reports: both board searches and the merged
      rows. */
  datatype ThemeFound = ThemeFound(industry: Found, concept: Found, combined: seq<Record>)

  /** `search_by_theme`: the theme searched as an industry and as a
      concept, the industry rows first, one row per non-empty code, at most
      `limit` rows. */
  function SearchByTheme(theme: string, industryMembers: seq<Record>, conceptMembers: seq<Record>,
                         filters: Option<Record>, sortBy: Option<string>, limit: int): (r: ThemeFound)
    ensures forall i :: 0 <= i < |r.combined| ==>
              (r.combined[i] in r.industry.results || r.combined[i] in r.concept.results) && Truthy(Code(r.combined[i]))
    ensures forall i, j :: 0 <= i < j < |r.combined| ==> Code(r.combined[i]) != Code(r.combined[j])
    ensures limit >= 0 ==> |r.combined| <= limit
  {
    var industry := SearchByIndustry(theme, industryMembers, filters, sortBy, limit);
    var concept := SearchByConcept(theme, conceptMembers, filters, sortBy, limit);
    TakeMerged(industry.results, concept.results, limit);
    ThemeFound(industry, concept, PyTake(MergeByCode(industry.results + concept.results, {}), limit))
  }

  /** The first `limit` merged rows of two lists come from one of them,
      have non-empty, distinct codes, and are at most `limit`. */
  lemma TakeMerged(a: seq<Record>, b: seq<Record>, limit: int)
    ensures var r := PyTake(MergeByCode(a + b, {}), limit);
            && (forall i :: 0 <= i < |r| ==> (r[i] in a || r[i] in b) && Truthy(Code(r[i])))
            && (forall i, j :: 0 <= i < j < |r| ==> Code(r[i]) != Code(r[j]))
            && (limit >= 0 ==> |r| <= limit)
  {
    var m := MergeByCode(a + b, {});
    var r := PyTake(m, limit);
    forall i | 0 <= i < |r|
      ensures (r[i] in a || r[i] in b) && Truthy(Code(r[i]))
    {
      assert r[i] == m[i];
      assert m[i] in a + b;
    }
    forall i, j | 0 <= i < j < |r|
      ensures Code(r[i]) != Code(r[j])
    {
      assert r[i] == m[i] && r[j] == m[j];
    }
  }

  /** The merged rows are the industry rows with distinct codes followed by
      the concept rows with codes not already present. */
  lemma ThemeIndustryFirst(theme: string, industryMembers: seq<Record>, conceptMembers: seq<Record>,
                           filters: Option<Record>, sortBy: Option<string>, limit: int)
    ensures var r := SearchByTheme(theme, industryMembers, conceptMembers, filters, sortBy, limit);
            var first := MergeByCode(r.industry.results, {});
            r.combined == PyTake(first + MergeByCode(r.concept.results, CodesOf(first)), limit)
  {
    var r := SearchByTheme(theme, industryMembers, conceptMembers, filters, sortBy, limit);
    MergeAppend(r.industry.results, r.concept.results, {});
    assert {} + CodesOf(MergeByCode(r.industry.results, {})) == CodesOf(MergeByCode(r.industry.results, {}));
  }

  /** With a limit that cuts nothing off, every non-empty code either board
      search returned appears among the merged rows. */
  lemma ThemeCoversCodes(theme: string, industryMembers: seq<Record>, conceptMembers: seq<Record>,
                         filters: Option<Record>, sortBy: Option<string>, limit: int)
    ensures var r := SearchByTheme(theme, industryMembers, conceptMembers, filters, sortBy, limit);
            limit >= |r.industry.results| + |r.concept.results| ==>
              forall x :: x in r.industry.results + r.concept.results && Truthy(Code(x)) ==>
                exists i :: 0 <= i < |r.combined| && Code(r.combined[i]) == Code(x)
  {
    var r := SearchByTheme(theme, industryMembers, conceptMembers, filters, sortBy, limit);
    var both := r.industry.results + r.concept.results;
    var merged := MergeByCode(both, {});
    if limit >= |both| {
      assert r.combined == merged;
      forall x | x in both && Truthy(Code(x))
        ensures exists i :: 0 <= i < |r.combined| && Code(r.combined[i]) == Code(x)
      {
        MergeCovers(both, {}, x);
      }
    }
  }

  // ---------------------------------------------------------------- code or name

  /** The name a row is matched by, or the error `.lower()` raises on a
      name that is not a string. */
  function NameOf(stock: Record): Result<string>
  {
    match Get(stock, "名称", Text(""))
    case Text(s) => Success(s)
    case _ => Failure("AttributeError: 'lower'")
  }

  /** `keyword.lower() in name.lower()`. */
  predicate NameMatches(keyword: string, name: string)
  {
    Contains(Lower(name), Lower(keyword))
  }

  /** The row's name is a string that contains the keyword. */
  function MatchesKeyword(keyword: string): Record -> bool
  {
    s => NameOf(s).Success? && NameMatches(keyword, NameOf(s).value)
  }

  /** The entry a name match adds to the results. */
  function Hit(stock: Record, name: string): Record
  {
    map["code" := Code(stock), "name" := Text(name),
        "price" := Get(stock, "最新价", Num(0.0)), "change_pct" := Get(stock, "涨跌幅", Num(0.0))]
  }

  /** A name match's entry carries the row's code and names the keyword. */
  lemma HitFacts(stock: Record, name: string, keyword: string)
    ensures NamesKeyword(keyword, Hit(stock, name)) <==> NameMatches(keyword, name)
    ensures "code" in Hit(stock, name) && Hit(stock, name)["code"] == Code(stock)
  {
    var h := Hit(stock, name);
    assert h["name"] == Text(name);
  }

  /** The entries the industry pass would add without a limit: one hit per
      row whose name contains the keyword, in order, up to the first row
      whose name is not a string. */
  function Hits(stocks: seq<Record>, keyword: string): seq<Record>
    decreases |stocks|
  {
    if stocks == [] then []
    else
      match NameOf(stocks[0])
      case Failure(_) => []
      case Success(name) =>
        (if NameMatches(keyword, name) then [Hit(stocks[0], name)] else []) + Hits(stocks[1..], keyword)
  }

  /** `h` is the hit of one of `stocks` whose name is a string. */
  predicate HitOfRow(h: Record, stocks: seq<Record>)
  {
    exists k :: 0 <= k < |stocks| && NameOf(stocks[k]).Success? && h == Hit(stocks[k], NameOf(stocks[k]).value)
  }

  /** `h` is the hit of a member of one of `concepts`. */
  predicate HitOfConcept(h: Record, concepts: seq<string>, members: string -> seq<Record>)
  {
    exists j :: 0 <= j < |concepts| && HitOfRow(h, members(concepts[j]))
  }

  /** A hit of the rows after the first is a hit of the rows. */
  lemma HitOfRowTail(h: Record, stocks: seq<Record>)
    requires stocks != [] && HitOfRow(h, stocks[1..])
    ensures HitOfRow(h, stocks)
  {
    var k :| 0 <= k < |stocks[1..]| && NameOf(stocks[1..][k]).Success? && h == Hit(stocks[1..][k], NameOf(stocks[1..][k]).value);
    assert stocks[k + 1] == stocks[1..][k];
  }

  /** A hit of the concepts after the first is a hit of the concepts. */
  lemma HitOfConceptTail(h: Record, concepts: seq<string>, members: string -> seq<Record>)
    requires concepts != [] && HitOfConcept(h, concepts[1..], members)
    ensures HitOfConcept(h, concepts, members)
  {
    var j :| 0 <= j < |concepts[1..]| && HitOfRow(h, members(concepts[1..][j]));
    assert concepts[j + 1] == concepts[1..][j];
  }

  /** A result entry whose name contains the keyword. */
  predicate NamesKeyword(keyword: string, h: Record)
  {
    "code" in h && "name" in h && h["name"].Text? && NameMatches(keyword, h["name"].s)
  }

  /** Some row's name is not a string. */
  predicate BadName(stocks: seq<Record>)
  {
    exists i :: 0 <= i < |stocks| && NameOf(stocks[i]).Failure?
  }

  /** A bad name is the first row's, or one among the rest. */
  lemma BadNameCons(stocks: seq<Record>)
    requires stocks != []
    ensures BadName(stocks) <==> NameOf(stocks[0]).Failure? || BadName(stocks[1..])
  {
    if BadName(stocks[1..]) {
      var i :| 0 <= i < |stocks[1..]| && NameOf(stocks[1..][i]).Failure?;
      assert NameOf(stocks[i + 1]).Failure?;
    }
    if BadName(stocks) && NameOf(stocks[0]).Success? {
      var i :| 0 <= i < |stocks| && NameOf(stocks[i]).Failure?;
      assert NameOf(stocks[1..][i - 1]).Failure?;
    }
  }

  /** The industry pass: each row whose name matches adds an entry while
      fewer than `limit` are held; a name that is not a string ends the
      search with that error. */
  function NamePass(results: seq<Record>, stocks: seq<Record>, keyword: string, limit: int): (r: (seq<Record>, Option<string>))
    ensures |results| <= |r.0| && r.0[..|results|] == results
    ensures |r.0| > |results| ==> |r.0| <= limit
    ensures forall i :: |results| <= i < |r.0| ==> NamesKeyword(keyword, r.0[i])
    ensures r.1.Some? <==> BadName(stocks)
    ensures r.1.None? && |results| + |stocks| <= limit ==>
              |r.0| == |results| + |Filter(stocks, MatchesKeyword(keyword))|
    decreases |stocks|
  {
    if stocks == [] then (results, None)
    else
      match NameOf(stocks[0])
      case Failure(e) => (results, Some(e))
      case Success(name) =>
        HitFacts(stocks[0], name, keyword);
        var next := if NameMatches(keyword, name) && |results| < limit then results + [Hit(stocks[0], name)] else results;
        var r := NamePass(next, stocks[1..], keyword, limit);
        assert r.0[..|results|] == r.0[..|next|][..|results|];
        NamesKeywordExtend(results, next, r.0, keyword);
        BadNameCons(stocks);
        r
  }

  /** The industry pass appends the first hits of the rows, as many as fit
      under `limit`, and stops at the first row whose name is not a string. */
  lemma {:induction false} NamePassTakesHits(results: seq<Record>, stocks: seq<Record>, keyword: string, limit: int)
    ensures NamePass(results, stocks, keyword, limit).0 == results + TakeUpTo(Hits(stocks, keyword), limit - |results|)
    decreases |stocks|
  {
    if stocks == [] {
      assert results + TakeUpTo(Hits(stocks, keyword), limit - |results|) == results + [];
    } else {
      match NameOf(stocks[0])
      case Failure(_) =>
        assert results + TakeUpTo(Hits(stocks, keyword), limit - |results|) == results + [];
      case Success(name) =>
        var next := if NameMatches(keyword, name) && |results| < limit then results + [Hit(stocks[0], name)] else results;
        assert NamePass(results, stocks, keyword, limit) == NamePass(next, stocks[1..], keyword, limit);
        NamePassTakesHits(next, stocks[1..], keyword, limit);
        NamePassHits(results, next, stocks, name, keyword, limit);
    }
  }

  /** One step of the industry pass takes the row's hit when it has one and
      there is room. */
  lemma NamePassHits(results: seq<Record>, next: seq<Record>, stocks: seq<Record>, name: string,
                     keyword: string, limit: int)
    requires stocks != [] && NameOf(stocks[0]) == Success(name)
    requires next == if NameMatches(keyword, name) && |results| < limit then results + [Hit(stocks[0], name)] else results
    ensures results + TakeUpTo(Hits(stocks, keyword), limit - |results|)
              == next + TakeUpTo(Hits(stocks[1..], keyword), limit - |next|)
  {
    var head := if NameMatches(keyword, name) then [Hit(stocks[0], name)] else [];
    assert Hits(stocks, keyword) == head + Hits(stocks[1..], keyword);
    TakeStep(results, next, head, Hits(stocks[1..], keyword), limit);
  }

  /** Appending at most one element while there is room, then taking the
      rest, takes from the whole. */
  lemma TakeStep<T>(results: seq<T>, next: seq<T>, head: seq<T>, rest: seq<T>, limit: int)
    requires |head| <= 1
    requires next == if head != [] && |results| < limit then results + head else results
    ensures results + TakeUpTo(head + rest, limit - |results|) == next + TakeUpTo(rest, limit - |next|)
  {
    var k := limit - |results|;
    if head == [] {
      assert head + rest == rest;
    } else if k > 0 {
      var all := head + rest;
      assert all[0] == head[0] && all[1..] == rest;
      TakeUpToCons(all, k);
      var t := TakeUpTo(rest, k - 1);
      assert TakeUpTo(all, k) == head + t;
      assert results + (head + t) == (results + head) + t;
    } else {
      assert TakeUpTo(head + rest, k) == [] == TakeUpTo(rest, limit - |next|);
    }
  }

  /** `any(r['code'] == code for r in results)`, raising `KeyError` at the
      first entry without a code that comes before a match. */
  function AnyHasCode(results: seq<Record>, code: Value): (r: Result<bool>)
    ensures r == Success(false) <==> forall i :: 0 <= i < |results| ==> "code" in results[i] && results[i]["code"] != code
    ensures r == Success(true) ==> exists i :: 0 <= i < |results| && "code" in results[i] && results[i]["code"] == code
  {
    if results == [] then Success(false)
    else if "code" !in results[0] then Failure("KeyError: 'code'")
    else if results[0]["code"] == code then Success(true)
    else AnyHasCode(results[1..], code)
  }

  /** Entries after position `from` carry a code no earlier entry has. */
  predicate NewCodes(r: seq<Record>, from: int)
  {
    forall i, j :: 0 <= j < i < |r| && from <= i ==> CodesDiffer(r[j], r[i])
  }

  /** Both entries carry a code, and the codes differ. */
  predicate CodesDiffer(a: Record, b: Record)
  {
    "code" in a && "code" in b && a["code"] != b["code"]
  }

  /** One concept's rows: like the industry pass, but a row whose code is
      already among the results adds nothing, and an error ends this
      concept's rows only. */
  function ConceptRows(results: seq<Record>, stocks: seq<Record>, keyword: string, limit: int): (r: seq<Record>)
    ensures |results| <= |r| && r[..|results|] == results
    ensures |r| > |results| ==> |r| <= limit
    ensures forall i :: |results| <= i < |r| ==> NamesKeyword(keyword, r[i])
    ensures NewCodes(r, |results|)
    ensures forall i :: |results| <= i < |r| ==> HitOfRow(r[i], stocks)
    decreases |stocks|
  {
    if stocks == [] then results
    else
      match NameOf(stocks[0])
      case Failure(_) => results
      case Success(name) =>
        if !NameMatches(keyword, name) then
          var r := ConceptRows(results, stocks[1..], keyword, limit);
          HitsExtend(results, results, r, stocks);
          r
        else
          match AnyHasCode(results, Code(stocks[0]))
          case Failure(_) => results
          case Success(existing) =>
            HitFacts(stocks[0], name, keyword);
            var next := if !existing && |results| < limit then results + [Hit(stocks[0], name)] else results;
            var r := ConceptRows(next, stocks[1..], keyword, limit);
            assert r[..|results|] == r[..|next|][..|results|];
            assert NewCodes(next, |results|);
            NewCodesExtend(results, next, r);
            NamesKeywordExtend(results, next, r, keyword);
            assert forall i :: |results| <= i < |next| ==> HitOfRow(next[i], stocks) by {
              if |next| > |results| {
                assert NameOf(stocks[0]).value == name;
              }
            }
            HitsExtend(results, next, r, stocks);
            r
  }

  /** Hits of the rows added up to `next`, and hits of the later rows added
      after `next`, are hits of the rows. */
  lemma HitsExtend(results: seq<Record>, next: seq<Record>, r: seq<Record>, stocks: seq<Record>)
    requires stocks != []
    requires |results| <= |next| <= |r| && r[..|next|] == next
    requires forall i :: |results| <= i < |next| ==> HitOfRow(next[i], stocks)
    requires forall i :: |next| <= i < |r| ==> HitOfRow(r[i], stocks[1..])
    ensures forall i :: |results| <= i < |r| ==> HitOfRow(r[i], stocks)
  {
    forall i | |results| <= i < |r|
      ensures HitOfRow(r[i], stocks)
    {
      if i < |next| {
        assert r[i] == r[..|next|][i];
      } else {
        HitOfRowTail(r[i], stocks);
      }
    }
  }

  /** New codes after `results` up to `next`, and after `next` up to `r`,
      are new codes after `results`. */
  lemma NewCodesExtend(results: seq<Record>, next: seq<Record>, r: seq<Record>)
    requires |results| <= |next| <= |r| && r[..|next|] == next
    requires NewCodes(next, |results|) && NewCodes(r, |next|)
    ensures NewCodes(r, |results|)
  {
    forall i, j | 0 <= j < i < |r| && |results| <= i
      ensures CodesDiffer(r[j], r[i])
    {
      if i < |next| {
        assert r[i] == r[..|next|][i] && r[j] == r[..|next|][j];
      }
    }
  }

  /** Entries naming the keyword after `results` up to `next`, and after
      `next` up to `r`, name it after `results`. */
  lemma NamesKeywordExtend(results: seq<Record>, next: seq<Record>, r: seq<Record>, keyword: string)
    requires |results| <= |next| <= |r| && r[..|next|] == next
    requires forall i :: |results| <= i < |next| ==> NamesKeyword(keyword, next[i])
    requires forall i :: |next| <= i < |r| ==> NamesKeyword(keyword, r[i])
    ensures forall i :: |results| <= i < |r| ==> NamesKeyword(keyword, r[i])
  {
    forall i | |results| <= i < |r|
      ensures NamesKeyword(keyword, r[i])
    {
      if i < |next| {
        assert r[i] == r[..|next|][i];
      }
    }
  }

  /** The concept pass over every concept in turn. */
  function ConceptPass(results: seq<Record>, concepts: seq<string>, members: string -> seq<Record>,
                       keyword: string, limit: int): (r: seq<Record>)
    ensures |results| <= |r| && r[..|results|] == results
    ensures |r| > |results| ==> |r| <= limit
    ensures forall i :: |results| <= i < |r| ==> NamesKeyword(keyword, r[i])
    ensures NewCodes(r, |results|)
    ensures forall i :: |results| <= i < |r| ==> HitOfConcept(r[i], concepts, members)
    decreases |concepts|
  {
    if concepts == [] then results
    else
      var next := ConceptRows(results, members(concepts[0]), keyword, limit);
      var r := ConceptPass(next, concepts[1..], members, keyword, limit);
      assert r[..|results|] == r[..|next|][..|results|];
      NewCodesExtend(results, next, r);
      NamesKeywordExtend(results, next, r, keyword);
      forall i | |results| <= i < |r|
        ensures HitOfConcept(r[i], concepts, members)
      {
        if i < |next| {
          assert r[i] == next[i];
          assert HitOfRow(r[i], members(concepts[0]));
        } else {
          HitOfConceptTail(r[i], concepts, members);
        }
      }
      r
  }

  /** `all_stocks`: the members of every industry, in order. */
  function AllMembers(industries: seq<string>, members: string -> seq<Record>): seq<Record>
  {
    if industries == [] then [] else members(industries[0]) + AllMembers(industries[1..], members)
  }

  /** The basic-information hit a six-digit keyword yields. */
  function ExactHit(keyword: string, info: Option<Record>): seq<Record>
  {
    if IsDigits(keyword) && |keyword| == 6 && info.Some? && info.value != map[] then [info.value] else []
  }

  /** What `search_by_code_or_name` reports. */
  datatype NameFound = NameFound(results: seq<Record>, total: nat, error: Option<string>)

  /** `search_by_code_or_name`: the exact hit first, then name matches
      among industry members, then, while short of `limit`, name matches
      among concept members whose codes are new. An error in the industry
      pass keeps the entries found so far and leaves the total at 0. */
  function SearchByCodeOrName(keyword: string, limit: int, info: Option<Record>,
                              industries: seq<string>, industryMembers: string -> seq<Record>,
                              concepts: seq<string>, conceptMembers: string -> seq<Record>): (r: NameFound)
    ensures r.error.None? ==> r.total == |r.results|
    ensures r.error.Some? ==> r.total == 0
    ensures r.error.Some? <==> BadName(AllMembers(industries, industryMembers))
    ensures |r.results| <= |ExactHit(keyword, info)| || |r.results| <= limit
    ensures ExactHit(keyword, info) != [] ==> r.results != [] && r.results[0] == info.value
    ensures forall i :: |ExactHit(keyword, info)| <= i < |r.results| ==> NamesKeyword(keyword, r.results[i])
    ensures var named := NamePass(ExactHit(keyword, info), AllMembers(industries, industryMembers), keyword, limit).0;
            && (r.error.Some? ==> r.results == named)
            && (r.error.None? ==> |named| <= |r.results| && r.results[..|named|] == named
                                  && NewCodes(r.results, |named|))
    ensures var named := NamePass(ExactHit(keyword, info), AllMembers(industries, industryMembers), keyword, limit).0;
            forall i :: |named| <= i < |r.results| ==> HitOfConcept(r.results[i], concepts, conceptMembers)
  {
    var first := ExactHit(keyword, info);
    var named := NamePass(first, AllMembers(industries, industryMembers), keyword, limit);
    if named.1.Some? then
      assert named.0[..|first|] == first;
      assert first != [] ==> named.0[0] == named.0[..|first|][0] == first[0];
      NameFound(named.0, 0, named.1)
    else
      var r := WithConcepts(first, named.0, keyword, limit, concepts, conceptMembers);
      assert first != [] ==> r.results[0] == r.results[..|first|][0] == first[0];
      r
  }

  /** The concept pass after an industry pass without error: it runs only
      while the results are short of `limit`, and keeps what came before. */
  function WithConcepts(first: seq<Record>, named: seq<Record>, keyword: string, limit: int,
                        concepts: seq<string>, members: string -> seq<Record>): (r: NameFound)
    requires |first| <= |named| && named[..|first|] == first
    requires |named| > |first| ==> |named| <= limit
    requires forall i :: |first| <= i < |named| ==> NamesKeyword(keyword, named[i])
    ensures r.error.None? && r.total == |r.results|
    ensures |named| <= |r.results| && r.results[..|named|] == named && NewCodes(r.results, |named|)
    ensures |first| <= |r.results| && r.results[..|first|] == first
    ensures |r.results| <= |first| || |r.results| <= limit
    ensures forall i :: |first| <= i < |r.results| ==> NamesKeyword(keyword, r.results[i])
    ensures forall i :: |named| <= i < |r.results| ==> HitOfConcept(r.results[i], concepts, members)
  {
    var all := if |named| < limit then ConceptPass(named, concepts, members, keyword, limit) else named;
    assert all[..|first|] == all[..|named|][..|first|];
    NamesKeywordExtend(first, named, all, keyword);
    NameFound(all, |all|, None)
  }

  /** A stock listed under two industries is reported twice: the industry
      pass does not look for repeated codes. */
  lemma RepeatedIndustryMember(keyword: string, limit: int, stock: Record, a: string, b: string)
    requires NameOf(stock).Success? && NameMatches(keyword, NameOf(stock).value)
    requires limit >= 2
    ensures var r := SearchByCodeOrName(keyword, limit, None, [a, b], _ => [stock], [], _ => []);
            r.error.None? && r.total == 2 && r.results[0] == r.results[1]
  {
    var members: string -> seq<Record> := _ => [stock];
    var hit := Hit(stock, NameOf(stock).value);
    assert AllMembers([a, b], members) == [stock, stock] by {
      assert AllMembers([b], members) == [stock] + AllMembers([], members);
    }
    NamePassMatch([], [stock, stock], keyword, limit);
    assert [stock, stock][1..] == [stock];
    NamePassMatch([hit], [stock], keyword, limit);
    assert [hit] + [hit] == [hit, hit];
    assert NamePass([hit, hit], [], keyword, limit) == ([hit, hit], None);
  }

  /** A leading row whose name matches is added while the results are
      short of `limit`. */
  lemma NamePassMatch(results: seq<Record>, stocks: seq<Record>, keyword: string, limit: int)
    requires stocks != [] && NameOf(stocks[0]).Success? && NameMatches(keyword, NameOf(stocks[0]).value)
    requires |results| < limit
    ensures NamePass(results, stocks, keyword, limit) ==
              NamePass(results + [Hit(stocks[0], NameOf(stocks[0]).value)], stocks[1..], keyword, limit)
  {
  }
}

=== FILE: seqs.dfy ===
/** Sequence helpers: order-preserving filtering, Python's slice forms
    `s[:k]` and `s[k:]` for any integer `k`, sums and duplicate freedom. */
module Seqs {
  import opened Wrappers


  /** `[x for x in s if p(x)]`. */
  function Filter<T(==)>(s: seq<T>, p: T -> bool): (r: seq<T>)
    ensures |r| <= |s|
    ensures forall i :: 0 <= i < |r| ==> r[i] in s && p(r[i])
    ensures forall i :: 0 <= i < |s| && p(s[i]) ==> s[i] in r
  {
    if s == [] then []
    else if p(s[0]) then [s[0]] + Filter(s[1..], p)
    else Filter(s[1..], p)
  }

  lemma {:induction false} FilterAppend<T>(a: seq<T>, b: seq<T>, p: T -> bool)
    ensures Filter(a + b, p) == Filter(a, p) + Filter(b, p)
  {
    if a == [] {
      assert a + b == b;
    } else {
      assert (a + b)[1..] == a[1..] + b;
      FilterAppend(a[1..], b, p);
    }
  }

  /** Filtering twice with the same predicate changes nothing. */
  lemma {:induction false} FilterIdempotent<T>(s: seq<T>, p: T -> bool)
    ensures Filter(Filter(s, p), p) == Filter(s, p)
  {
    if s != [] {
      FilterIdempotent(s[1..], p);
    }
  }

  /** A filter that keeps everything is the identity. */
  lemma {:induction false} FilterAll<T>(s: seq<T>, p: T -> bool)
    requires forall i :: 0 <= i < |s| ==> p(s[i])
    ensures Filter(s, p) == s
  {
    if s != [] {
      FilterAll(s[1..], p);
    }
  }

  /** A predicate and its negation split a sequence between them. */
  lemma {:induction false} FilterPartition<T>(s: seq<T>, p: T -> bool, q: T -> bool)
    requires forall x :: q(x) == !p(x)
    ensures |Filter(s, p)| + |Filter(s, q)| == |s|
    ensures multiset(Filter(s, p)) + multiset(Filter(s, q)) == multiset(s)
  {
    if s != [] {
      FilterPartition(s[1..], p, q);
      assert s == [s[0]] + s[1..];
    }
  }

  /** `a` can be obtained from `b` by deleting elements. */
  predicate IsSubsequence<T(==)>(a: seq<T>, b: seq<T>)
  {
    if a == [] then true
    else if b == [] then false
    else if a[0] == b[0] then IsSubsequence(a[1..], b[1..])
    else IsSubsequence(a, b[1..])
  }

  lemma {:induction false} FilterIsSubsequence<T>(s: seq<T>, p: T -> bool)
    ensures IsSubsequence(Filter(s, p), s)
  {
    if s != [] {
      FilterIsSubsequence(s[1..], p);
      if !p(s[0]) {
        var f := Filter(s[1..], p);
        SubsequenceDropHead(f, s);
      }
    }
  }

  lemma {:induction false} SubsequenceDropHead<T>(a: seq<T>, b: seq<T>)
    requires b != [] && IsSubsequence(a, b[1..])
    ensures IsSubsequence(a, b)
  {
    if a != [] && a[0] == b[0] {
      SubsequenceTail(a, b[1..]);
    }
  }

  lemma {:induction false} SubsequenceTail<T>(a: seq<T>, b: seq<T>)
    requires a != [] && IsSubsequence(a, b)
    ensures IsSubsequence(a[1..], b)
  {
    if b != [] {
      if a[0] == b[0] {
        if a[1..] != [] {
          SubsequenceTail(a[1..], b[1..]);
        }
        SubsequenceDropHead(a[1..], b);
      } else {
        SubsequenceTail(a, b[1..]);
        SubsequenceDropHead(a[1..], b);
      }
    }
  }

  /** Python's `s[:k]`: a negative `k` counts from the end. */
  function PyTake<T>(s: seq<T>, k: int): (r: seq<T>)
    ensures 0 <= k ==> |r| == (if k < |s| then k else |s|)
    ensures k < 0 ==> |r| == (if |s| + k < 0 then 0 else |s| + k)
    ensures r == s[..|r|]
  {
    if k >= 0 then (if k < |s| then s[..k] else s)
    else (if |s| + k < 0 then [] else s[..|s| + k])
  }

  /** Python's `s[k:]`: a negative `k` counts from the end. */
  function PyDrop<T>(s: seq<T>, k: int): (r: seq<T>)
    ensures 0 <= k ==> |r| == (if k < |s| then |s| - k else 0)
    ensures k < 0 ==> |r| == (if |s| + k < 0 then |s| else -k)
    ensures r == s[|s| - |r|..]
  {
    if k >= 0 then (if k < |s| then s[k..] else [])
    else (if |s| + k < 0 then s else s[|s| + k..])
  }

  /** Taking and dropping at the same index split the sequence in two. */
  lemma TakeDropSplit<T>(s: seq<T>, k: int)
    ensures PyTake(s, k) + PyDrop(s, k) == s
  {
  }

  function Sum(xs: seq<nat>): nat
  {
    if xs == [] then 0 else xs[0] + Sum(xs[1..])
  }

  /** Growing any summand never shrinks the sum. */
  lemma {:induction false} SumMonotone(xs: seq<nat>, ys: seq<nat>)
    requires |xs| == |ys|
    requires forall i :: 0 <= i < |xs| ==> xs[i] <= ys[i]
    ensures Sum(xs) <= Sum(ys)
  {
    if xs != [] {
      SumMonotone(xs[1..], ys[1..]);
    }
  }

  /** The sum is zero exactly when every summand is. */
  lemma {:induction false} SumZero(xs: seq<nat>)
    ensures Sum(xs) == 0 <==> forall i :: 0 <= i < |xs| ==> xs[i] == 0
  {
    if xs != [] {
      SumZero(xs[1..]);
      if Sum(xs) == 0 {
        assert forall i :: 1 <= i < |xs| ==> xs[i] == xs[1..][i - 1];
      } else if xs[0] == 0 {
        var j :| 0 <= j < |xs[1..]| && xs[1..][j] != 0;
        assert xs[j + 1] != 0;
      }
    }
  }

  predicate NoDuplicates<T(==)>(s: seq<T>)
  {
    forall i, j :: 0 <= i < j < |s| ==> s[i] != s[j]
  }

  /** Distinctness is a property of the multiset of elements alone. */
  lemma DistinctByMultiset<T>(s: seq<T>)
    ensures NoDuplicates(s) <==> forall x :: multiset(s)[x] <= 1
  {
    if NoDuplicates(s) {
      DistinctCounts(s);
    } else {
      var i, j :| 0 <= i < j < |s| && s[i] == s[j];
      DuplicateCount(s, i, j);
    }
  }

  /** In a duplicate-free sequence every element occurs once. */
  lemma {:induction false} DistinctCounts<T>(s: seq<T>)
    requires NoDuplicates(s)
    ensures forall x :: multiset(s)[x] <= 1
  {
    if s != [] {
      assert NoDuplicates(s[1..]) by {
        forall i, j | 0 <= i < j < |s[1..]|
          ensures s[1..][i] != s[1..][j]
        {
          assert s[1..][i] == s[i + 1] && s[1..][j] == s[j + 1];
        }
      }
      DistinctCounts(s[1..]);
      assert s == [s[0]] + s[1..];
      assert s[0] !in s[1..];
    }
  }

  /** An element at two positions occurs at least twice. */
  lemma DuplicateCount<T>(s: seq<T>, i: int, j: int)
    requires 0 <= i < j < |s| && s[i] == s[j]
    ensures multiset(s)[s[i]] >= 2
  {
    assert s == s[..j] + s[j..];
    assert s[i] in multiset(s[..j]);
    assert s[j] in multiset(s[j..]);
  }

  /** Rearranging a duplicate-free sequence keeps it duplicate-free. */
  lemma PermutationDistinct<T>(s: seq<T>, r: seq<T>)
    requires multiset(r) == multiset(s)
    requires NoDuplicates(s)
    ensures NoDuplicates(r)
  {
    DistinctByMultiset(s);
    DistinctByMultiset(r);
  }

  /** Filtering keeps a sequence duplicate-free. */
  lemma {:induction false} FilterDistinct<T>(s: seq<T>, p: T -> bool)
    requires NoDuplicates(s)
    ensures NoDuplicates(Filter(s, p))
  {
    if s != [] {
      assert NoDuplicates(s[1..]) by {
        forall i, j | 0 <= i < j < |s[1..]|
          ensures s[1..][i] != s[1..][j]
        {
          assert s[1..][i] == s[i + 1] && s[1..][j] == s[j + 1];
        }
      }
      FilterDistinct(s[1..], p);
      assert s[0] !in s[1..];
    }
  }

  /** The elements of `s` in order of first occurrence, each once:
      `list(dict.fromkeys(s))`. */
  function Dedup<T(==,!new)>(s: seq<T>): (r: seq<T>)
    ensures NoDuplicates(r)
    ensures forall x :: x in r <==> x in s
  {
    if s == [] then []
    else
      var init := Dedup(s[..|s| - 1]);
      assert s == s[..|s| - 1] + [s[|s| - 1]];
      if s[|s| - 1] in init then init else init + [s[|s| - 1]]
  }

  /** A duplicate-free sequence has as many elements as its set. */
  lemma {:induction false} DistinctCard<T>(s: seq<T>)
    requires NoDuplicates(s)
    ensures |set x | x in s| == |s|
  {
    if s != [] {
      var init := s[..|s| - 1];
      assert NoDuplicates(init) by {
        forall i, j | 0 <= i < j < |init|
          ensures init[i] != init[j]
        {
          assert init[i] == s[i] && init[j] == s[j];
        }
      }
      DistinctCard(init);
      assert s == init + [s[|s| - 1]];
      assert (set x | x in s) == (set x | x in init) + {s[|s| - 1]};
      assert s[|s| - 1] !in init;
    }
  }

  lemma {:induction false} SumAppend(xs: seq<nat>, x: nat)
    ensures Sum(xs + [x]) == Sum(xs) + x
  {
    if xs == [] {
      assert [x][1..] == [];
    } else {
      assert (xs + [x])[1..] == xs[1..] + [x];
      SumAppend(xs[1..], x);
    }
  }

  /** The first `k` elements, none for `k <= 0`, all when `k` exceeds the
      length. Unlike `PyTake`, a negative `k` takes nothing rather than
      counting from the end. */
  function TakeUpTo<T>(s: seq<T>, k: int): (r: seq<T>)
    ensures |r| == if k <= 0 then 0 else if k < |s| then k else |s|
    ensures r == s[..|r|]
  {
    if k <= 0 then [] else if k < |s| then s[..k] else s
  }

  /** Taking `k > 0` elements takes the first and `k - 1` of the rest. */
  lemma TakeUpToCons<T>(s: seq<T>, k: int)
    requires s != [] && k > 0
    ensures TakeUpTo(s, k) == [s[0]] + TakeUpTo(s[1..], k - 1)
  {
    var r := TakeUpTo(s[1..], k - 1);
    assert r == s[1..][..|r|];
    assert TakeUpTo(s, k) == s[..|r| + 1];
  }

  /** `f` applied to every element, in order. */
  function Map<T, U>(s: seq<T>, f: T -> U): (r: seq<U>)
    ensures |r| == |s|
    ensures forall i :: 0 <= i < |s| ==> r[i] == f(s[i])
  {
    seq(|s|, i requires 0 <= i < |s| => f(s[i]))
  }

  /** One more element adds its measure to the total. */
  lemma MapStep<T>(s: seq<T>, i: int, g: T -> nat)
    requires 0 <= i < |s|
    ensures Sum(Map(s[..i + 1], g)) == Sum(Map(s[..i], g)) + g(s[i])
  {
    assert Map(s[..i + 1], g) == Map(s[..i], g) + [g(s[i])];
    SumAppend(Map(s[..i], g), g(s[i]));
  }

  /** One more element is kept by the filter exactly when it passes. */
  lemma FilterStep<T>(s: seq<T>, i: int, p: T -> bool)
    requires 0 <= i < |s|
    ensures |Filter(s[..i + 1], p)| == |Filter(s[..i], p)| + if p(s[i]) then 1 else 0
  {
    FilterAppend(s[..i], [s[i]], p);
    assert s[..i + 1] == s[..i] + [s[i]];
  }

  /** The values of `f` on the elements where it has one, in order. */
  function Somes<T, U>(s: seq<T>, f: T -> Option<U>): (r: seq<U>)
    ensures (forall k :: 0 <= k < |s| ==> f(s[k]).Some?) ==>
              |r| == |s| && forall k :: 0 <= k < |s| ==> r[k] == f(s[k]).value
  {
    if s == [] then []
    else
      var head := if f(s[0]).Some? then [f(s[0]).value] else [];
      var rest := Somes(s[1..], f);
      assert forall k :: 1 <= k < |s| ==> s[1..][k - 1] == s[k];
      head + rest
  }

  /** A filter that drops nothing kept everything. */
  lemma {:induction false} FilterKeepsAll<T>(s: seq<T>, p: T -> bool)
    requires |Filter(s, p)| == |s|
    ensures forall i :: 0 <= i < |s| ==> p(s[i])
  {
    if s != [] {
      assert p(s[0]);
      FilterKeepsAll(s[1..], p);
      assert forall i :: 1 <= i < |s| ==> s[i] == s[1..][i - 1];
    }
  }

  /** Filtering by `p` and then by `q` is filtering by their conjunction. */
  lemma {:induction false} FilterFilter<T>(s: seq<T>, p: T -> bool, q: T -> bool, pq: T -> bool)
    requires forall x :: pq(x) == (p(x) && q(x))
    ensures Filter(Filter(s, p), q) == Filter(s, pq)
  {
    if s != [] {
      FilterFilter(s[1..], p, q, pq);
    }
  }

  /** Filters by predicates that agree everywhere are equal. */
  lemma {:induction false} FilterSame<T>(s: seq<T>, p: T -> bool, q: T -> bool)
    requires forall x :: p(x) == q(x)
    ensures Filter(s, p) == Filter(s, q)
  {
    if s != [] {
      FilterSame(s[1..], p, q);
    }
  }

  /** A prefix holds no element more often than the whole. */
  lemma PrefixMultiset<T>(s: seq<T>, k: nat)
    requires k <= |s|
    ensures multiset(s[..k]) <= multiset(s)
  {
    assert s == s[..k] + s[k..];
  }
}

=== FILE: stock_analyzer.dfy ===
/** `stock_analyzer`: analysing one stock from its three data-source
    dictionaries, analysing a list of symbols, analysing the first members
    of an industry or concept board, and the board summary (how many
    stocks carry a score, the average score and the best five).

    The data source's lookups are parameters; each turns its own failures
    into `None`. */
module StockAnalyzer {
  import opened Wrappers
  import opened Seqs
  import opened Values
  import opened DataProcessor

  /** The data source for one symbol: basic information, quote, valuation,
      and the quote cleaning the analysis stores. */
  datatype Source = Source(
    basic: Value -> Option<Record>,
    quote: Value -> Option<Record>,
    valuation: Value -> Option<Record>,
    clean: Record -> Record)

  /** A dictionary the source returned that Python treats as true. */
  predicate Given(d: Option<Record>)
  {
    d.Some? && d.value != map[]
  }

  /** What `analyze_stock` reports. */
  datatype Analysis = Analysis(
    symbol: Value,
    basicInfo: Option<Record>,
    quoteData: Option<Record>,
    valuationData: Option<Record>,
    investment: Option<InvestmentScore>,
    risk: Option<RiskScore>,
    error: Option<string>)

  /** The record the scores are computed from. */
  function Integrated(src: Source, symbol: Value): Record
  {
    Integrate(src.basic(symbol), src.quote(symbol), src.valuation(symbol))
  }

  /** `analyze_stock`: the dictionaries the source returns are stored when
      true; the scores are computed only from a non-empty integrated
      record, and a score that raises leaves the error and the fields set
      before it. */
  function AnalyzeStock(src: Source, symbol: Value): (r: Analysis)
    ensures r.symbol == symbol
    ensures r.basicInfo == (if Given(src.basic(symbol)) then src.basic(symbol) else None)
    ensures r.valuationData == (if Given(src.valuation(symbol)) then src.valuation(symbol) else None)
    ensures r.quoteData.Some? <==> Given(src.quote(symbol))
    ensures Integrated(src, symbol) == map[] ==> r.investment.None? && r.risk.None? && r.error.None?
    ensures r.investment.Some? ==> Integrated(src, symbol) != map[]
                                   && InvestmentScoreOf(Integrated(src, symbol)) == Success(r.investment.value)
    ensures r.risk.Some? ==> r.investment.Some? && RiskScoreOf(Integrated(src, symbol)) == Success(r.risk.value)
    ensures r.error.None? && Integrated(src, symbol) != map[] ==> r.investment.Some? && r.risk.Some?
    ensures r.error.Some? <==> Integrated(src, symbol) != map[]
                               && (InvestmentScoreOf(Integrated(src, symbol)).Failure?
                                   || RiskScoreOf(Integrated(src, symbol)).Failure?)
  {
    var basic := src.basic(symbol);
    var quote := src.quote(symbol);
    var valuation := src.valuation(symbol);
    var shownBasic := if Given(basic) then basic else None;
    var shownQuote := if Given(quote) then Some(src.clean(quote.value)) else None;
    var shownValuation := if Given(valuation) then valuation else None;
    var data := Integrate(basic, quote, valuation);
    if data == map[] then
      Analysis(symbol, shownBasic, shownQuote, shownValuation, None, None, None)
    else
      match InvestmentScoreOf(data)
      case Failure(e) => Analysis(symbol, shownBasic, shownQuote, shownValuation, None, None, Some(e))
      case Success(investment) =>
        match RiskScoreOf(data)
        case Failure(e) => Analysis(symbol, shownBasic, shownQuote, shownValuation, Some(investment), None, Some(e))
        case Success(risk) => Analysis(symbol, shownBasic, shownQuote, shownValuation, Some(investment), Some(risk), None)
  }

  /** The integrated record is empty exactly when the source returned
      nothing true, so the scores are computed whenever it returned
      anything. */
  lemma ScoresNeedData(src: Source, symbol: Value)
    ensures Integrated(src, symbol) == map[] <==>
              !Given(src.basic(symbol)) && !Given(src.quote(symbol)) && !Given(src.valuation(symbol))
  {
    var data := Integrated(src, symbol);
    if Given(src.basic(symbol)) {
      var k :| k in AsDict(src.basic(symbol));
      assert k in data.Keys;
    } else if Given(src.quote(symbol)) {
      var k :| k in AsDict(src.quote(symbol));
      assert k in data.Keys;
    } else if Given(src.valuation(symbol)) {
      var k :| k in AsDict(src.valuation(symbol));
      assert k in data.Keys;
    } else {
      assert data.Keys == {};
    }
  }

  /** `batch_analyze_stocks`: one analysis per symbol, in order. */
  method BatchAnalyze(src: Source, symbols: seq<Value>) returns (results: seq<Analysis>)
    ensures |results| == |symbols|
    ensures forall i :: 0 <= i < |symbols| ==> results[i] == AnalyzeStock(src, symbols[i])
  {
    results := [];
    var i := 0;
    while i < |symbols|
      invariant 0 <= i <= |symbols|
      invariant |results| == i
      invariant forall k :: 0 <= k < i ==> results[k] == AnalyzeStock(src, symbols[k])
    {
      results := results + [AnalyzeStock(src, symbols[i])];
      i := i + 1;
    }
  }

  // ---------------------------------------------------------------- board summary

  /** A best-five entry of the summary. */
  datatype HighQuality = HighQuality(symbol: Value, name: Value, score: int, rating: Rating)

  datatype Summary = Summary(total: nat, valid: nat, average: real, high: seq<HighQuality>)

  /** The analysis carries an investment score. */
  function Scored(): Analysis -> bool
  {
    (r: Analysis) => r.investment.Some?
  }

  /** The analysis scores at least 60. */
  function HighScore(): Analysis -> bool
  {
    (r: Analysis) => r.investment.Some? && r.investment.value.total >= 60
  }

  function Score(r: Analysis): int
  {
    if r.investment.Some? then r.investment.value.total else 0
  }

  function RatingAt(r: Analysis): Rating
  {
    if r.investment.Some? then r.investment.value.rating else Poor
  }

  function Scores(rs: seq<Analysis>): (r: seq<int>)
    ensures |r| == |rs| && forall i :: 0 <= i < |rs| ==> r[i] == Score(rs[i])
  {
    if rs == [] then [] else [Score(rs[0])] + Scores(rs[1..])
  }

  function SumInt(xs: seq<int>): int
  {
    if xs == [] then 0 else xs[0] + SumInt(xs[1..])
  }

  function MinOf(xs: seq<int>): (m: int)
    requires xs != []
    ensures m in xs && forall i :: 0 <= i < |xs| ==> m <= xs[i]
  {
    if |xs| == 1 then xs[0]
    else
      var rest := MinOf(xs[1..]);
      if xs[0] <= rest then xs[0] else rest
  }

  function MaxOf(xs: seq<int>): (m: int)
    requires xs != []
    ensures m in xs && forall i :: 0 <= i < |xs| ==> xs[i] <= m
  {
    if |xs| == 1 then xs[0]
    else
      var rest := MaxOf(xs[1..]);
      if xs[0] >= rest then xs[0] else rest
  }

  /** The sum of a list lies between its length times its least and its
      greatest element. */
  lemma {:induction false} SumBetween(xs: seq<int>, lo: int, hi: int)
    requires forall i :: 0 <= i < |xs| ==> lo <= xs[i] <= hi
    ensures |xs| * lo <= SumInt(xs) <= |xs| * hi
  {
    if xs != [] {
      SumBetween(xs[1..], lo, hi);
    }
  }

  /** The mean of a non-empty list lies between its least and greatest
      element. */
  lemma MeanBetween(xs: seq<int>)
    requires xs != []
    ensures MinOf(xs) as real <= SumInt(xs) as real / |xs| as real <= MaxOf(xs) as real
  {
    SumBetween(xs, MinOf(xs), MaxOf(xs));
    MeanOfSum(SumInt(xs), |xs|, MinOf(xs), MaxOf(xs));
  }

  lemma MeanOfSum(sum: int, n: int, lo: int, hi: int)
    requires n > 0 && n * lo <= sum <= n * hi
    ensures lo as real <= sum as real / n as real <= hi as real
  {
    CastProduct(n, lo);
    CastProduct(n, hi);
    DivBetween(sum as real, n as real, lo as real, hi as real);
  }

  lemma CastProduct(a: int, b: int)
    ensures (a * b) as real == (a as real) * (b as real)
  {
  }

  /** A quotient by a positive number lies between bounds whose multiples
      enclose the dividend. */
  lemma DivBetween(s: real, n: real, lo: real, hi: real)
    requires n > 0.0 && n * lo <= s <= n * hi
    ensures lo <= s / n <= hi
  {
    assert (s / n) * n == s;
  }

  /** The best-five entries; `r.get('basic_info', {})` is `None` for an
      analysis without basic information, and `.get` on it raises. */
  function HighEntries(top: seq<Analysis>): (r: Result<seq<HighQuality>>)
    ensures r.Success? <==> forall i :: 0 <= i < |top| ==> top[i].basicInfo.Some?
    ensures r.Success? ==>
              && |r.value| == |top|
              && forall i :: 0 <= i < |top| ==>
                   r.value[i] == HighQuality(top[i].symbol, Get(top[i].basicInfo.value, "name", Text("")),
                                             Score(top[i]), RatingAt(top[i]))
  {
    if top == [] then Success([])
    else if top[0].basicInfo.None? then Failure("AttributeError: 'NoneType' object has no attribute 'get'")
    else
      var rest := HighEntries(top[1..]);
      if rest.Failure? then rest
      else
        var entry := HighQuality(top[0].symbol, Get(top[0].basicInfo.value, "name", Text("")), Score(top[0]), RatingAt(top[0]));
        Success([entry] + rest.value)
  }

  /** The valid analyses scoring at least 60, in order. */
  function Best(results: seq<Analysis>): seq<Analysis>
  {
    Filter(Filter(results, Scored()), HighScore())
  }

  /** The first five of them. */
  function Top(results: seq<Analysis>): (r: seq<Analysis>)
    ensures |r| <= 5 && |r| == (if |Best(results)| < 5 then |Best(results)| else 5)
    ensures forall i :: 0 <= i < |r| ==> r[i] == Best(results)[i] && HighScore()(r[i])
  {
    PyTake(Best(results), 5)
  }

  /** The best-five entries describe the top analyses, all scoring at
      least 60, and fail exactly when one of them lacks basic information. */
  lemma HighOfTop(results: seq<Analysis>)
    ensures var top := Top(results);
            var h := HighEntries(top);
            && (h.Success? ==>
                  && |h.value| == |top|
                  && forall i :: 0 <= i < |h.value| ==>
                       h.value[i].symbol == top[i].symbol && h.value[i].score == Score(top[i]) >= 60)
            && (h.Failure? <==> exists i :: 0 <= i < |top| && top[i].basicInfo.None?)
  {
    var top := Top(results);
    assert forall i :: 0 <= i < |top| ==> HighScore()(top[i]);
  }

  /** `_generate_industry_summary`, with the unrounded average. */
  function IndustrySummary(results: seq<Analysis>): (r: Result<Summary>)
    ensures r.Success? ==>
              && r.value.total == |results|
              && r.value.valid == |Filter(results, Scored())| <= r.value.total
              && (r.value.valid == 0 ==> r.value.average == 0.0 && r.value.high == [])
    ensures r.Success? && r.value.valid > 0 ==>
              var scores := Scores(Filter(results, Scored()));
              MinOf(scores) as real <= r.value.average <= MaxOf(scores) as real
    ensures var top := Top(results);
            r.Success? ==>
              && |r.value.high| == |top|
              && forall i :: 0 <= i < |r.value.high| ==>
                   r.value.high[i].symbol == top[i].symbol && r.value.high[i].score == Score(top[i])
                   && r.value.high[i].score >= 60
    ensures var top := Top(results);
            r.Failure? <==> exists i :: 0 <= i < |top| && top[i].basicInfo.None?
    ensures r.Success? ==> HighEntries(Top(results)) == Success(r.value.high)
  {
    var valid := Filter(results, Scored());
    if valid == [] then
      assert Top(results) == [];
      Success(Summary(|results|, 0, 0.0, []))
    else
      var scores := Scores(valid);
      var average := SumInt(scores) as real / |valid| as real;
      MeanBetween(scores);
      HighOfTop(results);
      match HighEntries(Top(results))
      case Failure(e) => Failure(e)
      case Success(high) => Success(Summary(|results|, |valid|, average, high))
  }

  // ---------------------------------------------------------------- boards

  /** What `analyze_industry_stocks` and `analyze_concept_stocks` report. */
  datatype BoardAnalysis = BoardAnalysis(stocks: seq<Analysis>, summary: Option<Summary>, error: Option<string>)

  /** `[stock['代码'] for stock in members]`, raising `KeyError` at the
      first member without a code. */
  function MemberCodes(members: seq<Record>): (r: Result<seq<Value>>)
    ensures r.Success? <==> forall i :: 0 <= i < |members| ==> "代码" in members[i]
    ensures r.Success? ==> |r.value| == |members| && forall i :: 0 <= i < |members| ==> r.value[i] == members[i]["代码"]
  {
    if members == [] then Success([])
    else if "代码" !in members[0] then Failure("KeyError: '代码'")
    else
      var rest := MemberCodes(members[1..]);
      if rest.Failure? then rest else Success([members[0]["代码"]] + rest.value)
  }

  /** The common body of the two board analyses: the first `limit`
      members are analysed in order and summarised. */
  method AnalyzeBoard(src: Source, members: seq<Record>, limit: int, notFound: string) returns (r: BoardAnalysis)
    ensures members == [] ==> r == BoardAnalysis([], None, Some(notFound))
    ensures r.error.None? <==>
              && members != []
              && MemberCodes(PyTake(members, limit)).Success?
              && r.summary.Some?
    ensures r.stocks != [] || r.error.None? ==>
              && MemberCodes(PyTake(members, limit)).Success?
              && |r.stocks| == |PyTake(members, limit)|
              && forall i :: 0 <= i < |r.stocks| ==> "代码" in members[i] && r.stocks[i] == AnalyzeStock(src, members[i]["代码"])
    ensures limit >= 0 ==> |r.stocks| <= limit
    ensures r.summary.Some? ==> IndustrySummary(r.stocks) == Success(r.summary.value)
    ensures members != [] && MemberCodes(PyTake(members, limit)).Success? ==>
              && |r.stocks| == |PyTake(members, limit)|
              && (r.error.None? <==> IndustrySummary(r.stocks).Success?)
              && (IndustrySummary(r.stocks).Failure? ==> r.error == Some(IndustrySummary(r.stocks).error))
  {
    if members == [] {
      return BoardAnalysis([], None, Some(notFound));
    }
    var limited := PyTake(members, limit);
    var codes := MemberCodes(limited);
    if codes.Failure? {
      return BoardAnalysis([], None, Some(codes.error));
    }
    var stocks := BatchAnalyze(src, codes.value);
    assert forall i :: 0 <= i < |stocks| ==> "代码" in members[i] && stocks[i] == AnalyzeStock(src, members[i]["代码"]) by {
      assert forall i :: 0 <= i < |limited| ==> limited[i] == members[i];
    }
    r := Summarised(stocks);
  }

  /** The analyses with their summary, or with the summary's error. */
  function Summarised(stocks: seq<Analysis>): (r: BoardAnalysis)
    ensures r.stocks == stocks
    ensures r.error.None? <==> r.summary.Some?
    ensures r.error.None? <==> IndustrySummary(stocks).Success?
    ensures r.summary.Some? ==> IndustrySummary(stocks) == Success(r.summary.value)
    ensures IndustrySummary(stocks).Failure? ==> r.error == Some(IndustrySummary(stocks).error)
  {
    match IndustrySummary(stocks)
    case Failure(e) => BoardAnalysis(stocks, None, Some(e))
    case Success(summary) => BoardAnalysis(stocks, Some(summary), None)
  }

  function IndustryNotFound(name: string): string
  {
    "未找到行业：" + name
  }

  function ConceptNotFound(name: string): string
  {
    "未找到概念：" + name
  }

  /** `analyze_industry_stocks`. */
  method AnalyzeIndustryStocks(src: Source, name: string, members: seq<Record>, limit: int) returns (r: BoardAnalysis)
    ensures members == [] ==> r == BoardAnalysis([], None, Some(IndustryNotFound(name)))
    ensures r.error.None? <==>
              && members != []
              && MemberCodes(PyTake(members, limit)).Success?
              && r.summary.Some?
    ensures r.stocks != [] || r.error.None? ==>
              && MemberCodes(PyTake(members, limit)).Success?
              && |r.stocks| == |PyTake(members, limit)|
              && forall i :: 0 <= i < |r.stocks| ==> "代码" in members[i] && r.stocks[i] == AnalyzeStock(src, members[i]["代码"])
    ensures limit >= 0 ==> |r.stocks| <= limit
    ensures r.summary.Some? ==> IndustrySummary(r.stocks) == Success(r.summary.value)
    ensures members != [] && MemberCodes(PyTake(members, limit)).Success? ==>
              && |r.stocks| == |PyTake(members, limit)|
              && (r.error.None? <==> IndustrySummary(r.stocks).Success?)
              && (IndustrySummary(r.stocks).Failure? ==> r.error == Some(IndustrySummary(r.stocks).error))
    ensures r.error.None? ==> forall i :: 0 <= i < |r.stocks| ==> r.stocks[i].symbol == members[i]["代码"]
  {
    r := AnalyzeBoard(src, members, limit, IndustryNotFound(name));
  }

  /** `analyze_concept_stocks`. */
  method AnalyzeConceptStocks(src: Source, name: string, members: seq<Record>, limit: int) returns (r: BoardAnalysis)
    ensures members == [] ==> r == BoardAnalysis([], None, Some(ConceptNotFound(name)))
    ensures r.error.None? <==>
              && members != []
              && MemberCodes(PyTake(members, limit)).Success?
              && r.summary.Some?
    ensures r.stocks != [] || r.error.None? ==>
              && MemberCodes(PyTake(members, limit)).Success?
              && |r.stocks| == |PyTake(members, limit)|
              && forall i :: 0 <= i < |r.stocks| ==> "代码" in members[i] && r.stocks[i] == AnalyzeStock(src, members[i]["代码"])
    ensures limit >= 0 ==> |r.stocks| <= limit
    ensures r.summary.Some? ==> IndustrySummary(r.stocks) == Success(r.summary.value)
    ensures members != [] && MemberCodes(PyTake(members, limit)).Success? ==>
              && |r.stocks| == |PyTake(members, limit)|
              && (r.error.None? <==> IndustrySummary(r.stocks).Success?)
              && (IndustrySummary(r.stocks).Failure? ==> r.error == Some(IndustrySummary(r.stocks).error))
    ensures r.error.None? ==> forall i :: 0 <= i < |r.stocks| ==> r.stocks[i].symbol == members[i]["代码"]
  {
    r := AnalyzeBoard(src, members, limit, ConceptNotFound(name));
  }

  // ---------------------------------------------------------------- the summary cannot fail on real sources

  /** The quote and valuation dictionaries never carry `industry`, as the
      data source's `get_stock_quote` and `get_stock_valuation_data` build
      them. */
  ghost predicate IndustryOnlyFromBasic(src: Source)
  {
    forall s :: "industry" !in AsDict(src.quote(s)) && "industry" !in AsDict(src.valuation(s))
  }

  /** A score of 60 needs the industry bonus, and with such a source the
      industry comes from the basic information, which is then stored. */
  lemma HighScoreHasBasicInfo(src: Source, symbol: Value)
    requires IndustryOnlyFromBasic(src)
    requires HighScore()(AnalyzeStock(src, symbol))
    ensures AnalyzeStock(src, symbol).basicInfo.Some?
  {
    var data := Integrated(src, symbol);
    InvestmentScoreRange(data);
    assert "industry" in data;
    assert "industry" !in AsDict(src.quote(symbol)) && "industry" !in AsDict(src.valuation(symbol));
    assert "industry" in AsDict(src.basic(symbol));
  }

  /** With such a source the summary of analysed symbols is always
      produced. */
  lemma SummaryDefined(src: Source, symbols: seq<Value>, results: seq<Analysis>)
    requires IndustryOnlyFromBasic(src)
    requires |results| == |symbols| && forall i :: 0 <= i < |symbols| ==> results[i] == AnalyzeStock(src, symbols[i])
    ensures IndustrySummary(results).Success?
  {
    var best := Best(results);
    var top := Top(results);
    forall i | 0 <= i < |top|
      ensures top[i].basicInfo.Some?
    {
      assert top[i] == best[i];
      assert best[i] in Filter(results, Scored());
      var j :| 0 <= j < |results| && results[j] == best[i];
      HighScoreHasBasicInfo(src, symbols[j]);
    }
  }
}

=== FILE: stock_service.dfy ===
/** `StockService`: cache-aside reads over the two tables. Each call looks
    in the table first; on a miss it asks the market-data source, writes
    what it got back to the table, and returns the source's answer.

    The market-data source is a function parameter; `sourceCalls` counts
    how often a call consults it. `readOk` and `saveOk` say whether the
    table read and the table write complete (a failed read is a miss, a
    failed write is logged and ignored). Timestamps and the "last five
    days" window are parameters. */
module StockService {
  import opened Wrappers
  import opened Seqs
  import opened Text
  import BasicInfoStore
  import DailyTradeStore
  import opened MarketData

  /** Where an answer came from: the `source` field of the result. */
  datatype Origin = Database | Api

  // ---------------------------------------------------------------- basic information

  datatype BasicView = BasicView(info: BasicInfoStore.BasicInfo, origin: Origin)

  datatype BasicAnswer = BasicAnswer(view: Option<BasicView>, store: BasicInfoStore.Table, sourceCalls: nat)

  /** `get_stock_basic_info`. The source's record carries its own `code`,
      which is the key the write-back uses. */
  function GetStockBasicInfo(store: BasicInfoStore.Table, symbol: string,
                             source: string -> Option<BasicInfoStore.BasicInfo>,
                             now: int, readOk: bool, saveOk: bool): (r: BasicAnswer)
    ensures r.sourceCalls <= 1
    ensures r.sourceCalls == 0 <==> BasicInfoStore.GetBySymbol(store, symbol, readOk).Some?
    ensures r.sourceCalls == 0 ==>
              r.store == store && r.view.Some? && r.view.value.origin == Database
              && r.view.value.info.symbol == symbol
              && BasicInfoStore.Find(store, symbol).value.info == r.view.value.info
    ensures r.sourceCalls == 1 ==>
              && (source(symbol).None? ==> r.view.None? && r.store == store)
              && (source(symbol).Some? ==> r.view == Some(BasicView(source(symbol).value, Api)))
              && (source(symbol).Some? && !saveOk ==> r.store == store)
    ensures BasicInfoStore.Valid(store) ==> BasicInfoStore.Valid(r.store)
  {
    var hit := BasicInfoStore.GetBySymbol(store, symbol, readOk);
    if hit.Some? then
      BasicAnswer(Some(BasicView(hit.value.info, Database)), store, 0)
    else if source(symbol).Some? then
      var info := source(symbol).value;
      BasicAnswer(Some(BasicView(info, Api)), BasicInfoStore.Save(store, info, now, now, saveOk).0, 1)
    else
      BasicAnswer(None, store, 1)
  }

  /** Write-back: once a source answer has been saved, the next call for the
      same symbol is served by the table, with the same fields and without
      consulting the source. */
  lemma BasicWriteBack(store: BasicInfoStore.Table, symbol: string,
                       source: string -> Option<BasicInfoStore.BasicInfo>, now: int, later: int)
    requires BasicInfoStore.Valid(store)
    requires source(symbol).Some? && source(symbol).value.symbol == symbol
    ensures var first := GetStockBasicInfo(store, symbol, source, now, true, true);
            var second := GetStockBasicInfo(first.store, symbol, source, later, true, true);
            && second.sourceCalls == 0
            && second.view == Some(BasicView(first.view.value.info, Database))
            && second.store == first.store
  {
    var first := GetStockBasicInfo(store, symbol, source, now, true, true);
    if first.sourceCalls == 1 {
      BasicInfoStore.UpsertThenFind(store, source(symbol).value, now, now);
    }
  }

  /** No negative caching: a symbol unknown to both the table and the source
      leaves the table as it was, so every later call asks the source again. */
  lemma BasicMissNotCached(store: BasicInfoStore.Table, symbol: string,
                           source: string -> Option<BasicInfoStore.BasicInfo>, now: int, later: int)
    requires BasicInfoStore.Find(store, symbol).None? && source(symbol).None?
    ensures var first := GetStockBasicInfo(store, symbol, source, now, true, true);
            var second := GetStockBasicInfo(first.store, symbol, source, later, true, true);
            && first.view.None? && first.store == store
            && second.view.None? && second.store == store && second.sourceCalls == 1
  {
  }

  // ---------------------------------------------------------------- daily trade

  /** The dictionary `get_stock_daily_trade` returns. */
  datatype TradeView = TradeView(
    symbol: string,
    tradeDate: int,
    open: Option<real>,
    high: Option<real>,
    low: Option<real>,
    close: Option<real>,
    volume: Option<int>,
    amount: Option<real>,
    changePct: Option<real>,
    turnoverRate: Option<real>,
    origin: Origin)

  /** `float(x) if x else None`: NULL and zero both become `None`. */
  function Truthful(x: Option<real>): (r: Option<real>)
    ensures r.Some? <==> x.Some? && x.value != 0.0
    ensures r.Some? ==> r == x
  {
    if x.Some? && x.value != 0.0 then x else None
  }

  function TruthfulInt(x: Option<int>): (r: Option<int>)
    ensures r.Some? <==> x.Some? && x.value != 0
    ensures r.Some? ==> r == x
  {
    if x.Some? && x.value != 0 then x else None
  }

  /** The view of a stored row. */
  function StoredView(bar: DailyTradeStore.Bar): (r: TradeView)
    ensures r.symbol == bar.symbol && r.tradeDate == bar.tradeDate && r.origin == Database
  {
    TradeView(bar.symbol, bar.tradeDate, Truthful(bar.open), Truthful(bar.high), Truthful(bar.low),
              Truthful(bar.close), TruthfulInt(bar.volume), Truthful(bar.amount),
              Truthful(bar.changePct), Truthful(bar.turnoverRate), Database)
  }

  /** The view of a source answer: every column as the source gave it. */
  function FetchedView(symbol: string, a: ApiRow): TradeView
  {
    TradeView(symbol, a.date, Some(a.open), Some(a.high), Some(a.low), Some(a.close),
              Some(a.volume), Some(a.amount), a.changePct, a.turnoverRate, Api)
  }

  /** The table's answer: the row for the date, or the newest row. */
  function StoredTrade(store: DailyTradeStore.Table, symbol: string, tradeDate: Option<int>,
                       readOk: bool): (r: Option<DailyTradeStore.TradeRow>)
    ensures r.Some? ==> r.value in store && r.value.bar.symbol == symbol
    ensures r.Some? && tradeDate.Some? ==> r.value.bar.tradeDate == tradeDate.value
    ensures r.Some? && tradeDate.None? ==>
              DailyTradeStore.GetLatestTradeDate(store, symbol, readOk) == Some(r.value.bar.tradeDate)
  {
    if tradeDate.Some? then DailyTradeStore.GetBySymbolAndDate(store, symbol, tradeDate.value, readOk)
    else
      var h := DailyTradeStore.GetHistoryBySymbol(store, symbol, None, None, 1, readOk);
      if h == [] then None
      else
        DailyTradeStore.LatestIsNewestHistory(store, symbol);
        Some(h[0])
  }

  /** The source row the call uses: the first one for the date asked for,
      or the last one of the recent window. */
  function PickRow(rows: seq<ApiRow>, tradeDate: Option<int>): (r: Option<ApiRow>)
    ensures r.Some? ==> r.value in rows
    ensures tradeDate.Some? ==> (r.Some? <==> exists i :: 0 <= i < |rows| && rows[i].date == tradeDate.value)
    ensures tradeDate.Some? && r.Some? ==> r.value.date == tradeDate.value
    ensures tradeDate.None? ==> (r.Some? <==> rows != []) && (r.Some? ==> r.value == rows[|rows| - 1])
  {
    if tradeDate.Some? then
      var same := Filter(rows, (a: ApiRow) => a.date == tradeDate.value);
      if same == [] then None else Some(same[0])
    else if rows == [] then None
    else Some(rows[|rows| - 1])
  }

  /** The source window: the date asked for, or the recent window. */
  function Window(tradeDate: Option<int>, recentStart: int, today: int): (int, int)
  {
    if tradeDate.Some? then (tradeDate.value, tradeDate.value) else (recentStart, today)
  }

  datatype TradeAnswer = TradeAnswer(view: Option<TradeView>, store: DailyTradeStore.Table, sourceCalls: nat)

  /** `get_stock_daily_trade`. `history(symbol, start, end)` is the source's
      daily history (empty on error); without a date the window is
      `recentStart`..`today`. */
  function GetStockDailyTrade(store: DailyTradeStore.Table, symbol: string, tradeDate: Option<int>,
                              history: (string, int, int) -> seq<ApiRow>,
                              recentStart: int, today: int, createdAt: int,
                              readOk: bool, saveOk: bool): (r: TradeAnswer)
    ensures r.sourceCalls <= 1
    ensures r.sourceCalls == 0 <==> StoredTrade(store, symbol, tradeDate, readOk).Some?
    ensures r.sourceCalls == 0 ==>
              r.store == store && r.view == Some(StoredView(StoredTrade(store, symbol, tradeDate, readOk).value.bar))
    ensures r.view.None? ==> r.store == store
    ensures r.view.Some? ==> r.view.value.symbol == symbol
    ensures r.view.Some? && tradeDate.Some? ==> r.view.value.tradeDate == tradeDate.value
    ensures tradeDate.Some? && r.sourceCalls == 1 ==>
              (r.view.None? <==> forall i :: 0 <= i < |history(symbol, tradeDate.value, tradeDate.value)| ==>
                                   history(symbol, tradeDate.value, tradeDate.value)[i].date != tradeDate.value)
    ensures r.sourceCalls == 1 ==>
              var w := Window(tradeDate, recentStart, today);
              var picked := PickRow(history(symbol, w.0, w.1), tradeDate);
              && (r.view.Some? <==> picked.Some?)
              && (picked.Some? ==>
                    && r.view == Some(FetchedView(symbol, picked.value))
                    && r.store == DailyTradeStore.Save(store, BarOf(symbol, picked.value), createdAt, saveOk).0)
    ensures DailyTradeStore.Valid(store) ==> DailyTradeStore.Valid(r.store)
  {
    var hit := StoredTrade(store, symbol, tradeDate, readOk);
    if hit.Some? then TradeAnswer(Some(StoredView(hit.value.bar)), store, 0)
    else
      var window := Window(tradeDate, recentStart, today);
      var picked := PickRow(history(symbol, window.0, window.1), tradeDate);
      if picked.None? then TradeAnswer(None, store, 1)
      else
        var saved := DailyTradeStore.Save(store, BarOf(symbol, picked.value), createdAt, saveOk).0;
        TradeAnswer(Some(FetchedView(symbol, picked.value)), saved, 1)
  }

  /** On a source answer, the row written to the table is the row returned,
      and a later call for the same date, or again for the latest day, is
      served by the table, showing the returned values with zeros turned
      into `None`. */
  lemma TradeWriteBack(store: DailyTradeStore.Table, symbol: string, tradeDate: Option<int>,
                       history: (string, int, int) -> seq<ApiRow>,
                       recentStart: int, today: int, createdAt: int, later: int)
    requires DailyTradeStore.Valid(store)
    ensures var first := GetStockDailyTrade(store, symbol, tradeDate, history, recentStart, today, createdAt, true, true);
            var second := GetStockDailyTrade(first.store, symbol, tradeDate, history, recentStart, today, later, true, true);
            first.sourceCalls == 1 && first.view.Some? ==>
              && DailyTradeStore.Find(first.store, symbol, first.view.value.tradeDate).Some?
              && StoredView(DailyTradeStore.Find(first.store, symbol, first.view.value.tradeDate).value.bar)
                   == AsStored(first.view.value)
              && second.sourceCalls == 0
              && second.view == Some(AsStored(first.view.value))
  {
    var first := GetStockDailyTrade(store, symbol, tradeDate, history, recentStart, today, createdAt, true, true);
    if first.sourceCalls == 1 && first.view.Some? {
      var w := Window(tradeDate, recentStart, today);
      var a := PickRow(history(symbol, w.0, w.1), tradeDate).value;
      var bar := BarOf(symbol, a);
      assert first.store == DailyTradeStore.Upsert(store, bar, createdAt);
      DailyTradeStore.UpsertThenFind(store, bar, createdAt, symbol, a.date);
      if tradeDate.None? {
        LatestAfterFirstSave(store, bar, createdAt);
      }
    }
  }

  /** When the table held no row of a symbol, the first row saved for it is
      the latest one read back. */
  lemma LatestAfterFirstSave(store: DailyTradeStore.Table, bar: DailyTradeStore.Bar, createdAt: int)
    requires StoredTrade(store, bar.symbol, None, true).None?
    ensures StoredTrade(DailyTradeStore.Upsert(store, bar, createdAt), bar.symbol, None, true)
              == Some(DailyTradeStore.TradeRow(bar, createdAt))
  {
    var symbol := bar.symbol;
    var u := DailyTradeStore.Upsert(store, bar, createdAt);
    var row := DailyTradeStore.TradeRow(bar, createdAt);
    assert DailyTradeStore.Matching(store, symbol, None, None) == [] by {
      DailyTradeStore.LatestIsNewestHistory(store, symbol);
    }
    assert forall i :: 0 <= i < |store| ==> store[i].bar.symbol != symbol by {
      forall i | 0 <= i < |store|
        ensures store[i].bar.symbol != symbol
      {
        assert store[i] !in DailyTradeStore.Matching(store, symbol, None, None);
      }
    }
    assert u == store + [row];
    assert row in DailyTradeStore.Matching(u, symbol, None, None);
    var h := DailyTradeStore.GetHistoryBySymbol(u, symbol, None, None, 1, true);
    assert |h| == 1;
    assert h[0] == row by {
      var j :| 0 <= j < |u| && u[j] == h[0];
      assert j == |store|;
    }
  }

  /** A source row saved as a bar reads back from the table as the source
      view does, with zeros turned into `None`. */
  lemma SavedBarReadsBack(symbol: string, a: ApiRow)
    ensures StoredView(BarOf(symbol, a)) == AsStored(FetchedView(symbol, a))
    ensures StoredView(BarOf(symbol, a)).symbol == symbol && StoredView(BarOf(symbol, a)).tradeDate == a.date
  {
  }

  /** What the table path shows for a view's values. */
  function AsStored(v: TradeView): TradeView
  {
    v.(open := Truthful(v.open), high := Truthful(v.high), low := Truthful(v.low),
       close := Truthful(v.close), volume := TruthfulInt(v.volume), amount := Truthful(v.amount),
       changePct := Truthful(v.changePct), turnoverRate := Truthful(v.turnoverRate), origin := Database)
  }

  /** A flat day read back from the table reports its change as `None`,
      though the source reported `0.0` for it. */
  lemma FlatDayLosesChange(store: DailyTradeStore.Table, symbol: string, d: int,
                           history: (string, int, int) -> seq<ApiRow>, createdAt: int)
    requires DailyTradeStore.Valid(store) && DailyTradeStore.Find(store, symbol, d).None?
    requires history(symbol, d, d) == [ApiRow(d, 10.0, 10.0, 10.0, 10.0, 100, 1000.0, Some(0.0), Some(1.0))]
    ensures var first := GetStockDailyTrade(store, symbol, Some(d), history, 0, 0, createdAt, true, true);
            var second := GetStockDailyTrade(first.store, symbol, Some(d), history, 0, 0, createdAt, true, true);
            first.view.value.changePct == Some(0.0) && second.view.value.changePct == None
  {
    var first := GetStockDailyTrade(store, symbol, Some(d), history, 0, 0, createdAt, true, true);
    assert history(symbol, d, d)[0].date == d;
    TradeWriteBack(store, symbol, Some(d), history, 0, 0, createdAt, createdAt);
  }

  // ---------------------------------------------------------------- history

  /** The three outcomes of `get_stock_history`. */
  datatype History = Stored(views: seq<TradeView>) | Fetched(rows: seq<ApiRow>) | NoHistory

  datatype HistoryAnswer = HistoryAnswer(history: History, store: DailyTradeStore.Table, sourceCalls: nat)

  /** The stored-row view without a price filter. */
  function StoredViews(rows: seq<DailyTradeStore.TradeRow>): (r: seq<TradeView>)
    ensures |r| == |rows| && forall i :: 0 <= i < |rows| ==> r[i] == StoredView(rows[i].bar)
  {
    seq(|rows|, i requires 0 <= i < |rows| => StoredView(rows[i].bar))
  }

  /** The batch `get_stock_history` writes: every column present. */
  function TradeInputs(symbol: string, rows: seq<ApiRow>): (r: seq<DailyTradeStore.TradeInput>)
    ensures |r| == |rows|
    ensures forall i :: 0 <= i < |rows| ==>
              DailyTradeStore.Complete(r[i]) && DailyTradeStore.ToBar(r[i]) == BarOf(symbol, rows[i])
  {
    seq(|rows|, i requires 0 <= i < |rows| =>
      DailyTradeStore.TradeInput(BarOf(symbol, rows[i]),
                                 DailyTradeStore.RequiredKeys + {"change_pct", "turnover_rate"}))
  }

  /** The number of rows the table query asks for. */
  const HistoryLimit := 1000

  /** `get_stock_history`. */
  function GetStockHistory(store: DailyTradeStore.Table, symbol: string, start: Option<int>, end: Option<int>,
                           source: (string, Option<int>, Option<int>) -> seq<ApiRow>,
                           createdAt: int, readOk: bool, saveOk: bool): (r: HistoryAnswer)
    ensures r.sourceCalls == 0 <==> r.history.Stored?
    ensures r.history.Stored? <==> DailyTradeStore.GetHistoryBySymbol(store, symbol, start, end, HistoryLimit, readOk) != []
    ensures r.history.Stored? ==>
              r.history.views == StoredViews(DailyTradeStore.GetHistoryBySymbol(store, symbol, start, end, HistoryLimit, readOk))
    ensures r.history.Stored? ==>
              && r.store == store && 0 < |r.history.views| <= HistoryLimit
              && (forall i :: 0 <= i < |r.history.views| ==>
                    r.history.views[i].symbol == symbol
                    && (start.Some? ==> start.value <= r.history.views[i].tradeDate)
                    && (end.Some? ==> r.history.views[i].tradeDate <= end.value))
              && (forall i, j :: 0 <= i < j < |r.history.views| ==>
                    r.history.views[i].tradeDate >= r.history.views[j].tradeDate)
    ensures r.sourceCalls == 1 ==>
              DailyTradeStore.GetHistoryBySymbol(store, symbol, start, end, HistoryLimit, readOk) == []
    ensures r.history.Fetched? ==> r.history.rows == source(symbol, start, end) != []
    ensures r.history.NoHistory? ==> r.store == store && source(symbol, start, end) == []
    ensures r.history.Fetched? && !saveOk ==> r.store == store
  {
    var stored := DailyTradeStore.GetHistoryBySymbol(store, symbol, start, end, HistoryLimit, readOk);
    if stored != [] then HistoryAnswer(Stored(StoredViews(stored)), store, 0)
    else
      var rows := source(symbol, start, end);
      if rows == [] then HistoryAnswer(NoHistory, store, 1)
      else
        var saved := DailyTradeStore.BatchSave(store, TradeInputs(symbol, rows), createdAt, saveOk).0;
        HistoryAnswer(Fetched(rows), saved, 1)
  }

  /** A fetched history is written back: each date the source returned is
      stored with the source's last row for that date. */
  lemma HistoryWriteBack(store: DailyTradeStore.Table, symbol: string, start: Option<int>, end: Option<int>,
                         source: (string, Option<int>, Option<int>) -> seq<ApiRow>, createdAt: int, i: int)
    requires DailyTradeStore.Valid(store)
    requires var rows := source(symbol, start, end);
             0 <= i < |rows| && forall k :: i < k < |rows| ==> rows[k].date != rows[i].date
    ensures var r := GetStockHistory(store, symbol, start, end, source, createdAt, true, true);
            var a := source(symbol, start, end)[i];
            r.history.Fetched? ==>
              DailyTradeStore.Find(r.store, symbol, a.date).Some?
              && DailyTradeStore.Find(r.store, symbol, a.date).value.bar == BarOf(symbol, a)
  {
    var r := GetStockHistory(store, symbol, start, end, source, createdAt, true, true);
    if r.history.Fetched? {
      var rows := source(symbol, start, end);
      var inputs := TradeInputs(symbol, rows);
      assert r.store == DailyTradeStore.BatchSave(store, inputs, createdAt, true).0;
      assert forall k :: 0 <= k < |rows| ==> inputs[k].fields == BarOf(symbol, rows[k]);
      DailyTradeStore.BatchLastWins(store, inputs, createdAt, i);
    }
  }

  // ---------------------------------------------------------------- sectors

  /** `[c.strip() for c in parts]`. */
  function StripAll(parts: seq<string>): (r: seq<string>)
    ensures |r| == |parts| && forall i :: 0 <= i < |parts| ==> r[i] == Strip(parts[i])
  {
    seq(|parts|, i requires 0 <= i < |parts| => Strip(parts[i]))
  }

  /** `[c.strip() for c in parts if c.strip()]`. */
  function CleanParts(parts: seq<string>): (r: seq<string>)
    ensures forall i :: 0 <= i < |r| ==> r[i] != "" && r[i] in StripAll(parts)
    ensures forall i :: 0 <= i < |parts| && Strip(parts[i]) != "" ==> Strip(parts[i]) in r
  {
    Filter(StripAll(parts), (x: string) => x != "")
  }

  /** The cleaned names need no further stripping. */
  lemma CleanPartsStripped(parts: seq<string>, x: string)
    requires x in CleanParts(parts)
    ensures Strip(x) == x
  {
    var i :| 0 <= i < |parts| && StripAll(parts)[i] == x;
    StripIdempotent(parts[i]);
  }

  function ConceptNames(concept: string): seq<string>
  {
    CleanParts(Split(concept, '、'))
  }

  /** The number of concepts whose membership is looked up. */
  const ConceptLimit := 5

  datatype ConceptCount = ConceptCount(name: string, stockCount: nat)

  /** A name with at least one member. */
  function HasMembers(members: string -> seq<string>): string -> bool
  {
    (n: string) => members(n) != []
  }

  /** `r` lists the names of `kept` in order, each with its member count. */
  predicate CountsOf(r: seq<ConceptCount>, kept: seq<string>, members: string -> seq<string>)
  {
    |r| == |kept| && forall i :: 0 <= i < |r| ==> r[i] == ConceptCount(kept[i], |members(kept[i])|)
  }

  lemma CountsOfCons(r: seq<ConceptCount>, kept: seq<string>, members: string -> seq<string>, name: string)
    requires CountsOf(r, kept, members)
    ensures CountsOf([ConceptCount(name, |members(name)|)] + r, [name] + kept, members)
  {
  }

  /** The concepts with members, in order, with their member counts. */
  function ConceptCounts(names: seq<string>, members: string -> seq<string>): (r: seq<ConceptCount>)
    ensures |r| <= |names|
    ensures CountsOf(r, Filter(names, HasMembers(members)), members)
    ensures forall i :: 0 <= i < |r| ==> r[i].name in names && r[i].stockCount == |members(r[i].name)| > 0
    ensures forall i :: 0 <= i < |names| && members(names[i]) != [] ==>
              ConceptCount(names[i], |members(names[i])|) in r
  {
    if names == [] then []
    else
      var rest := ConceptCounts(names[1..], members);
      assert forall i :: 1 <= i < |names| ==> names[i] == names[1..][i - 1];
      if members(names[0]) != [] then
        CountsOfCons(rest, Filter(names[1..], HasMembers(members)), members, names[0]);
        [ConceptCount(names[0], |members(names[0])|)] + rest
      else rest
  }

  datatype Sectors = Sectors(symbol: string, name: string, industryName: string, industryCount: nat,
                             concepts: seq<ConceptCount>)

  /** The concepts reported for a concept string: those among the first
      five names that have members, in order, with their member counts. */
  function ConceptsOf(concept: string, conceptMembers: string -> seq<string>): (r: seq<ConceptCount>)
    ensures |r| <= ConceptLimit
    ensures CountsOf(r, Filter(Asked(concept), HasMembers(conceptMembers)), conceptMembers)
    ensures forall i :: 0 <= i < |r| ==>
              r[i].name in Asked(concept) && r[i].stockCount == |conceptMembers(r[i].name)| > 0
    ensures forall i :: 0 <= i < |Asked(concept)| && conceptMembers(Asked(concept)[i]) != [] ==>
              ConceptCount(Asked(concept)[i], |conceptMembers(Asked(concept)[i])|) in r
  {
    ConceptCounts(Asked(concept), conceptMembers)
  }

  /** The sectors record for known basic information, and the number of
      membership queries made for it. */
  function SectorsOf(symbol: string, info: BasicInfoStore.BasicInfo,
                     industryMembers: string -> seq<string>, conceptMembers: string -> seq<string>): (r: (Sectors, nat))
    ensures r.0.symbol == symbol && r.0.name == info.name && r.0.industryName == info.industry
    ensures info.industry == "" ==> r.0.industryCount == 0
    ensures info.industry != "" ==> r.0.industryCount == |industryMembers(info.industry)|
    ensures r.0.concepts == ConceptsOf(info.concept, conceptMembers)
    ensures r.1 == (if info.industry == "" then 0 else 1) + |Asked(info.concept)|
    ensures r.1 <= 1 + ConceptLimit && |r.0.concepts| <= ConceptLimit
    ensures r.0.industryCount == 0 <==> info.industry == "" || industryMembers(info.industry) == []
  {
    var industryCount := if info.industry == "" then 0 else |industryMembers(info.industry)|;
    (Sectors(symbol, info.name, info.industry, industryCount, ConceptsOf(info.concept, conceptMembers)),
     (if info.industry == "" then 0 else 1) + |Asked(info.concept)|)
  }

  /** The concepts whose membership is looked up: the first five names.
      The source skips an empty concept string; by `ConceptNamesEmpty` that
      string names no concepts, so the guard changes nothing. */
  function Asked(concept: string): (r: seq<string>)
    ensures |r| <= ConceptLimit
    ensures |r| == ConceptLimit || r == ConceptNames(concept)
    ensures |r| <= |ConceptNames(concept)| && r == ConceptNames(concept)[..|r|]
  {
    PyTake(ConceptNames(concept), ConceptLimit)
  }

  /** An empty concept string names no concepts. */
  lemma ConceptNamesEmpty()
    ensures ConceptNames("") == []
  {
    assert Split("", '、') == [""];
    assert Strip("") == "";
    assert StripAll([""]) == [""];
  }

  datatype SectorsAnswer = SectorsAnswer(sectors: Sectors, store: BasicInfoStore.Table, sourceCalls: nat,
                                         memberQueries: nat)

  /** `get_stock_sectors`: the industry and concept strings come from the
      same table-then-source lookup as `get_stock_basic_info`; a symbol
      known to neither still gets a record, with empty names and counts. */
  function GetStockSectors(store: BasicInfoStore.Table, symbol: string,
                           source: string -> Option<BasicInfoStore.BasicInfo>,
                           industryMembers: string -> seq<string>, conceptMembers: string -> seq<string>,
                           now: int, readOk: bool, saveOk: bool): (r: SectorsAnswer)
    ensures var basic := GetStockBasicInfo(store, symbol, source, now, readOk, saveOk);
            && r.store == basic.store && r.sourceCalls == basic.sourceCalls
            && (basic.view.None? ==> r.sectors == Sectors(symbol, "", "", 0, []) && r.memberQueries == 0)
            && (basic.view.Some? ==>
                  (r.sectors, r.memberQueries) == SectorsOf(symbol, basic.view.value.info, industryMembers, conceptMembers))
  {
    var basic := GetStockBasicInfo(store, symbol, source, now, readOk, saveOk);
    if basic.view.None? then SectorsAnswer(Sectors(symbol, "", "", 0, []), basic.store, basic.sourceCalls, 0)
    else
      var sectors := SectorsOf(symbol, basic.view.value.info, industryMembers, conceptMembers);
      SectorsAnswer(sectors.0, basic.store, basic.sourceCalls, sectors.1)
  }
}

=== FILE: supply_chain_analyzer.dfy ===
/** `SupplyChainAnalyzer`: recognising knowledge-base companies in a text,
    scoring the recognition, expanding a company into its supply-chain
    report, suggesting companies from technology keywords, looking a
    company up by name and searching supplier edges by keyword.

    Confidence is kept in tenths: the source's `count * 0.3` capped at
    `1.0` becomes `3 * count` capped at `10`. The market-data provider is
    the pair of oracles in `Market`; a provider call either returns a
    (possibly empty) record or raises with a message. */
module SupplyChainAnalyzer {
  import opened Wrappers
  import opened Seqs
  import opened Text
  import opened Ordering
  import opened Values
  import opened SupplyChainKb

  // ---------------------------------------------------------------- confidence

  /** Occurrences of each alias in the text, both case-folded. */
  function AliasCounts(text: string, aliases: seq<string>): (r: seq<nat>)
    ensures |r| == |aliases|
  {
    seq(|aliases|, i requires 0 <= i < |aliases| => PyCount(Lower(text), Lower(aliases[i])))
  }

  /** Three tenths per occurrence, capped at ten tenths. */
  function ConfidenceOf(counts: seq<nat>): (c: nat)
    ensures c <= 10
    ensures c == 0 <==> forall i :: 0 <= i < |counts| ==> counts[i] == 0
    ensures (exists i :: 0 <= i < |counts| && counts[i] > 0) ==> c >= 3
  {
    SumZero(counts);
    if 3 * Sum(counts) < 10 then 3 * Sum(counts) else 10
  }

  /** `_calculate_confidence`, in tenths. */
  function Confidence(text: string, c: Company): (r: nat)
    ensures r <= 10
  {
    ConfidenceOf(AliasCounts(text, c.aliases))
  }

  /** An alias written in the text, in any letter case, gives at least
      three tenths; no alias anywhere gives zero. */
  lemma ConfidenceOfMention(text: string, c: Company, a: string)
    requires a in c.aliases && Contains(text, a)
    ensures Confidence(text, c) >= 3
  {
    ContainsLower(text, a);
    var i :| 0 <= i < |c.aliases| && c.aliases[i] == a;
    assert AliasCounts(text, c.aliases)[i] > 0;
  }

  lemma ConfidenceZero(text: string, c: Company)
    ensures Confidence(text, c) == 0 <==>
              forall a :: a in c.aliases ==> !Contains(Lower(text), Lower(a))
  {
    var counts := AliasCounts(text, c.aliases);
    if Confidence(text, c) == 0 {
      forall a | a in c.aliases
        ensures !Contains(Lower(text), Lower(a))
      {
        var i :| 0 <= i < |c.aliases| && c.aliases[i] == a;
        assert counts[i] == 0;
      }
    } else {
      var i :| 0 <= i < |counts| && counts[i] > 0;
      assert Contains(Lower(text), Lower(c.aliases[i]));
    }
  }

  /** More text never lowers the confidence. */
  lemma ConfidenceMonotone(text: string, more: string, c: Company)
    ensures Confidence(text, c) <= Confidence(text + more, c)
  {
    var xs := AliasCounts(text, c.aliases);
    var ys := AliasCounts(text + more, c.aliases);
    LowerAppend(text, more);
    forall i | 0 <= i < |xs|
      ensures xs[i] <= ys[i]
    {
      PyCountAppend(Lower(text), Lower(more), Lower(c.aliases[i]));
    }
    SumMonotone(xs, ys);
  }

  // ---------------------------------------------------------------- detection

  /** One recognised company. */
  datatype Detected = Detected(
    companyId: string,
    name: string,
    matchedKeyword: string,
    confidence: nat)

  function DetectedId(d: Detected): string
  {
    d.companyId
  }

  function Ids(ds: seq<Detected>): (r: seq<string>)
    ensures |r| == |ds| && forall i :: 0 <= i < |ds| ==> r[i] == ds[i].companyId
  {
    Map(ds, DetectedId)
  }

  function Found(text: string, c: Company, keyword: string): Detected
  {
    Detected(c.id, c.name, keyword, Confidence(text, c))
  }

  /** Appends `d` unless its company is already recognised. */
  function AddIfNew(ds: seq<Detected>, d: Detected): (r: seq<Detected>)
    ensures NoDuplicates(Ids(ds)) ==> NoDuplicates(Ids(r))
    ensures d.companyId in Ids(r)
    ensures forall id :: id in Ids(r) <==> id in Ids(ds) || id == d.companyId
    ensures r == ds || r == ds + [d]
  {
    if d.companyId in Ids(ds) then ds
    else
      assert Ids(ds + [d]) == Ids(ds) + [d.companyId];
      ds + [d]
  }

  /** Some alias of `c` occurs, case-sensitively, in the text. */
  predicate Mentioned(text: string, c: Company)
  {
    exists a :: a in c.aliases && Contains(text, a)
  }

  /** `d` is the entry recognising `c` through `keyword`. */
  predicate Describes(text: string, d: Detected, c: Company)
  {
    d == Found(text, c, d.matchedKeyword) && d.matchedKeyword in IndexKeys(c)
  }

  /** The inner loop over one company's aliases. */
  function ScanAliases(text: string, c: Company, aliases: seq<string>, acc: seq<Detected>): seq<Detected>
    decreases |aliases|
  {
    if aliases == [] then acc
    else
      var next := if Contains(text, aliases[0]) then AddIfNew(acc, Found(text, c, aliases[0])) else acc;
      ScanAliases(text, c, aliases[1..], next)
  }

  /** The inner loop adds at most one entry, for the first alias found in
      the text, and only when the company is not yet recognised. */
  lemma {:induction false} ScanAliasesShape(text: string, c: Company, aliases: seq<string>, acc: seq<Detected>)
    ensures var r := ScanAliases(text, c, aliases, acc);
      (c.id in Ids(acc) || !(exists a :: a in aliases && Contains(text, a))) ==> r == acc
    ensures var r := ScanAliases(text, c, aliases, acc);
      (c.id !in Ids(acc) && exists a :: a in aliases && Contains(text, a)) ==>
        exists a :: a in aliases && Contains(text, a) && r == acc + [Found(text, c, a)]
    decreases |aliases|
  {
    if aliases != [] {
      var next := if Contains(text, aliases[0]) then AddIfNew(acc, Found(text, c, aliases[0])) else acc;
      ScanAliasesShape(text, c, aliases[1..], next);
      assert forall a :: a in aliases[1..] ==> a in aliases;
      if c.id !in Ids(acc) && Contains(text, aliases[0]) {
        assert next == acc + [Found(text, c, aliases[0])];
        assert c.id in Ids(next);
      } else {
        assert next == acc;
        if exists a :: a in aliases && Contains(text, a) {
          var a :| a in aliases && Contains(text, a);
          if c.id !in Ids(acc) {
            assert a != aliases[0];
            assert a in aliases[1..];
          }
        }
      }
    }
  }

  /** `d` was recognised from an alias of one of `cs` written in the text. */
  predicate DirectEntry(text: string, cs: seq<Company>, d: Detected)
  {
    exists i :: 0 <= i < |cs| && Describes(text, d, cs[i]) && Contains(text, d.matchedKeyword)
  }

  /** The outer loop of the direct pass, over the companies in order. */
  function ScanCompanies(text: string, cs: seq<Company>, acc: seq<Detected>): seq<Detected>
    decreases |cs|
  {
    if cs == [] then acc
    else ScanCompanies(text, cs[1..], ScanAliases(text, cs[0], cs[0].aliases, acc))
  }

  /** One step of the outer loop keeps the entries already there, keeps the
      companies distinct, and adds `c` exactly when it is mentioned. */
  lemma ScanAliasesProps(text: string, cs: seq<Company>, acc: seq<Detected>)
    requires cs != []
    ensures var r := ScanAliases(text, cs[0], cs[0].aliases, acc);
      && |acc| <= |r| && r[..|acc|] == acc
      && (NoDuplicates(Ids(acc)) ==> NoDuplicates(Ids(r)))
      && (forall id :: id in Ids(r) <==> id in Ids(acc) || (id == cs[0].id && Mentioned(text, cs[0])))
      && (forall k :: |acc| <= k < |r| ==> DirectEntry(text, cs, r[k]))
  {
    var c := cs[0];
    ScanAliasesShape(text, c, c.aliases, acc);
    var r := ScanAliases(text, c, c.aliases, acc);
    if c.id in Ids(acc) || !Mentioned(text, c) {
      assert r == acc;
    } else {
      var a :| a in c.aliases && Contains(text, a) && r == acc + [Found(text, c, a)];
      assert Ids(r) == Ids(acc) + [c.id];
      assert DirectEntry(text, cs, r[|acc|]) by {
        assert Describes(text, r[|acc|], cs[0]);
      }
    }
  }

  /** One of `cs` has id `id` and is mentioned in the text. */
  predicate AnyMentioned(text: string, cs: seq<Company>, id: string)
  {
    exists i :: 0 <= i < |cs| && cs[i].id == id && Mentioned(text, cs[i])
  }

  lemma AnyMentionedCons(text: string, cs: seq<Company>, id: string)
    requires cs != []
    ensures AnyMentioned(text, cs, id) <==>
              (cs[0].id == id && Mentioned(text, cs[0])) || AnyMentioned(text, cs[1..], id)
  {
    if AnyMentioned(text, cs[1..], id) {
      var i :| 0 <= i < |cs[1..]| && cs[1..][i].id == id && Mentioned(text, cs[1..][i]);
      assert cs[i + 1] == cs[1..][i];
    }
    if AnyMentioned(text, cs, id) {
      var i :| 0 <= i < |cs| && cs[i].id == id && Mentioned(text, cs[i]);
      if i > 0 {
        assert cs[1..][i - 1] == cs[i];
      }
    }
  }

  lemma {:induction false} ScanCompaniesProps(text: string, cs: seq<Company>, acc: seq<Detected>)
    ensures var r := ScanCompanies(text, cs, acc);
      && |acc| <= |r| && r[..|acc|] == acc
      && (NoDuplicates(Ids(acc)) ==> NoDuplicates(Ids(r)))
      && (forall id :: id in Ids(r) <==> id in Ids(acc) || AnyMentioned(text, cs, id))
      && (forall k :: |acc| <= k < |r| ==> DirectEntry(text, cs, r[k]))
    decreases |cs|
  {
    if cs != [] {
      var next := ScanAliases(text, cs[0], cs[0].aliases, acc);
      var r := ScanCompanies(text, cs[1..], next);
      ScanAliasesProps(text, cs, acc);
      ScanCompaniesProps(text, cs[1..], next);
      forall k | |acc| <= k < |r|
        ensures DirectEntry(text, cs, r[k])
      {
        if k < |next| {
          assert r[k] == next[k];
        } else {
          var i :| 0 <= i < |cs[1..]| && Describes(text, r[k], cs[1..][i]) && Contains(text, r[k].matchedKeyword);
          assert Describes(text, r[k], cs[i + 1]);
        }
      }
      forall id {
        AnyMentionedCons(text, cs, id);
      }
    }
  }

  /** `keyword` is a name or alias that the index of `kb` resolves to
      company `id`. */
  predicate ResolvesTo(kb: seq<Company>, keyword: string, id: string)
  {
    LookupAlias(kb, keyword).Some? && LookupAlias(kb, keyword).value.id == id
  }

  /** The supplementary pass over the extracted keywords. */
  function ScanKeywords(kb: seq<Company>, text: string, keywords: seq<string>, acc: seq<Detected>): seq<Detected>
    decreases |keywords|
  {
    if keywords == [] then acc
    else ScanKeywords(kb, text, keywords[1..], KeywordNext(kb, text, keywords[0], acc))
  }

  /** One keyword of the supplementary pass: the company it resolves to is
      added unless already recognised. */
  function KeywordNext(kb: seq<Company>, text: string, keyword: string, acc: seq<Detected>): seq<Detected>
  {
    match LookupAlias(kb, keyword)
    case Some(c) => AddIfNew(acc, Found(text, c, keyword))
    case None => acc
  }

  /** `d` was recognised from a keyword that names one of `kb`. */
  predicate KeywordEntry(kb: seq<Company>, text: string, keywords: seq<string>, d: Detected)
  {
    d.matchedKeyword in keywords && exists i :: 0 <= i < |kb| && Describes(text, d, kb[i])
  }

  /** One step of the keyword pass. */
  lemma ScanKeywordStep(kb: seq<Company>, text: string, keywords: seq<string>, acc: seq<Detected>)
    requires keywords != []
    ensures var next := KeywordNext(kb, text, keywords[0], acc);
      && |acc| <= |next| && next[..|acc|] == acc
      && (NoDuplicates(Ids(acc)) ==> NoDuplicates(Ids(next)))
      && (forall id :: id in Ids(next) <==> id in Ids(acc) || ResolvesTo(kb, keywords[0], id))
      && (forall k :: |acc| <= k < |next| ==> KeywordEntry(kb, text, keywords, next[k]))
  {
    var kw := keywords[0];
    match LookupAlias(kb, kw)
    case None =>
    case Some(c) =>
      var i :| 0 <= i < |kb| && kw in IndexKeys(kb[i]) && c == kb[i];
      var d := Found(text, c, kw);
      assert Describes(text, d, kb[i]);
      var next := AddIfNew(acc, d);
      forall k | |acc| <= k < |next|
        ensures KeywordEntry(kb, text, keywords, next[k])
      {
        assert next[k] == d;
      }
  }

  lemma {:induction false} ScanKeywordsProps(kb: seq<Company>, text: string, keywords: seq<string>, acc: seq<Detected>)
    ensures var r := ScanKeywords(kb, text, keywords, acc);
      && |acc| <= |r| && r[..|acc|] == acc
      && (NoDuplicates(Ids(acc)) ==> NoDuplicates(Ids(r)))
      && (forall k :: |acc| <= k < |r| ==> KeywordEntry(kb, text, keywords, r[k]))
    decreases |keywords|
  {
    if keywords != [] {
      var next := KeywordNext(kb, text, keywords[0], acc);
      var r := ScanKeywords(kb, text, keywords[1..], next);
      ScanKeywordStep(kb, text, keywords, acc);
      ScanKeywordsProps(kb, text, keywords[1..], next);
      forall k | |acc| <= k < |r|
        ensures KeywordEntry(kb, text, keywords, r[k])
      {
        if k < |next| {
          assert r[k] == next[k];
        } else {
          assert KeywordEntry(kb, text, keywords[1..], r[k]);
        }
      }
    }
  }

  /** Some keyword of `keywords` resolves to company `id`. */
  predicate AnyResolves(kb: seq<Company>, keywords: seq<string>, id: string)
  {
    exists j :: 0 <= j < |keywords| && ResolvesTo(kb, keywords[j], id)
  }

  lemma AnyResolvesCons(kb: seq<Company>, keywords: seq<string>, id: string)
    requires keywords != []
    ensures AnyResolves(kb, keywords, id) <==>
              ResolvesTo(kb, keywords[0], id) || AnyResolves(kb, keywords[1..], id)
  {
    if AnyResolves(kb, keywords[1..], id) {
      var j :| 0 <= j < |keywords[1..]| && ResolvesTo(kb, keywords[1..][j], id);
      assert keywords[j + 1] == keywords[1..][j];
    }
    if AnyResolves(kb, keywords, id) {
      var j :| 0 <= j < |keywords| && ResolvesTo(kb, keywords[j], id);
      if j > 0 {
        assert keywords[1..][j - 1] == keywords[j];
      }
    }
  }

  lemma {:induction false} ScanKeywordsMembers(kb: seq<Company>, text: string, keywords: seq<string>, acc: seq<Detected>)
    ensures forall id :: id in Ids(ScanKeywords(kb, text, keywords, acc)) <==>
              id in Ids(acc) || AnyResolves(kb, keywords, id)
    decreases |keywords|
  {
    if keywords != [] {
      var next := KeywordNext(kb, text, keywords[0], acc);
      ScanKeywordStep(kb, text, keywords, acc);
      ScanKeywordsMembers(kb, text, keywords[1..], next);
      forall id {
        AnyResolvesCons(kb, keywords, id);
      }
    }
  }

  /** Recognised companies in discovery order: first every company with an
      alias in the text, in knowledge-base order, then companies reached
      only through a keyword. */
  function Discover(kb: seq<Company>, text: string, keywords: seq<string>): seq<Detected>
  {
    ScanKeywords(kb, text, keywords, ScanCompanies(text, kb, []))
  }

  /** Every entry of the discovery pass describes a knowledge-base company;
      no company is recognised twice; and a company is recognised exactly
      when one of its aliases is written in the text or a keyword resolves
      to it. */
  lemma DiscoverProps(kb: seq<Company>, text: string, keywords: seq<string>)
    ensures var r := Discover(kb, text, keywords);
      && NoDuplicates(Ids(r))
      && (forall id :: id in Ids(r) <==>
            AnyMentioned(text, kb, id)
            || AnyResolves(kb, keywords, id))
      && (forall k :: 0 <= k < |r| ==> exists i :: 0 <= i < |kb| && Describes(text, r[k], kb[i]))
  {
    var direct := ScanCompanies(text, kb, []);
    ScanCompaniesProps(text, kb, []);
    ScanKeywordsProps(kb, text, keywords, direct);
    ScanKeywordsMembers(kb, text, keywords, direct);
    var r := Discover(kb, text, keywords);
    forall k | 0 <= k < |r|
      ensures exists i :: 0 <= i < |kb| && Describes(text, r[k], kb[i])
    {
      if k < |direct| {
        assert r[k] == direct[k];
        assert DirectEntry(text, kb, direct[k]);
      } else {
        assert KeywordEntry(kb, text, keywords, r[k]);
      }
    }
  }

  function ConfidenceKey(d: Detected): Key
  {
    NumKey(d.confidence as real)
  }

  /** `_identify_companies`: the discovered companies, most confident first,
      ties kept in discovery order. */
  function IdentifyCompanies(kb: seq<Company>, text: string, keywords: seq<string>): (r: seq<Detected>)
    ensures NoDuplicates(Ids(r))
    ensures forall i, j :: 0 <= i < j < |r| ==> r[i].confidence >= r[j].confidence
    ensures forall id :: id in Ids(r) <==>
              AnyMentioned(text, kb, id)
              || AnyResolves(kb, keywords, id)
    ensures forall k :: 0 <= k < |r| ==> exists i :: 0 <= i < |kb| && Describes(text, r[k], kb[i])
    ensures multiset(r) == multiset(Discover(kb, text, keywords))
    ensures forall c :: WithKey(r, ConfidenceKey, c) == WithKey(Discover(kb, text, keywords), ConfidenceKey, c)
  {
    var found := Discover(kb, text, keywords);
    DiscoverProps(kb, text, keywords);
    var r := SortBy(found, ConfidenceKey, true);
    SortedKeepsDiscovery(kb, text, keywords, found, r);
    r
  }

  lemma SortedKeepsDiscovery(kb: seq<Company>, text: string, keywords: seq<string>, found: seq<Detected>, r: seq<Detected>)
    requires multiset(r) == multiset(found)
    requires SortedBy(r, ConfidenceKey, true)
    requires NoDuplicates(Ids(found))
    requires forall k :: 0 <= k < |found| ==> exists i :: 0 <= i < |kb| && Describes(text, found[k], kb[i])
    ensures NoDuplicates(Ids(r))
    ensures forall i, j :: 0 <= i < j < |r| ==> r[i].confidence >= r[j].confidence
    ensures forall id :: id in Ids(r) <==> id in Ids(found)
    ensures forall k :: 0 <= k < |r| ==> exists i :: 0 <= i < |kb| && Describes(text, r[k], kb[i])
  {
    DistinctIds(found, r);
    forall i, j | 0 <= i < j < |r|
      ensures r[i].confidence >= r[j].confidence
    {
      assert !Before(ConfidenceKey, true, r[j], r[i]);
    }
    SameIds(found, r);
    forall k | 0 <= k < |r|
      ensures exists i :: 0 <= i < |kb| && Describes(text, r[k], kb[i])
    {
      assert r[k] in multiset(found);
      var m :| 0 <= m < |found| && found[m] == r[k];
    }
  }

  /** A rearrangement has the same company ids. */
  lemma SameIds(found: seq<Detected>, r: seq<Detected>)
    requires multiset(r) == multiset(found)
    ensures forall id :: id in Ids(r) <==> id in Ids(found)
  {
    forall id
      ensures id in Ids(r) ==> id in Ids(found)
    {
      if id in Ids(r) {
        var k :| 0 <= k < |r| && Ids(r)[k] == id;
        assert r[k] in multiset(found);
        var m :| 0 <= m < |found| && found[m] == r[k];
        assert Ids(found)[m] == id;
      }
    }
    forall id
      ensures id in Ids(found) ==> id in Ids(r)
    {
      if id in Ids(found) {
        var k :| 0 <= k < |found| && Ids(found)[k] == id;
        assert found[k] in multiset(r);
        var m :| 0 <= m < |r| && r[m] == found[k];
        assert Ids(r)[m] == id;
      }
    }
  }

  /** A rearrangement of entries with distinct companies keeps them
      distinct. */
  lemma DistinctIds(s: seq<Detected>, r: seq<Detected>)
    requires multiset(r) == multiset(s)
    requires NoDuplicates(Ids(s))
    ensures NoDuplicates(Ids(r))
  {
    assert NoDuplicates(s) by {
      forall i, j | 0 <= i < j < |s| ensures s[i] != s[j] {
        assert Ids(s)[i] != Ids(s)[j];
      }
    }
    PermutationDistinct(s, r);
    forall i, j | 0 <= i < j < |r|
      ensures Ids(r)[i] != Ids(r)[j]
    {
      assert r[i] in multiset(s) && r[j] in multiset(s);
      var p :| 0 <= p < |s| && s[p] == r[i];
      var q :| 0 <= q < |s| && s[q] == r[j];
      assert p != q;
      if p < q {
        assert Ids(s)[p] != Ids(s)[q];
      } else {
        assert Ids(s)[q] != Ids(s)[p];
      }
    }
  }
  // ---------------------------------------------------------------- enrichment

  /** What one market-data provider call produced: a record, empty when the
      provider had nothing, or an exception with its message. */
  datatype Fetch = Fetched(data: Record) | Raised(message: string)

  /** The market-data provider: basic information and real-time quote per
      ticker symbol. */
  datatype Market = Market(basic: string -> Fetch, quote: string -> Fetch)

  /** An edge of the knowledge base with the market fields added to it and
      the message of a failed provider call. */
  datatype Enriched = Enriched(edge: Edge, extra: Record, dataError: Option<string>)

  /** The edge names a truthy ticker and is marked listed. */
  predicate Quotable(e: Edge)
  {
    e.symbol.Some? && e.symbol.value != "" && e.isListed
  }

  const BasicFields: set<string> := {"market_cap", "industry", "pe_ratio"}
  const QuoteFields: set<string> := {"current_price", "change_pct", "volume"}

  function BasicExtra(b: Record): Record
  {
    map["market_cap" := Get(b, "总市值", Null),
        "industry" := Get(b, "所属行业", Null),
        "pe_ratio" := Get(b, "市盈率-动态", Null)]
  }

  function QuoteExtra(q: Record): Record
  {
    map["current_price" := Get(q, "最新价", Null),
        "change_pct" := Get(q, "涨跌幅", Null),
        "volume" := Get(q, "成交量", Null)]
  }

  /** `_enrich_supplier_info`. The quote is requested only after the basic
      call returned; an exception from either keeps the fields gathered so
      far and records the message. */
  function Enrich(e: Edge, m: Market): (r: Enriched)
    ensures r.edge == e
    ensures !Quotable(e) ==> r.extra == map[] && r.dataError == None
    ensures r.extra.Keys <= BasicFields + QuoteFields
    ensures r.dataError.Some? ==>
              Quotable(e) && (m.basic(e.symbol.value).Raised? || m.quote(e.symbol.value).Raised?)
    ensures BasicFields <= r.extra.Keys <==>
              Quotable(e) && m.basic(e.symbol.value).Fetched? && m.basic(e.symbol.value).data != map[]
    ensures QuoteFields <= r.extra.Keys <==>
              Quotable(e) && m.basic(e.symbol.value).Fetched?
              && m.quote(e.symbol.value).Fetched? && m.quote(e.symbol.value).data != map[]
  {
    if !Quotable(e) then Enriched(e, map[], None)
    else
      var sym := e.symbol.value;
      match m.basic(sym)
      case Raised(msg) => Enriched(e, map[], Some(msg))
      case Fetched(b) =>
        var withBasic := if b != map[] then BasicExtra(b) else map[];
        match m.quote(sym)
        case Raised(msg) => Enriched(e, withBasic, Some(msg))
        case Fetched(q) =>
          Enriched(e, if q != map[] then withBasic + QuoteExtra(q) else withBasic, None)
  }

  function EnrichAll(es: seq<Edge>, m: Market): (r: seq<Enriched>)
    ensures |r| == |es| && forall i :: 0 <= i < |es| ==> r[i] == Enrich(es[i], m)
  {
    seq(|es|, i requires 0 <= i < |es| => Enrich(es[i], m))
  }

  // ---------------------------------------------------------------- reports

  /** Listed companies holding a stake in an unlisted one. */
  datatype Holding = Holding(companyName: string, listedHolders: seq<string>)

  /** `_analyze_holding_relationship`: the holder list it builds is always
      empty, so it never reports a holding. */
  function AnalyzeHolding(x: Enriched): (r: Option<Holding>)
    ensures r.Some? ==> r.value.companyName == x.edge.name && r.value.listedHolders != []
  {
    var h := Holding(x.edge.name, []);
    if h.listedHolders != [] then Some(h) else None
  }

  function CollectHoldings(xs: seq<Enriched>): (r: seq<Holding>)
    ensures forall h :: h in r ==> h.listedHolders != []
  {
    if xs == [] then []
    else
      var rest := CollectHoldings(xs[1..]);
      match AnalyzeHolding(xs[0])
      case Some(h) => [h] + rest
      case None => rest
  }

  datatype Report = Report(
    companyId: string,
    companyName: string,
    direct: seq<Enriched>,
    indirect: seq<Enriched>,
    customers: seq<Enriched>,
    listed: seq<Enriched>,
    unlisted: seq<Enriched>,
    holdings: seq<Holding>)

  predicate IsListed(x: Enriched)
  {
    x.edge.isListed
  }

  predicate IsUnlisted(x: Enriched)
  {
    !x.edge.isListed
  }

  /** `_analyze_company_supply_chain`. */
  function AnalyzeCompany(c: Company, m: Market): (r: Report)
    ensures r.companyId == c.id && r.companyName == c.name
    ensures |r.direct| == |c.direct| && forall i :: 0 <= i < |c.direct| ==> r.direct[i].edge == c.direct[i]
    ensures |r.indirect| == |c.indirect| && forall i :: 0 <= i < |c.indirect| ==> r.indirect[i].edge == c.indirect[i]
    ensures |r.customers| == |c.customers| && forall i :: 0 <= i < |c.customers| ==> r.customers[i].edge == c.customers[i]
    ensures forall x :: x in r.listed ==> x.edge.isListed && x in r.direct + r.indirect
    ensures forall x :: x in r.unlisted ==> !x.edge.isListed && x in r.direct + r.indirect
    ensures multiset(r.listed) + multiset(r.unlisted) == multiset(r.direct + r.indirect)
    ensures r.holdings == []
  {
    var direct := EnrichAll(c.direct, m);
    var indirect := EnrichAll(c.indirect, m);
    var suppliers := direct + indirect;
    var unlisted := Filter(suppliers, IsUnlisted);
    FilterPartition(suppliers, IsListed, IsUnlisted);
    NoHoldings(unlisted);
    Report(c.id, c.name, direct, indirect, EnrichAll(c.customers, m),
           Filter(suppliers, IsListed), unlisted, CollectHoldings(unlisted))
  }

  lemma {:induction false} NoHoldings(xs: seq<Enriched>)
    ensures CollectHoldings(xs) == []
  {
    if xs != [] {
      NoHoldings(xs[1..]);
    }
  }

  // ---------------------------------------------------------------- suggestions

  /** A company suggested because a technology keyword is associated with it. */
  datatype Suggestion = Suggestion(companyId: string, name: string, matchedKeyword: string)

  /** The fixed table of technology keywords and the companies they suggest. */
  const SuggestionTable: map<string, seq<string>> := map[
    "GPU" := ["nvidia"],
    "TPU" := ["google"],
    "芯片" := ["nvidia", "google", "apple"],
    "半导体" := ["nvidia", "google", "apple"],
    "人工智能" := ["nvidia", "google"],
    "AI" := ["nvidia", "google"],
    "自动驾驶" := ["tesla", "nvidia"],
    "电动汽车" := ["tesla"],
    "新能源" := ["tesla"],
    "电池" := ["tesla"],
    "手机" := ["apple"],
    "显示屏" := ["apple", "google"],
    "摄像头" := ["apple"],
    "传感器" := ["apple"]]

  function SuggestionId(s: Suggestion): string
  {
    s.companyId
  }

  function SuggestedIds(ss: seq<Suggestion>): (r: seq<string>)
    ensures |r| == |ss| && forall i :: 0 <= i < |ss| ==> r[i] == ss[i].companyId
  {
    Map(ss, SuggestionId)
  }

  /** The table associates `keyword` with company `id` of `kb`. */
  predicate Suggests(table: map<string, seq<string>>, kb: seq<Company>, keyword: string, id: string)
  {
    keyword in table && id in table[keyword] && CompanyById(kb, id).Some?
  }

  /** The loop over the companies one keyword suggests. */
  function SuggestFor(kb: seq<Company>, keyword: string, ids: seq<string>, acc: seq<Suggestion>): seq<Suggestion>
    decreases |ids|
  {
    if ids == [] then acc
    else
      SuggestFor(kb, keyword, ids[1..], SuggestOne(kb, keyword, ids[0], acc))
  }

  /** The loop over the keywords. */
  function SuggestAll(table: map<string, seq<string>>, kb: seq<Company>, keywords: seq<string>, acc: seq<Suggestion>)
    : seq<Suggestion>
    decreases |keywords|
  {
    if keywords == [] then acc
    else
      var next := if keywords[0] in table
        then SuggestFor(kb, keywords[0], table[keywords[0]], acc)
        else acc;
      SuggestAll(table, kb, keywords[1..], next)
  }

  /** A suggestion names its company correctly and a keyword that suggests it. */
  predicate ValidSuggestion(table: map<string, seq<string>>, kb: seq<Company>, keywords: seq<string>, s: Suggestion)
  {
    && s.matchedKeyword in keywords
    && Suggests(table, kb, s.matchedKeyword, s.companyId)
    && s.name == CompanyById(kb, s.companyId).value.name
  }

  lemma {:induction false} SuggestForProps(table: map<string, seq<string>>, kb: seq<Company>, keywords: seq<string>,
                                           keyword: string, ids: seq<string>, acc: seq<Suggestion>)
    requires keyword in keywords && keyword in table
    requires forall id :: id in ids ==> id in table[keyword]
    ensures var r := SuggestFor(kb, keyword, ids, acc);
      && |acc| <= |r| && r[..|acc|] == acc
      && (NoDuplicates(SuggestedIds(acc)) ==> NoDuplicates(SuggestedIds(r)))
      && (forall id :: id in SuggestedIds(r) <==>
            id in SuggestedIds(acc) || (id in ids && CompanyById(kb, id).Some?))
      && (forall k :: |acc| <= k < |r| ==> ValidSuggestion(table, kb, keywords, r[k]))
    decreases |ids|
  {
    if ids != [] {
      var next := SuggestOne(kb, keyword, ids[0], acc);
      SuggestOneProps(table, kb, keywords, keyword, ids[0], acc);
      SuggestForProps(table, kb, keywords, keyword, ids[1..], next);
      var r := SuggestFor(kb, keyword, ids[1..], next);
      SuggestionsExtend(table, kb, keywords, acc, next, r);
      assert r[..|acc|] == r[..|next|][..|acc|];
      assert forall id :: id in ids <==> id == ids[0] || id in ids[1..];
    }
  }

  /** One turn of the loop over a keyword's companies. */
  function SuggestOne(kb: seq<Company>, keyword: string, id: string, acc: seq<Suggestion>): seq<Suggestion>
  {
    match CompanyById(kb, id)
    case Some(c) =>
      if id in SuggestedIds(acc) then acc
      else acc + [Suggestion(id, c.name, keyword)]
    case None => acc
  }

  lemma SuggestOneProps(table: map<string, seq<string>>, kb: seq<Company>, keywords: seq<string>,
                        keyword: string, id: string, acc: seq<Suggestion>)
    requires keyword in keywords && keyword in table && id in table[keyword]
    ensures var next := SuggestOne(kb, keyword, id, acc);
      && |acc| <= |next| && next[..|acc|] == acc
      && (NoDuplicates(SuggestedIds(acc)) ==> NoDuplicates(SuggestedIds(next)))
      && (forall x :: x in SuggestedIds(next) <==> x in SuggestedIds(acc) || (x == id && CompanyById(kb, id).Some?))
      && (forall k :: |acc| <= k < |next| ==> ValidSuggestion(table, kb, keywords, next[k]))
  {
    var next := SuggestOne(kb, keyword, id, acc);
    if next != acc {
      assert SuggestedIds(next) == SuggestedIds(acc) + [id];
    }
  }

  /** Valid suggestions after `acc` up to `next`, and after `next` up to
      `r`, are valid after `acc`. */
  lemma SuggestionsExtend(table: map<string, seq<string>>, kb: seq<Company>, keywords: seq<string>,
                          acc: seq<Suggestion>, next: seq<Suggestion>, r: seq<Suggestion>)
    requires |acc| <= |next| <= |r| && r[..|next|] == next
    requires forall k :: |acc| <= k < |next| ==> ValidSuggestion(table, kb, keywords, next[k])
    requires forall k :: |next| <= k < |r| ==> ValidSuggestion(table, kb, keywords, r[k])
    ensures forall k :: |acc| <= k < |r| ==> ValidSuggestion(table, kb, keywords, r[k])
  {
    forall k | |acc| <= k < |next|
      ensures ValidSuggestion(table, kb, keywords, r[k])
    {
      assert r[k] == r[..|next|][k];
    }
  }

  lemma {:induction false} SuggestAllProps(table: map<string, seq<string>>, kb: seq<Company>, keywords: seq<string>,
                                           rest: seq<string>, acc: seq<Suggestion>)
    requires forall kw :: kw in rest ==> kw in keywords
    ensures var r := SuggestAll(table, kb, rest, acc);
      && |acc| <= |r| && r[..|acc|] == acc
      && (NoDuplicates(SuggestedIds(acc)) ==> NoDuplicates(SuggestedIds(r)))
      && (forall id :: id in SuggestedIds(r) <==>
            id in SuggestedIds(acc) || exists j :: 0 <= j < |rest| && Suggests(table, kb, rest[j], id))
      && (forall k :: |acc| <= k < |r| ==> ValidSuggestion(table, kb, keywords, r[k]))
    decreases |rest|
  {
    if rest != [] {
      var kw := rest[0];
      var next := if kw in table then SuggestFor(kb, kw, table[kw], acc) else acc;
      if kw in table {
        SuggestForProps(table, kb, keywords, kw, table[kw], acc);
      }
      SuggestAllProps(table, kb, keywords, rest[1..], next);
      var r := SuggestAll(table, kb, rest[1..], next);
      forall k | |acc| <= k < |r|
        ensures ValidSuggestion(table, kb, keywords, r[k])
      {
        if k < |next| {
          assert r[k] == next[k];
        }
      }
      forall id
        ensures id in SuggestedIds(r) <==>
          id in SuggestedIds(acc) || exists j :: 0 <= j < |rest| && Suggests(table, kb, rest[j], id)
      {
        if id in SuggestedIds(r) && id !in SuggestedIds(acc) && id !in SuggestedIds(next) {
          var j :| 0 <= j < |rest[1..]| && Suggests(table, kb, rest[1..][j], id);
          assert rest[j + 1] == rest[1..][j];
        }
        if exists j :: 0 <= j < |rest| && Suggests(table, kb, rest[j], id) {
          var j :| 0 <= j < |rest| && Suggests(table, kb, rest[j], id);
          if j > 0 {
            assert rest[1..][j - 1] == rest[j];
          }
        }
      }
    }
  }

  /** `_suggest_companies_by_keywords`: each company at most once, suggested
      exactly when some keyword of the table points at it. */
  function Suggest(kb: seq<Company>, keywords: seq<string>): (r: seq<Suggestion>)
    ensures NoDuplicates(SuggestedIds(r))
    ensures forall id :: id in SuggestedIds(r) <==> exists j :: 0 <= j < |keywords| && Suggests(SuggestionTable, kb, keywords[j], id)
    ensures forall k :: 0 <= k < |r| ==> ValidSuggestion(SuggestionTable, kb, keywords, r[k])
  {
    SuggestAllProps(SuggestionTable, kb, keywords, keywords, []);
    SuggestAll(SuggestionTable, kb, keywords, [])
  }
  // ---------------------------------------------------------------- scenario

  datatype Analysis = Analysis(
    scenario: string,
    detected: seq<Detected>,
    reports: seq<Report>,
    suggestions: Option<seq<Suggestion>>)

  /** The report of a recognised company whose id the knowledge base has. */
  function ReportOf(kb: seq<Company>, m: Market): Detected -> Option<Report>
  {
    (d: Detected) => match CompanyById(kb, d.companyId)
                     case Some(c) => Some(AnalyzeCompany(c, m))
                     case None => None
  }

  /** One report per recognised company whose id the knowledge base has. */
  function ReportsFor(kb: seq<Company>, ds: seq<Detected>, m: Market): (r: seq<Report>)
    ensures (forall k :: 0 <= k < |ds| ==> CompanyById(kb, ds[k].companyId).Some?) ==>
              |r| == |ds| &&
              forall k :: 0 <= k < |ds| ==> r[k] == AnalyzeCompany(CompanyById(kb, ds[k].companyId).value, m)
  {
    var r := Somes(ds, ReportOf(kb, m));
    assert forall k :: 0 <= k < |ds| ==> ReportOf(kb, m)(ds[k]).Some? == CompanyById(kb, ds[k].companyId).Some?;
    r
  }
  /** `analyze_scenario`, given the keywords extracted from the text. A
      report accompanies each recognised company, most confident first;
      suggestions are made exactly when nothing was recognised, which
      happens exactly when no alias is written in the text and no keyword
      names a company. */
  function AnalyzeScenario(kb: seq<Company>, text: string, keywords: seq<string>, m: Market): (r: Analysis)
    ensures r.scenario == text
    ensures r.detected == IdentifyCompanies(kb, text, keywords)
    ensures |r.reports| == |r.detected|
    ensures forall k :: 0 <= k < |r.detected| ==>
              CompanyById(kb, r.detected[k].companyId).Some? &&
              r.reports[k] == AnalyzeCompany(CompanyById(kb, r.detected[k].companyId).value, m)
    ensures r.suggestions.Some? <==> r.detected == []
    ensures r.detected == [] <==>
              (forall i :: 0 <= i < |kb| ==> !Mentioned(text, kb[i]))
              && (forall j :: 0 <= j < |keywords| ==> LookupAlias(kb, keywords[j]).None?)
    ensures r.suggestions.Some? ==> r.suggestions.value == Suggest(kb, keywords)
  {
    var detected := IdentifyCompanies(kb, text, keywords);
    DetectedInKb(kb, text, keywords);
    NothingDetected(kb, text, keywords);
    if detected == [] then Analysis(text, detected, [], Some(Suggest(kb, keywords)))
    else Analysis(text, detected, ReportsFor(kb, detected, m), None)
  }

  lemma DetectedInKb(kb: seq<Company>, text: string, keywords: seq<string>)
    ensures var ds := IdentifyCompanies(kb, text, keywords);
      forall k :: 0 <= k < |ds| ==> CompanyById(kb, ds[k].companyId).Some?
  {
    var ds := IdentifyCompanies(kb, text, keywords);
    forall k | 0 <= k < |ds|
      ensures CompanyById(kb, ds[k].companyId).Some?
    {
      var i :| 0 <= i < |kb| && Describes(text, ds[k], kb[i]);
    }
  }

  lemma NothingDetected(kb: seq<Company>, text: string, keywords: seq<string>)
    ensures IdentifyCompanies(kb, text, keywords) == [] <==>
              (forall i :: 0 <= i < |kb| ==> !Mentioned(text, kb[i]))
              && (forall j :: 0 <= j < |keywords| ==> LookupAlias(kb, keywords[j]).None?)
  {
    var ds := IdentifyCompanies(kb, text, keywords);
    if ds == [] {
      RecognisedSources(kb, text, keywords);
    } else {
      assert Ids(ds)[0] in Ids(ds);
    }
  }

  /** Mentioned companies and companies named by a keyword are recognised. */
  lemma RecognisedSources(kb: seq<Company>, text: string, keywords: seq<string>)
    ensures forall i :: 0 <= i < |kb| && Mentioned(text, kb[i]) ==>
              kb[i].id in Ids(IdentifyCompanies(kb, text, keywords))
    ensures forall j :: 0 <= j < |keywords| && LookupAlias(kb, keywords[j]).Some? ==>
              LookupAlias(kb, keywords[j]).value.id in Ids(IdentifyCompanies(kb, text, keywords))
  {
    forall j | 0 <= j < |keywords| && LookupAlias(kb, keywords[j]).Some?
      ensures LookupAlias(kb, keywords[j]).value.id in Ids(IdentifyCompanies(kb, text, keywords))
    {
      assert ResolvesTo(kb, keywords[j], LookupAlias(kb, keywords[j]).value.id);
    }
  }

  // ---------------------------------------------------------------- lookups

  /** `name` equals one of the aliases of `c` up to letter case. */
  predicate NamedBy(c: Company, name: string)
  {
    exists a :: a in c.aliases && Lower(a) == Lower(name)
  }

  /** The first company of `kb` that `name` names. */
  function FindByAlias(kb: seq<Company>, name: string): (r: Option<Company>)
    ensures r.Some? <==> exists i :: 0 <= i < |kb| && NamedBy(kb[i], name)
    ensures r.Some? ==>
              exists i :: 0 <= i < |kb| && r.value == kb[i] && NamedBy(kb[i], name)
                          && forall j :: 0 <= j < i ==> !NamedBy(kb[j], name)
  {
    if kb == [] then None
    else if NamedBy(kb[0], name) then Some(kb[0])
    else
      var r := FindByAlias(kb[1..], name);
      assert forall i :: 1 <= i < |kb| ==> kb[1..][i - 1] == kb[i];
      r
  }

  datatype Lookup = Lookup(companyName: string, supplyChain: Option<Report>, error: Option<string>)

  /** `get_company_supply_chain`: the name must equal a whole alias, in any
      letter case; the first company it names is reported. */
  function GetCompanySupplyChain(kb: seq<Company>, name: string, m: Market): (r: Lookup)
    ensures r.companyName == name
    ensures r.supplyChain.Some? ==>
              r.error == None &&
              exists i :: 0 <= i < |kb| && NamedBy(kb[i], name)
                          && (forall j :: 0 <= j < i ==> !NamedBy(kb[j], name))
                          && r.supplyChain.value == AnalyzeCompany(kb[i], m)
    ensures r.supplyChain.None? ==> r.error == Some("未找到公司：" + name)
    ensures (forall i :: 0 <= i < |kb| ==> kb[i].id != "") ==>
              (r.supplyChain.Some? <==> exists i :: 0 <= i < |kb| && NamedBy(kb[i], name))
  {
    match FindByAlias(kb, name)
    case Some(c) =>
      if c.id != "" then Lookup(name, Some(AnalyzeCompany(c, m)), None)
      else Lookup(name, None, Some("未找到公司：" + name))
    case None => Lookup(name, None, Some("未找到公司：" + name))
  }

  /** Looking a company up under its lower-cased name finds the same report. */
  lemma LookupIgnoresCase(kb: seq<Company>, name: string, m: Market)
    ensures GetCompanySupplyChain(kb, Lower(name), m).supplyChain ==
            GetCompanySupplyChain(kb, name, m).supplyChain
  {
    LowerIdempotent(name);
    FindByAliasIgnoresCase(kb, name);
  }

  lemma {:induction false} FindByAliasIgnoresCase(kb: seq<Company>, name: string)
    requires Lower(Lower(name)) == Lower(name)
    ensures FindByAlias(kb, Lower(name)) == FindByAlias(kb, name)
  {
    if kb != [] {
      assert NamedBy(kb[0], Lower(name)) == NamedBy(kb[0], name);
      FindByAliasIgnoresCase(kb[1..], name);
    }
  }

  lemma KbIdsNonEmpty()
    ensures forall i :: 0 <= i < |Kb| ==> Kb[i].id != ""
  {
  }

  // ---------------------------------------------------------------- supplier search

  datatype SupplierKind = Direct | Indirect

  /** A supplier edge of the knowledge base with the company it supplies
      and whether it is direct. */
  datatype Tagged = Tagged(edge: Edge, owner: string, kind: SupplierKind)

  /** A search hit: the enriched supplier, the name of the company it
      supplies and the kind of supply. */
  datatype Hit = Hit(info: Enriched, supplyChainOf: string, relationshipType: SupplierKind)

  function TagAll(owner: string, kind: SupplierKind, es: seq<Edge>): (r: seq<Tagged>)
    ensures |r| == |es| && forall i :: 0 <= i < |es| ==> r[i] == Tagged(es[i], owner, kind)
  {
    seq(|es|, i requires 0 <= i < |es| => Tagged(es[i], owner, kind))
  }

  /** `e` is a supplier edge of company `owner` of `kb`, of kind `kind`. */
  predicate Supplies(kb: seq<Company>, owner: string, kind: SupplierKind, e: Edge)
  {
    exists i :: 0 <= i < |kb| && owner == kb[i].name &&
                ((kind == Direct && e in kb[i].direct) || (kind == Indirect && e in kb[i].indirect))
  }

  /** Every supplier edge of `kb`, company by company, direct before
      indirect; customers are not supplier edges. */
  function SupplierEdges(kb: seq<Company>): (r: seq<Tagged>)
    ensures forall t :: t in r <==> Supplies(kb, t.owner, t.kind, t.edge)
  {
    if kb == [] then []
    else
      var r := TagAll(kb[0].name, Direct, kb[0].direct) + TagAll(kb[0].name, Indirect, kb[0].indirect)
               + SupplierEdges(kb[1..]);
      assert forall i :: 1 <= i < |kb| ==> kb[1..][i - 1] == kb[i];
      assert forall t :: t in TagAll(kb[0].name, Direct, kb[0].direct) <==>
                t.owner == kb[0].name && t.kind == Direct && t.edge in kb[0].direct by {
        forall t: Tagged | t.owner == kb[0].name && t.kind == Direct && t.edge in kb[0].direct
          ensures t in TagAll(kb[0].name, Direct, kb[0].direct)
        {
          var k :| 0 <= k < |kb[0].direct| && kb[0].direct[k] == t.edge;
          assert TagAll(kb[0].name, Direct, kb[0].direct)[k] == t;
        }
      }
      assert forall t :: t in TagAll(kb[0].name, Indirect, kb[0].indirect) <==>
                t.owner == kb[0].name && t.kind == Indirect && t.edge in kb[0].indirect by {
        forall t: Tagged | t.owner == kb[0].name && t.kind == Indirect && t.edge in kb[0].indirect
          ensures t in TagAll(kb[0].name, Indirect, kb[0].indirect)
        {
          var k :| 0 <= k < |kb[0].indirect| && kb[0].indirect[k] == t.edge;
          assert TagAll(kb[0].name, Indirect, kb[0].indirect)[k] == t;
        }
      }
      r
  }

  /** The keyword occurs, ignoring letter case, in the supplier's name or in
      its relationship label. */
  predicate MatchesKeyword(keyword: string, e: Edge)
  {
    Contains(Lower(e.name), Lower(keyword)) || Contains(Lower(e.relationship), Lower(keyword))
  }

  function KeywordFilter(keyword: string): Tagged -> bool
  {
    (t: Tagged) => MatchesKeyword(keyword, t.edge)
  }

  function HitOf(t: Tagged, m: Market): Hit
  {
    Hit(Enrich(t.edge, m), t.owner, t.kind)
  }

  function Hits(ts: seq<Tagged>, m: Market): (r: seq<Hit>)
    ensures |r| == |ts| && forall i :: 0 <= i < |ts| ==> r[i] == HitOf(ts[i], m)
  {
    seq(|ts|, i requires 0 <= i < |ts| => HitOf(ts[i], m))
  }

  /** The innermost loop: one supplier list of one company. */
  function SearchEdges(keyword: string, owner: string, kind: SupplierKind, es: seq<Edge>, m: Market): seq<Hit>
  {
    if es == [] then []
    else
      (if MatchesKeyword(keyword, es[0]) then [Hit(Enrich(es[0], m), owner, kind)] else [])
      + SearchEdges(keyword, owner, kind, es[1..], m)
  }

  function SearchCompanies(keyword: string, kb: seq<Company>, m: Market): seq<Hit>
  {
    if kb == [] then []
    else
      SearchEdges(keyword, kb[0].name, Direct, kb[0].direct, m)
      + SearchEdges(keyword, kb[0].name, Indirect, kb[0].indirect, m)
      + SearchCompanies(keyword, kb[1..], m)
  }

  lemma {:induction false} SearchEdgesIsFilter(keyword: string, owner: string, kind: SupplierKind, es: seq<Edge>, m: Market)
    ensures SearchEdges(keyword, owner, kind, es, m) == Hits(Filter(TagAll(owner, kind, es), KeywordFilter(keyword)), m)
  {
    if es != [] {
      var p := KeywordFilter(keyword);
      var t0 := Tagged(es[0], owner, kind);
      var tail := TagAll(owner, kind, es[1..]);
      SearchEdgesIsFilter(keyword, owner, kind, es[1..], m);
      assert TagAll(owner, kind, es) == [t0] + tail;
      FilterAppend([t0], tail, p);
      var first := Filter([t0], p);
      assert first == if MatchesKeyword(keyword, es[0]) then [t0] else [];
      HitsAppend(first, Filter(tail, p), m);
      assert Hits(first, m) == if MatchesKeyword(keyword, es[0]) then [HitOf(t0, m)] else [];
    }
  }

  lemma HitsAppend(a: seq<Tagged>, b: seq<Tagged>, m: Market)
    ensures Hits(a + b, m) == Hits(a, m) + Hits(b, m)
  {
  }

  /** The nested search loops select exactly the supplier edges whose name
      or label contains the keyword, in knowledge-base order. */
  lemma {:induction false} SearchIsFilter(keyword: string, kb: seq<Company>, m: Market)
    ensures SearchCompanies(keyword, kb, m) == Hits(Filter(SupplierEdges(kb), KeywordFilter(keyword)), m)
  {
    if kb != [] {
      var p := KeywordFilter(keyword);
      var d := TagAll(kb[0].name, Direct, kb[0].direct);
      var x := TagAll(kb[0].name, Indirect, kb[0].indirect);
      var rest := SupplierEdges(kb[1..]);
      SearchEdgesIsFilter(keyword, kb[0].name, Direct, kb[0].direct, m);
      SearchEdgesIsFilter(keyword, kb[0].name, Indirect, kb[0].indirect, m);
      SearchIsFilter(keyword, kb[1..], m);
      FilterAppend(d + x, rest, p);
      FilterAppend(d, x, p);
      HitsAppend(Filter(d, p) + Filter(x, p), Filter(rest, p), m);
      HitsAppend(Filter(d, p), Filter(x, p), m);
    }
  }

  datatype Search = Search(keyword: string, suppliers: seq<Hit>)

  /** Every hit of the search is a matching supplier edge of `kb`. */
  lemma SearchSound(kb: seq<Company>, keyword: string, m: Market)
    ensures forall h :: h in Hits(Filter(SupplierEdges(kb), KeywordFilter(keyword)), m) ==>
              MatchesKeyword(keyword, h.info.edge) && h.info == Enrich(h.info.edge, m) &&
              Supplies(kb, h.supplyChainOf, h.relationshipType, h.info.edge)
  {
    var matching := Filter(SupplierEdges(kb), KeywordFilter(keyword));
    var hits := Hits(matching, m);
    forall h | h in hits
      ensures MatchesKeyword(keyword, h.info.edge) && h.info == Enrich(h.info.edge, m)
      ensures Supplies(kb, h.supplyChainOf, h.relationshipType, h.info.edge)
    {
      var k :| 0 <= k < |hits| && hits[k] == h;
      var t := matching[k];
      assert h == HitOf(t, m);
      assert KeywordFilter(keyword)(t);
      assert t in SupplierEdges(kb);
    }
  }

  /** Every matching supplier edge of `kb` is a hit. */
  lemma SearchComplete(kb: seq<Company>, keyword: string, m: Market, t: Tagged)
    requires t in SupplierEdges(kb) && MatchesKeyword(keyword, t.edge)
    ensures HitOf(t, m) in Hits(Filter(SupplierEdges(kb), KeywordFilter(keyword)), m)
  {
    var matching := Filter(SupplierEdges(kb), KeywordFilter(keyword));
    assert KeywordFilter(keyword)(t);
    var k :| 0 <= k < |matching| && matching[k] == t;
    assert Hits(matching, m)[k] == HitOf(t, m);
  }

  /** `search_supplier_by_keyword`. Every hit is a supplier edge of the
      knowledge base that matches, and every matching supplier edge is a
      hit, enriched and tagged with the company it supplies. */
  function SearchSupplierByKeyword(kb: seq<Company>, keyword: string, m: Market): (r: Search)
    ensures r.keyword == keyword
    ensures forall h :: h in r.suppliers ==>
              MatchesKeyword(keyword, h.info.edge) && h.info == Enrich(h.info.edge, m) &&
              Supplies(kb, h.supplyChainOf, h.relationshipType, h.info.edge)
    ensures forall i, e :: 0 <= i < |kb| && e in kb[i].direct && MatchesKeyword(keyword, e) ==>
              Hit(Enrich(e, m), kb[i].name, Direct) in r.suppliers
    ensures forall i, e :: 0 <= i < |kb| && e in kb[i].indirect && MatchesKeyword(keyword, e) ==>
              Hit(Enrich(e, m), kb[i].name, Indirect) in r.suppliers
  {
    var hits := SearchCompanies(keyword, kb, m);
    SearchIsFilter(keyword, kb, m);
    SearchSound(kb, keyword, m);
    forall i, e | 0 <= i < |kb| && e in kb[i].direct && MatchesKeyword(keyword, e)
      ensures Hit(Enrich(e, m), kb[i].name, Direct) in hits
    {
      SearchComplete(kb, keyword, m, Tagged(e, kb[i].name, Direct));
    }
    forall i, e | 0 <= i < |kb| && e in kb[i].indirect && MatchesKeyword(keyword, e)
      ensures Hit(Enrich(e, m), kb[i].name, Indirect) in hits
    {
      SearchComplete(kb, keyword, m, Tagged(e, kb[i].name, Indirect));
    }
    Search(keyword, hits)
  }
}

=== FILE: supply_chain_kb.dfy ===
/** The static supply-chain knowledge base: four companies, each with a
    canonical name, the aliases matched in free text, ordered direct and
    indirect supplier edges and customer edges; and the alias index built
    from it. The knowledge base is a constant: nothing in the model
    changes it. */
module SupplyChainKb {
  import opened Wrappers

  /** One relationship edge: the counterparty, its ticker when it has one,
      a free-text relationship label, and whether it is listed. */
  datatype Edge = Edge(
    name: string,
    symbol: Option<string>,
    relationship: string,
    isListed: bool,
    market: Option<string>)

  datatype Company = Company(
    id: string,
    name: string,
    aliases: seq<string>,
    direct: seq<Edge>,
    indirect: seq<Edge>,
    customers: seq<Edge>)

  const NvidiaName := "英伟达"
  const NvidiaAliases: seq<string> := ["NVIDIA", "英伟达", "英伟达公司"]

  const Nvidia: Company := Company(
    "nvidia", NvidiaName,
    NvidiaAliases,
    [
      Edge("台积电", Some("2330.TW"), "芯片代工", true, Some("TW")),
      Edge("SK海力士", Some("000660.KS"), "存储芯片", true, Some("KS")),
      Edge("三星电子", Some("005930.KS"), "存储芯片", true, Some("KS")),
      Edge("美光科技", Some("MU.US"), "存储芯片", true, Some("US")),
      Edge("科沃", Some("COHR.US"), "光学组件", true, Some("US")),
      Edge("新思科技", Some("SNPS.US"), "EDA工具", true, Some("US")),
      Edge("铿腾电子", Some("CDNS.US"), "EDA工具", true, Some("US"))
    ],
    [
      Edge("中芯国际", Some("00981.HK"), "芯片代工(间接)", true, Some("HK")),
      Edge("华虹半导体", Some("01347.HK"), "芯片代工(间接)", true, Some("HK")),
      Edge("长电科技", Some("600584.SH"), "封装测试", true, Some("SH")),
      Edge("通富微电", Some("002156.SZ"), "封装测试", true, Some("SZ")),
      Edge("华天科技", Some("002185.SZ"), "封装测试", true, Some("SZ")),
      Edge("晶方科技", Some("603005.SH"), "封装测试", true, Some("SH"))
    ],
    [
      Edge("戴尔", Some("DELL.US"), "GPU客户", true, Some("US")),
      Edge("惠普", Some("HPQ.US"), "GPU客户", true, Some("US")),
      Edge("联想", Some("00992.HK"), "GPU客户", true, Some("HK"))
    ]
  )

  const GoogleName := "谷歌"
  const GoogleAliases: seq<string> := ["Google", "谷歌", "Alphabet", "Alphabet Inc."]

  const Google: Company := Company(
    "google", GoogleName,
    GoogleAliases,
    [
      Edge("台积电", Some("2330.TW"), "芯片代工", true, Some("TW")),
      Edge("英特尔", Some("INTC.US"), "芯片制造", true, Some("US")),
      Edge("博通", Some("AVGO.US"), "网络芯片", true, Some("US")),
      Edge("美满电子", Some("MRVL.US"), "网络芯片", true, Some("US"))
    ],
    [
      Edge("中芯国际", Some("00981.HK"), "芯片代工(间接)", true, Some("HK")),
      Edge("长电科技", Some("600584.SH"), "封装测试", true, Some("SH"))
    ],
    [
      Edge("各类云服务商", None, "TPU客户", false, None)
    ]
  )

  const AppleName := "苹果"
  const AppleAliases: seq<string> := ["Apple", "苹果", "苹果公司"]

  const Apple: Company := Company(
    "apple", AppleName,
    AppleAliases,
    [
      Edge("台积电", Some("2330.TW"), "芯片代工", true, Some("TW")),
      Edge("三星电子", Some("005930.KS"), "显示屏/存储", true, Some("KS")),
      Edge("LG Display", Some("034220.KS"), "显示屏", true, Some("KS")),
      Edge("索尼", Some("6758.T"), "摄像头传感器", true, Some("T")),
      Edge("博通", Some("AVGO.US"), "射频芯片", true, Some("US")),
      Edge("高通", Some("QCOM.US"), "基带芯片", true, Some("US")),
      Edge("村田制作所", Some("6981.T"), "电子元件", true, Some("T"))
    ],
    [
      Edge("立讯精密", Some("002475.SZ"), "连接器/组装", true, Some("SZ")),
      Edge("歌尔股份", Some("002241.SZ"), "声学组件", true, Some("SZ")),
      Edge("蓝思科技", Some("300433.SZ"), "玻璃盖板", true, Some("SZ")),
      Edge("京东方A", Some("000725.SZ"), "显示屏(间接)", true, Some("SZ")),
      Edge("欧菲光", Some("002456.SZ"), "摄像头模组", true, Some("SZ")),
      Edge("水晶光电", Some("002273.SZ"), "光学元件", true, Some("SZ"))
    ],
    [
      Edge("全球消费者", None, "终端用户", false, None)
    ]
  )

  const TeslaName := "特斯拉"
  const TeslaAliases: seq<string> := ["Tesla", "特斯拉", "特斯拉汽车"]

  const Tesla: Company := Company(
    "tesla", TeslaName,
    TeslaAliases,
    [
      Edge("松下", Some("6752.T"), "电池", true, Some("T")),
      Edge("宁德时代", Some("300750.SZ"), "电池", true, Some("SZ")),
      Edge("LG新能源", Some("373220.KS"), "电池", true, Some("KS")),
      Edge("英伟达", Some("NVDA.US"), "自动驾驶芯片", true, Some("US"))
    ],
    [
      Edge("比亚迪", Some("002594.SZ"), "电池(间接)", true, Some("SZ")),
      Edge("恩捷股份", Some("002812.SZ"), "隔膜", true, Some("SZ")),
      Edge("天赐材料", Some("002709.SZ"), "电解液", true, Some("SZ")),
      Edge("华友钴业", Some("603799.SH"), "钴材料", true, Some("SH")),
      Edge("赣锋锂业", Some("002460.SZ"), "锂材料", true, Some("SZ")),
      Edge("三花智控", Some("002050.SZ"), "热管理", true, Some("SZ"))
    ],
    [
      Edge("全球消费者", None, "终端用户", false, None)
    ]
  )

  /** The knowledge base in its declaration order, which every scan of it
      follows. */
  const Kb: seq<Company> := [Nvidia, Google, Apple, Tesla]

  /** The strings the alias index maps to a company: its canonical name,
      then its aliases, in the order they are written into the index. */
  function IndexKeys(c: Company): seq<string>
  {
    [c.name] + c.aliases
  }

  /** `_init_company_keywords` over `cs` followed by a lookup of the id in
      the knowledge base: the index is written company by company, so a key
      shared by two companies would resolve to the later one. */
  function LookupAlias(cs: seq<Company>, k: string): (r: Option<Company>)
    ensures r.Some? <==> exists i :: 0 <= i < |cs| && k in IndexKeys(cs[i])
    ensures r.Some? ==>
              exists i :: 0 <= i < |cs| && k in IndexKeys(cs[i]) && r.value == cs[i]
                          && forall j :: i < j < |cs| ==> k !in IndexKeys(cs[j])
  {
    if cs == [] then None
    else if k in IndexKeys(cs[|cs| - 1]) then Some(cs[|cs| - 1])
    else
      var r := LookupAlias(cs[..|cs| - 1], k);
      assert forall i :: 0 <= i < |cs| - 1 ==> cs[..|cs| - 1][i] == cs[i];
      r
  }

  /** The alias index of the knowledge base, resolved to the company. */
  function AliasIndex(k: string): Option<Company>
  {
    LookupAlias(Kb, k)
  }

  /** `self.supply_chain_kb[company_id]`: the first company with that id. */
  function CompanyById(cs: seq<Company>, id: string): (r: Option<Company>)
    ensures r.Some? <==> exists i :: 0 <= i < |cs| && cs[i].id == id
    ensures r.Some? ==> r.value in cs && r.value.id == id
  {
    if cs == [] then None
    else if cs[0].id == id then Some(cs[0])
    else
      var r := CompanyById(cs[1..], id);
      assert forall i :: 1 <= i < |cs| ==> cs[1..][i - 1] == cs[i];
      r
  }

  /** No string is an index key of two different companies. */
  predicate KeysDisjoint(a: Company, b: Company)
  {
    forall x :: x in IndexKeys(a) ==> x !in IndexKeys(b)
  }

  /** Company ids are distinct, every company's name is one of its aliases,
      aliases are non-empty, and no alias belongs to two companies. */
  predicate WellFormed(cs: seq<Company>)
  {
    && (forall i, j :: 0 <= i < j < |cs| ==> cs[i].id != cs[j].id)
    && (forall i :: 0 <= i < |cs| ==> cs[i].name in cs[i].aliases)
    && (forall i, a :: 0 <= i < |cs| && a in cs[i].aliases ==> |a| > 0)
    && (forall i, j :: 0 <= i < j < |cs| ==> KeysDisjoint(cs[i], cs[j]))
  }

  /** The company a second character of a key points to: every key of the
      knowledge base carries one of its own company's marks there. */
  function MarkOwner(ch: char): int
  {
    if ch == 'V' || ch == '伟' then 0
    else if ch == 'o' || ch == '歌' || ch == 'l' then 1
    else if ch == 'p' || ch == '果' then 2
    else if ch == 'e' || ch == '斯' then 3
    else -1
  }

  /** Every key in `keys` carries the mark of the `n`-th company. */
  predicate KeysMarked(keys: seq<string>, n: int)
  {
    forall x :: x in keys ==> |x| >= 2 && MarkOwner(x[1]) == n
  }

  /** Every key of `c` carries the mark of the `n`-th company. */
  predicate MarkedBy(c: Company, n: int)
  {
    KeysMarked(IndexKeys(c), n)
  }

  lemma MarkedByParts(c: Company, n: int)
    requires KeysMarked([c.name], n) && KeysMarked(c.aliases, n)
    ensures MarkedBy(c, n)
  {
  }

  /** The name is an alias and no alias is empty. */
  predicate OwnKeys(c: Company)
  {
    c.name in c.aliases && forall a :: a in c.aliases ==> |a| > 0
  }

  lemma CompanyFacts(c: Company, n: int)
    requires KeysMarked([c.name], n) && KeysMarked(c.aliases, n)
    requires |c.aliases| > 1 && c.aliases[1] == c.name
    ensures MarkedBy(c, n) && OwnKeys(c)
  {
  }

  /** Companies carrying different marks share no key. */
  lemma DisjointByMarks(a: Company, b: Company, na: int, nb: int)
    requires MarkedBy(a, na) && MarkedBy(b, nb) && na != nb
    ensures KeysDisjoint(a, b)
  {
  }

  /** A company whose keys all carry the mark of position `n`, whose name
      is among its aliases and whose id is not empty. */
  predicate Sound(c: Company, n: int)
  {
    |c.id| > 0 && OwnKeys(c) && MarkedBy(c, n)
  }

  /** Companies with distinct ids, each marked by its own position, form a
      well-formed knowledge base. */
  lemma WellFormedByMarks(cs: seq<Company>)
    requires forall i :: 0 <= i < |cs| ==> Sound(cs[i], i)
    requires forall i, j :: 0 <= i < j < |cs| ==> cs[i].id != cs[j].id
    ensures WellFormed(cs)
  {
    forall i, j | 0 <= i < j < |cs|
      ensures KeysDisjoint(cs[i], cs[j])
    {
      DisjointByMarks(cs[i], cs[j], i, j);
    }
  }

  lemma NvidiaFields()
    ensures Nvidia.id[0] == 'n' && Nvidia.name == NvidiaName && Nvidia.aliases == NvidiaAliases
  {
  }

  lemma NvidiaKeysMarked()
    ensures KeysMarked([NvidiaName], 0) && KeysMarked(NvidiaAliases, 0)
    ensures |NvidiaAliases| > 1 && NvidiaAliases[1] == NvidiaName
  {
  }

  lemma NvidiaFacts()
    ensures Nvidia.id[0] == 'n' && Sound(Nvidia, 0)
  {
    NvidiaFields();
    NvidiaKeysMarked();
    CompanyFacts(Nvidia, 0);
  }

  lemma GoogleFields()
    ensures Google.id[0] == 'g' && Google.name == GoogleName && Google.aliases == GoogleAliases
  {
  }

  lemma GoogleKeysMarked()
    ensures KeysMarked([GoogleName], 1) && KeysMarked(GoogleAliases, 1)
    ensures |GoogleAliases| > 1 && GoogleAliases[1] == GoogleName
  {
    assert GoogleAliases == [GoogleAliases[0], GoogleAliases[1]] + GoogleAliases[2..];
    assert KeysMarked(GoogleAliases[2..], 1);
  }

  lemma GoogleFacts()
    ensures Google.id[0] == 'g' && Sound(Google, 1)
  {
    GoogleFields();
    GoogleKeysMarked();
    CompanyFacts(Google, 1);
  }

  lemma AppleFields()
    ensures Apple.id[0] == 'a' && Apple.name == AppleName && Apple.aliases == AppleAliases
  {
  }

  lemma AppleKeysMarked()
    ensures KeysMarked([AppleName], 2) && KeysMarked(AppleAliases, 2)
    ensures |AppleAliases| > 1 && AppleAliases[1] == AppleName
  {
  }

  lemma AppleFacts()
    ensures Apple.id[0] == 'a' && Sound(Apple, 2)
  {
    AppleFields();
    AppleKeysMarked();
    CompanyFacts(Apple, 2);
  }

  lemma TeslaFields()
    ensures Tesla.id[0] == 't' && Tesla.name == TeslaName && Tesla.aliases == TeslaAliases
  {
  }

  lemma TeslaKeysMarked()
    ensures KeysMarked([TeslaName], 3) && KeysMarked(TeslaAliases, 3)
    ensures |TeslaAliases| > 1 && TeslaAliases[1] == TeslaName
  {
  }

  lemma TeslaFacts()
    ensures Tesla.id[0] == 't' && Sound(Tesla, 3)
  {
    TeslaFields();
    TeslaKeysMarked();
    CompanyFacts(Tesla, 3);
  }

  lemma WellFormedOfFour(a: Company, b: Company, c: Company, d: Company)
    requires OwnKeys(a) && OwnKeys(b) && OwnKeys(c) && OwnKeys(d)
    requires a.id != b.id && a.id != c.id && a.id != d.id
    requires b.id != c.id && b.id != d.id && c.id != d.id
    requires KeysDisjoint(a, b) && KeysDisjoint(a, c) && KeysDisjoint(a, d)
    requires KeysDisjoint(b, c) && KeysDisjoint(b, d) && KeysDisjoint(c, d)
    ensures WellFormed([a, b, c, d])
  {
  }

  lemma KbSound()
    ensures Sound(Nvidia, 0) && Sound(Google, 1) && Sound(Apple, 2) && Sound(Tesla, 3)
  {
    NvidiaFacts();
    GoogleFacts();
    AppleFacts();
    TeslaFacts();
  }

  lemma KbIds()
    ensures Nvidia.id != Google.id && Nvidia.id != Apple.id && Nvidia.id != Tesla.id
    ensures Google.id != Apple.id && Google.id != Tesla.id && Apple.id != Tesla.id
  {
    NvidiaFields();
    GoogleFields();
    AppleFields();
    TeslaFields();
  }

  lemma NvidiaKeysDisjoint()
    ensures KeysDisjoint(Nvidia, Google) && KeysDisjoint(Nvidia, Apple) && KeysDisjoint(Nvidia, Tesla)
  {
    KbSound();
    DisjointByMarks(Nvidia, Google, 0, 1);
    DisjointByMarks(Nvidia, Apple, 0, 2);
    DisjointByMarks(Nvidia, Tesla, 0, 3);
  }

  lemma GoogleAppleDisjoint()
    ensures KeysDisjoint(Google, Apple)
  {
    GoogleFacts();
    AppleFacts();
    DisjointByMarks(Google, Apple, 1, 2);
  }

  lemma GoogleTeslaDisjoint()
    ensures KeysDisjoint(Google, Tesla)
  {
    GoogleFacts();
    TeslaFacts();
    DisjointByMarks(Google, Tesla, 1, 3);
  }

  lemma AppleTeslaDisjoint()
    ensures KeysDisjoint(Apple, Tesla)
  {
    AppleFacts();
    TeslaFacts();
    DisjointByMarks(Apple, Tesla, 2, 3);
  }

  /** The knowledge base has distinct ids, each name among its aliases, and
      no name or alias shared by two companies. */
  lemma KbWellFormed()
    ensures WellFormed(Kb)
  {
    KbSound();
    KbIds();
    NvidiaKeysDisjoint();
    GoogleAppleDisjoint();
    GoogleTeslaDisjoint();
    AppleTeslaDisjoint();
    WellFormedOfFour(Nvidia, Google, Apple, Tesla);
  }

  /** In a well-formed knowledge base a key resolves to its own company. */
  lemma LookupAliasOwner(cs: seq<Company>, i: int, k: string)
    requires WellFormed(cs)
    requires 0 <= i < |cs| && k in IndexKeys(cs[i])
    ensures LookupAlias(cs, k) == Some(cs[i])
  {
    var j :| 0 <= j < |cs| && k in IndexKeys(cs[j]) && LookupAlias(cs, k).value == cs[j]
             && forall l :: j < l < |cs| ==> k !in IndexKeys(cs[l]);
    if j != i {
      assert false;
    }
  }

  /** Every name and alias resolves to the company it belongs to. */
  lemma AliasIndexOwner(i: int, k: string)
    requires 0 <= i < |Kb| && k in IndexKeys(Kb[i])
    ensures AliasIndex(k) == Some(Kb[i])
  {
    KbWellFormed();
    LookupAliasOwner(Kb, i, k);
  }
}

=== FILE: text.dfy ===
/** String operations the source performs on `str` values, restricted to
    what the model needs: ASCII case folding, substring search and
    non-overlapping counting (`in`, `str.count`), whitespace stripping,
    splitting and joining on a separator, and character removal. */
module Text {

  /** Lower-cases ASCII letters; every other character is left alone. */
  function LowerChar(c: char): char
  {
    if 'A' <= c <= 'Z' then (c as int + 32) as char else c
  }

  function Lower(s: string): (r: string)
    ensures |r| == |s|
    ensures forall i :: 0 <= i < |s| ==> r[i] == LowerChar(s[i])
  {
    seq(|s|, i requires 0 <= i < |s| => LowerChar(s[i]))
  }

  lemma LowerIdempotent(s: string)
    ensures Lower(Lower(s)) == Lower(s)
  {
  }

  lemma LowerAppend(a: string, b: string)
    ensures Lower(a + b) == Lower(a) + Lower(b)
  {
  }

  predicate IsPrefix(p: string, s: string)
  {
    |p| <= |s| && s[..|p|] == p
  }

  /** Python's `p in s`: the empty string occurs in every string. */
  predicate Contains(s: string, p: string)
    decreases |s|
  {
    IsPrefix(p, s) || (s != [] && Contains(s[1..], p))
  }

  /** `p` occurs in `s` starting at index `i`. */
  predicate OccursAt(s: string, p: string, i: int)
  {
    0 <= i <= |s| - |p| && s[i..i + |p|] == p
  }

  /** `Contains` is the usual "occurs at some position" relation. */
  lemma {:induction false} ContainsAt(s: string, p: string)
    ensures Contains(s, p) <==> exists i :: OccursAt(s, p, i)
    decreases |s|
  {
    if IsPrefix(p, s) {
      assert OccursAt(s, p, 0);
    } else if s == [] {
    } else {
      ContainsAt(s[1..], p);
      if Contains(s[1..], p) {
        var i :| OccursAt(s[1..], p, i);
        assert OccursAt(s, p, i + 1);
      }
      if exists i :: OccursAt(s, p, i) {
        var i :| OccursAt(s, p, i);
        assert i != 0;
        assert OccursAt(s[1..], p, i - 1);
      }
    }
  }

  /** Case folding preserves an occurrence. */
  lemma ContainsLower(s: string, p: string)
    requires Contains(s, p)
    ensures Contains(Lower(s), Lower(p))
  {
    ContainsAt(s, p);
    var i :| OccursAt(s, p, i);
    assert OccursAt(Lower(s), Lower(p), i);
    ContainsAt(Lower(s), Lower(p));
  }

  /** Python's `s.count(p)` for a non-empty `p`: occurrences found left to
      right, each search resuming after the previous match. */
  function CountOccurrences(s: string, p: string): nat
    requires |p| > 0
    decreases |s|
  {
    if |s| < |p| then 0
    else if s[..|p|] == p then 1 + CountOccurrences(s[|p|..], p)
    else CountOccurrences(s[1..], p)
  }

  /** A pattern is counted at least once exactly when it occurs. */
  lemma {:induction false} CountPositiveIffContains(s: string, p: string)
    requires |p| > 0
    ensures CountOccurrences(s, p) >= 1 <==> Contains(s, p)
    decreases |s|
  {
    if |s| < |p| {
      assert !IsPrefix(p, s);
      if s != [] {
        CountPositiveIffContains(s[1..], p);
      }
    } else if s[..|p|] == p {
    } else {
      CountPositiveIffContains(s[1..], p);
    }
  }

  /** Python's `s.count(p)`: the empty pattern is counted once before every
      character and once at the end. */
  function PyCount(s: string, p: string): (r: nat)
    ensures r >= 1 <==> Contains(s, p)
  {
    if |p| == 0 then
      assert IsPrefix(p, s);
      |s| + 1
    else
      CountPositiveIffContains(s, p);
      CountOccurrences(s, p)
  }

  /** Text appended after `s` never removes an occurrence already counted
      in `s`. */
  lemma {:induction false} CountAppend(s: string, u: string, p: string)
    requires |p| > 0
    ensures CountOccurrences(s, p) <= CountOccurrences(s + u, p)
    decreases |s|
  {
    if |s| < |p| {
    } else if s[..|p|] == p {
      assert (s + u)[..|p|] == p;
      assert (s + u)[|p|..] == s[|p|..] + u;
      CountAppend(s[|p|..], u, p);
    } else {
      assert (s + u)[..|p|] == s[..|p|];
      assert (s + u)[1..] == s[1..] + u;
      CountAppend(s[1..], u, p);
    }
  }

  lemma PyCountAppend(s: string, u: string, p: string)
    ensures PyCount(s, p) <= PyCount(s + u, p)
  {
    if |p| > 0 {
      CountAppend(s, u, p);
    }
  }

  /** Whitespace as Python's `str.isspace` defines it. */
  predicate IsSpace(c: char)
  {
    c == ' ' || '\t' <= c <= '\r' || '\U{1C}' <= c <= '\U{1F}'
    || c == '\U{85}' || c == '\U{A0}' || c == '\U{1680}'
    || '\U{2000}' <= c <= '\U{200A}' || c == '\U{2028}' || c == '\U{2029}'
    || c == '\U{202F}' || c == '\U{205F}' || c == '\U{3000}'
  }

  function TrimLeft(s: string): (r: string)
    ensures |r| <= |s| && r == s[|s| - |r|..]
    ensures r != [] ==> !IsSpace(r[0])
    decreases |s|
  {
    if s != [] && IsSpace(s[0]) then TrimLeft(s[1..]) else s
  }

  function TrimRight(s: string): (r: string)
    ensures |r| <= |s| && r == s[..|r|]
    ensures r != [] ==> !IsSpace(r[|r| - 1])
    decreases |s|
  {
    if s != [] && IsSpace(s[|s| - 1]) then TrimRight(s[..|s| - 1]) else s
  }

  /** Python's `s.strip()`: a contiguous piece of `s` with no surrounding
      whitespace; only whitespace was removed around it. */
  function Strip(s: string): (r: string)
    ensures |r| <= |s|
    ensures r != [] ==> !IsSpace(r[0]) && !IsSpace(r[|r| - 1])
  {
    TrimRight(TrimLeft(s))
  }

  /** The stripped string is a contiguous piece of the original. */
  lemma StripOccurs(s: string)
    ensures exists i :: OccursAt(s, Strip(s), i)
  {
    var l := TrimLeft(s);
    assert OccursAt(s, Strip(s), |s| - |l|);
  }

  lemma {:induction false} TrimLeftNoop(s: string)
    requires s == [] || !IsSpace(s[0])
    ensures TrimLeft(s) == s
  {
  }

  lemma {:induction false} TrimRightNoop(s: string)
    requires s == [] || !IsSpace(s[|s| - 1])
    ensures TrimRight(s) == s
  {
  }

  /** Stripping a stripped string changes nothing. */
  lemma StripIdempotent(s: string)
    ensures Strip(Strip(s)) == Strip(s)
  {
    var r := Strip(s);
    TrimLeftNoop(r);
    TrimRightNoop(r);
  }

  /** Trimming the left of a string with non-blank content ignores what is
      appended. */
  lemma {:induction false} TrimLeftAppend(s: string, u: string)
    requires TrimLeft(s) != []
    ensures TrimLeft(s + u) == TrimLeft(s) + u
    decreases |s|
  {
    if IsSpace(s[0]) {
      assert (s + u)[1..] == s[1..] + u;
      TrimLeftAppend(s[1..], u);
    }
  }

  /** A blank and a newline around a non-blank string are stripped away. */
  lemma StripPadded(s: string)
    requires Strip(s) != ""
    ensures Strip(" " + s + "\n") == Strip(s)
  {
    assert " " + s + "\n" == " " + (s + "\n");
    TrimLeftBlank(s + "\n");
    TrimLeftAppend(s, "\n");
    TrimRightNewline(TrimLeft(s));
  }

  lemma TrimLeftBlank(t: string)
    ensures TrimLeft(" " + t) == TrimLeft(t)
  {
    assert (" " + t)[1..] == t;
  }

  lemma TrimRightNewline(t: string)
    ensures TrimRight(t + "\n") == TrimRight(t)
  {
    assert (t + "\n")[..|t|] == t;
  }

  /** Python's `s.split(sep)` for a one-character separator: the pieces
      between separators, at least one piece, empty pieces kept. */
  function Split(s: string, sep: char): (r: seq<string>)
    ensures |r| >= 1
    ensures forall i :: 0 <= i < |r| ==> sep !in r[i]
    decreases |s|
  {
    if s == [] then [[]]
    else if s[0] == sep then [[]] + Split(s[1..], sep)
    else
      var rest := Split(s[1..], sep);
      [[s[0]] + rest[0]] + rest[1..]
  }

  /** Python's `sep.join(parts)`. */
  function Join(parts: seq<string>, sep: string): string
  {
    if parts == [] then []
    else if |parts| == 1 then parts[0]
    else parts[0] + sep + Join(parts[1..], sep)
  }

  /** Joining the pieces of a split restores the original string. */
  lemma {:induction false} JoinSplit(s: string, sep: char)
    ensures Join(Split(s, sep), [sep]) == s
    decreases |s|
  {
    if s == [] {
    } else if s[0] == sep {
      JoinSplit(s[1..], sep);
      var rest := Split(s[1..], sep);
      assert Split(s, sep) == [[]] + rest;
      assert ([[]] + rest)[1..] == rest;
    } else {
      JoinSplit(s[1..], sep);
      var rest := Split(s[1..], sep);
      var r := [[s[0]] + rest[0]] + rest[1..];
      assert Split(s, sep) == r;
      if |rest| == 1 {
        assert Join(r, [sep]) == [s[0]] + rest[0];
      } else {
        assert r[1..] == rest[1..];
        assert Join(rest, [sep]) == rest[0] + [sep] + Join(rest[1..], [sep]);
        assert Join(r, [sep]) == [s[0]] + rest[0] + [sep] + Join(rest[1..], [sep]);
      }
    }
  }

  /** Splitting a join of separator-free pieces gives the pieces back. */
  lemma {:induction false} SplitJoin(parts: seq<string>, sep: char)
    requires |parts| >= 1
    requires forall i :: 0 <= i < |parts| ==> sep !in parts[i]
    ensures Split(Join(parts, [sep]), sep) == parts
  {
    if |parts| == 1 {
      SplitNoSep(parts[0], sep);
    } else {
      SplitJoin(parts[1..], sep);
      SplitAppend(parts[0], Join(parts[1..], [sep]), sep);
      assert [parts[0]] + parts[1..] == parts;
    }
  }

  lemma {:induction false} SplitNoSep(s: string, sep: char)
    requires sep !in s
    ensures Split(s, sep) == [s]
    decreases |s|
  {
    if s != [] {
      SplitNoSep(s[1..], sep);
      assert [s[0]] + s[1..] == s;
    }
  }

  /** A separator-free prefix followed by a separator starts a new piece. */
  lemma {:induction false} SplitAppend(a: string, b: string, sep: char)
    requires sep !in a
    ensures Split(a + [sep] + b, sep) == [a] + Split(b, sep)
    decreases |a|
  {
    if a == [] {
      assert a + [sep] + b == [sep] + b;
      assert ([sep] + b)[1..] == b;
    } else {
      var t := a + [sep] + b;
      assert t[1..] == a[1..] + [sep] + b;
      SplitAppend(a[1..], b, sep);
      assert [a[0]] + a[1..] == a;
    }
  }

  /** Python's `s.replace(c, '')` for a single character `c`. */
  function RemoveChar(s: string, c: char): (r: string)
    ensures c !in r
    ensures |r| <= |s|
  {
    if s == [] then []
    else if s[0] == c then RemoveChar(s[1..], c)
    else [s[0]] + RemoveChar(s[1..], c)
  }

  /** Removal keeps every other character, in order. */
  lemma {:induction false} RemoveCharKeepsOthers(s: string, c: char)
    ensures c !in s ==> RemoveChar(s, c) == s
    ensures RemoveChar(RemoveChar(s, c), c) == RemoveChar(s, c)
  {
    if s != [] {
      RemoveCharKeepsOthers(s[1..], c);
      RemoveCharNoop(RemoveChar(s[1..], c), c);
    }
  }

  lemma {:induction false} RemoveCharNoop(s: string, c: char)
    requires c !in s
    ensures RemoveChar(s, c) == s
  {
    if s != [] {
      RemoveCharNoop(s[1..], c);
    }
  }

  /** Removal works piece by piece. */
  lemma {:induction false} RemoveCharAppend(a: string, b: string, c: char)
    ensures RemoveChar(a + b, c) == RemoveChar(a, c) + RemoveChar(b, c)
  {
    if a != [] {
      assert (a + b)[1..] == a[1..] + b;
      RemoveCharAppend(a[1..], b, c);
    } else {
      assert a + b == b;
    }
  }

  predicate IsAsciiDigit(c: char)
  {
    '0' <= c <= '9'
  }

  /** Python's `s.isdigit()` over ASCII: non-empty and all digits. */
  predicate IsDigits(s: string)
  {
    |s| > 0 && forall i :: 0 <= i < |s| ==> IsAsciiDigit(s[i])
  }
}

=== FILE: validators.dfy ===
/** `validators`: the checks applied to request arguments — a six-digit
    stock symbol, an ISO date range, and page numbers. A check that
    rejects its input raises `ValidationError`; here it is a `Failure`
    carrying the message. */
module Validators {
  import opened Wrappers
  import opened Text
  import opened Values
  import Dates

  const EmptySymbol := "股票代码不能为空"
  const BadSymbol := "股票代码格式不正确，应为6位数字"
  const BadDateFormat := "日期格式不正确，应为 YYYY-MM-DD"
  const ReversedRange := "开始日期不能晚于结束日期"
  const NotInteger := "分页参数必须为整数"
  const BadPage := "页码必须大于0"
  const BadPageSize := "每页数量必须在1-100之间"

  // ---------------------------------------------------------------- symbols

  /** `^\d{6}$` matches. */
  predicate SixDigits(s: string)
  {
    |s| == 6 && IsDigits(s)
  }

  /** `validate_stock_symbol`: a non-empty string, stripped, of exactly six
      digits. */
  function ValidateStockSymbol(symbol: Value): (r: Result<string>)
    ensures r == Failure(EmptySymbol) <==> !(symbol.Text? && symbol.s != "")
    ensures r.Success? <==> symbol.Text? && symbol.s != "" && SixDigits(Strip(symbol.s))
    ensures r.Success? ==> r.value == Strip(symbol.s) && SixDigits(r.value)
    ensures r.Failure? ==> r.error == EmptySymbol || r.error == BadSymbol
  {
    if !Truthy(symbol) || !symbol.Text? then Failure(EmptySymbol)
    else
      var s := Strip(symbol.s);
      if SixDigits(s) then Success(s) else Failure(BadSymbol)
  }

  /** A string without surrounding white space is its own strip. */
  lemma StripNoSpace(s: string)
    requires s == [] || (!IsSpace(s[0]) && !IsSpace(s[|s| - 1]))
    ensures Strip(s) == s
  {
    TrimLeftNoop(s);
    TrimRightNoop(s);
  }

  /** An accepted symbol is accepted again unchanged. */
  lemma SymbolIdempotent(symbol: Value)
    requires ValidateStockSymbol(symbol).Success?
    ensures ValidateStockSymbol(Text(ValidateStockSymbol(symbol).value)) == ValidateStockSymbol(symbol)
  {
    var s := ValidateStockSymbol(symbol).value;
    StripNoSpace(s);
  }

  /** Surrounding white space does not change the verdict on a non-blank
      symbol. */
  lemma SymbolIgnoresPadding(s: string)
    requires Strip(s) != ""
    ensures ValidateStockSymbol(Text(" " + s + "\n")) == ValidateStockSymbol(Text(s))
  {
    StripPadded(s);
  }

  /** Six digits with nothing around them are accepted as they are. */
  lemma SixDigitsAccepted(s: string)
    requires SixDigits(s)
    ensures ValidateStockSymbol(Text(s)) == Success(s)
  {
    DigitNotSpace(s[0]);
    DigitNotSpace(s[5]);
    StripNoSpace(s);
    assert Truthy(Text(s));
  }

  lemma DigitNotSpace(c: char)
    requires IsAsciiDigit(c)
    ensures !IsSpace(c)
  {
  }

  lemma SymbolAccepted()
    ensures ValidateStockSymbol(Text("600000")) == Success("600000")
  {
    var six := "600000";
    assert forall i :: 0 <= i < |six| ==> IsAsciiDigit(six[i]);
    SixDigitsAccepted(six);
  }

  lemma SymbolRejected()
    ensures ValidateStockSymbol(Text("60000")) == Failure(BadSymbol)
    ensures ValidateStockSymbol(Text("")) == Failure(EmptySymbol)
    ensures ValidateStockSymbol(Num(600000.0)) == Failure(EmptySymbol)
    ensures ValidateStockSymbol(Null) == Failure(EmptySymbol)
  {
    var five := "60000";
    assert five[0] == '6' && five[4] == '0';
    StripNoSpace(five);
  }

  // ---------------------------------------------------------------- date ranges

  /** A date argument is given when it is a non-empty string. */
  predicate GivenDate(d: Option<string>)
  {
    d.Some? && d.value != ""
  }

  /** The parsed date of a given argument; `None` for one not given. */
  function DateOf(d: Option<string>): Option<int>
  {
    if GivenDate(d) then Dates.ParseIsoDate(d.value) else None
  }

  /** A given date that `strptime` rejects. */
  predicate Unparsable(d: Option<string>)
  {
    GivenDate(d) && Dates.ParseIsoDate(d.value).None?
  }

  /** `validate_date_range`: each given date must be `YYYY-MM-DD`, and the
      start may not come after the end. */
  function ValidateDateRange(start: Option<string>, end: Option<string>): (r: Result<(Option<int>, Option<int>)>)
    ensures r == Failure(BadDateFormat) <==> Unparsable(start) || Unparsable(end)
    ensures r == Failure(ReversedRange) <==>
              !Unparsable(start) && !Unparsable(end) && GivenDate(start) && GivenDate(end)
              && DateOf(start).value > DateOf(end).value
    ensures r.Success? ==> (r.value.0.Some? <==> GivenDate(start)) && (r.value.1.Some? <==> GivenDate(end))
    ensures r.Success? && r.value.0.Some? && r.value.1.Some? ==> r.value.0.value <= r.value.1.value
  {
    if Unparsable(start) || Unparsable(end) then Failure(BadDateFormat)
    else
      var s := DateOf(start);
      var e := DateOf(end);
      if s.Some? && e.Some? && s.value > e.value then Failure(ReversedRange)
      else Success((s, e))
  }

  /** The dates a range validation returns are spelled exactly as given. */
  lemma ValidatedDatesSpellInput(start: Option<string>, end: Option<string>)
    requires ValidateDateRange(start, end).Success?
    ensures var r := ValidateDateRange(start, end).value;
            && (r.0.Some? ==> Dates.IsDateCode(r.0.value) && Dates.FormatIsoDate(r.0.value) == start.value)
            && (r.1.Some? ==> Dates.IsDateCode(r.1.value) && Dates.FormatIsoDate(r.1.value) == end.value)
  {
    var r := ValidateDateRange(start, end).value;
    if r.0.Some? {
      Dates.FormatParse(start.value);
    }
    if r.1.Some? {
      Dates.FormatParse(end.value);
    }
  }

  /** Two formatted days form a valid range exactly when the first is not
      later than the second. */
  lemma DateRangeOfDays(a: Dates.DateCode, b: Dates.DateCode)
    ensures ValidateDateRange(Some(Dates.FormatIsoDate(a)), Some(Dates.FormatIsoDate(b))) ==
              if a <= b then Success((Some(a), Some(b))) else Failure(ReversedRange)
  {
    Dates.ParseFormat(a);
    Dates.ParseFormat(b);
  }

  // ---------------------------------------------------------------- pagination

  /** A page argument: absent, an integer, or a query-string value. */
  datatype PageArg = Absent | IntArg(n: int) | StrArg(s: string)

  predicate TruthyArg(a: PageArg)
  {
    match a
    case Absent => false
    case IntArg(n) => n != 0
    case StrArg(s) => s != ""
  }

  /** The value of a run of ASCII digits. */
  function DigitsValue(s: string): (r: nat)
    requires forall i :: 0 <= i < |s| ==> IsAsciiDigit(s[i])
    decreases |s|
  {
    if s == [] then 0 else 10 * DigitsValue(s[..|s| - 1]) + Dates.DigitValue(s[|s| - 1])
  }

  /** Python's `int(s)` on a string: surrounding white space, an optional
      sign, then decimal digits. */
  function ParseInt(s: string): (r: Option<int>)
    ensures r.Some? ==> Strip(s) != ""
  {
    var t := Strip(s);
    if t != [] && (t[0] == '+' || t[0] == '-') && IsDigits(t[1..]) then
      var v: int := DigitsValue(t[1..]);
      Some(if t[0] == '-' then -v else v)
    else if IsDigits(t) then Some(DigitsValue(t))
    else None
  }

  /** `str(n)` for a natural number. */
  function Decimal(n: nat): (r: string)
    ensures IsDigits(r)
  {
    if n < 10 then [Dates.Digit(n)] else Decimal(n / 10) + [Dates.Digit(n % 10)]
  }

  /** `str(n)`. */
  function IntToString(n: int): string
  {
    if n < 0 then "-" + Decimal(-n) else Decimal(n)
  }

  lemma {:induction false} DecimalValue(n: nat)
    ensures DigitsValue(Decimal(n)) == n
  {
    if n >= 10 {
      var init := Decimal(n / 10);
      var s := init + [Dates.Digit(n % 10)];
      assert s[..|s| - 1] == init;
      DecimalValue(n / 10);
    }
  }

  /** `int(str(n)) == n`. */
  lemma ParseIntToString(n: int)
    ensures ParseInt(IntToString(n)) == Some(n)
  {
    if n < 0 {
      ParseNegative(-n);
    } else {
      ParseDecimal(n);
    }
  }

  lemma ParseDecimal(n: nat)
    ensures ParseInt(IntToString(n)) == Some(n)
  {
    ParseDigits(Decimal(n));
    DecimalValue(n);
  }

  lemma ParseNegative(n: nat)
    requires n > 0
    ensures ParseInt(IntToString(-(n as int))) == Some(-(n as int))
  {
    var s := "-" + Decimal(n);
    assert s[1..] == Decimal(n);
    ParseMinusDigits(s);
    DecimalValue(n);
  }

  /** A run of digits is read as its value. */
  lemma ParseDigits(s: string)
    requires IsDigits(s)
    ensures ParseInt(s) == Some(DigitsValue(s))
  {
    DigitNotSpace(s[0]);
    DigitNotSpace(s[|s| - 1]);
    StripNoSpace(s);
  }

  /** A minus sign before a run of digits negates its value. */
  lemma ParseMinusDigits(s: string)
    requires |s| > 1 && s[0] == '-' && IsDigits(s[1..])
    ensures ParseInt(s) == Some(-(DigitsValue(s[1..]) as int))
  {
    assert s[|s| - 1] == s[1..][|s| - 2];
    DigitNotSpace(s[|s| - 1]);
    assert !IsSpace(s[0]);
    StripNoSpace(s);
    var v: int := DigitsValue(s[1..]);
    assert ParseInt(s) == Some(-v);
  }

  /** `int(a) if a else default`, or `None` when `int` raises. */
  function PageValue(a: PageArg, default: int): (r: Option<int>)
    ensures !TruthyArg(a) ==> r == Some(default)
    ensures a.IntArg? ==> r.Some?
  {
    if !TruthyArg(a) then Some(default)
    else
      match a
      case IntArg(n) => Some(n)
      case StrArg(s) => ParseInt(s)
      case Absent => Some(default)
  }

  const DefaultPage := 1
  const DefaultPageSize := 20
  const MaxPageSize := 100

  /** `validate_pagination`. */
  function ValidatePagination(page: PageArg, pageSize: PageArg): (r: Result<(int, int)>)
    ensures r.Success? ==> r.value.0 >= 1 && 1 <= r.value.1 <= MaxPageSize
    ensures r.Success? ==>
              && PageValue(page, DefaultPage).Some? && PageValue(pageSize, DefaultPageSize).Some?
              && r.value == (PageValue(page, DefaultPage).value, PageValue(pageSize, DefaultPageSize).value)
    ensures r == Failure(NotInteger) <==> PageValue(page, DefaultPage).None? || PageValue(pageSize, DefaultPageSize).None?
    ensures r.Failure? ==> r.error in {NotInteger, BadPage, BadPageSize}
    ensures PageValue(page, DefaultPage).Some? && PageValue(pageSize, DefaultPageSize).Some? ==>
              var p := PageValue(page, DefaultPage).value;
              var q := PageValue(pageSize, DefaultPageSize).value;
              && (r.Success? <==> p >= 1 && 1 <= q <= MaxPageSize)
              && (r == Failure(BadPage) <==> p < 1)
              && (r == Failure(BadPageSize) <==> p >= 1 && (q < 1 || q > MaxPageSize))
  {
    var p := PageValue(page, DefaultPage);
    var q := PageValue(pageSize, DefaultPageSize);
    if p.None? || q.None? then Failure(NotInteger)
    else if p.value < 1 then Failure(BadPage)
    else if q.value < 1 || q.value > MaxPageSize then Failure(BadPageSize)
    else Success((p.value, q.value))
  }

  /** Integer arguments: zero means the default, anything else must be in
      range. */
  lemma PaginationOfInts(p: int, s: int)
    ensures ValidatePagination(IntArg(p), IntArg(s)).Success? <==>
              (p == 0 || p >= 1) && (s == 0 || 1 <= s <= MaxPageSize)
    ensures ValidatePagination(IntArg(p), IntArg(s)).Success? ==>
              ValidatePagination(IntArg(p), IntArg(s)).value ==
                (if p == 0 then DefaultPage else p, if s == 0 then DefaultPageSize else s)
  {
  }

  /** Query-string arguments: the text of a number is accepted exactly when
      the number is in range, so `"0"` is rejected where the integer `0`
      falls back to the default. */
  lemma PaginationOfStrings(p: int, s: int)
    ensures ValidatePagination(StrArg(IntToString(p)), StrArg(IntToString(s))) ==
              if p < 1 then Failure(BadPage)
              else if s < 1 || s > MaxPageSize then Failure(BadPageSize)
              else Success((p, s))
  {
    PageValueOfString(p, DefaultPage);
    PageValueOfString(s, DefaultPageSize);
  }

  /** The text of a number is read as that number, never as the default. */
  lemma PageValueOfString(n: int, default: int)
    ensures PageValue(StrArg(IntToString(n)), default) == Some(n)
  {
    ParseIntToString(n);
    assert IntToString(n) != "";
  }

  lemma PaginationDefaults()
    ensures ValidatePagination(Absent, Absent) == Success((DefaultPage, DefaultPageSize))
    ensures ValidatePagination(StrArg(""), IntArg(0)) == Success((DefaultPage, DefaultPageSize))
  {
  }

  /** A text that does not start with a sign or a digit is not a number. */
  lemma ParseIntRejects(s: string)
    requires Strip(s) != [] && Strip(s)[0] != '+' && Strip(s)[0] != '-' && !IsAsciiDigit(Strip(s)[0])
    ensures ParseInt(s) == None
  {
    assert !IsDigits(Strip(s));
  }

  /** A page argument that is a word rather than a number is refused as
      not an integer. */
  lemma PaginationRejectsWord(w: string)
    requires w != [] && !IsSpace(w[0]) && !IsSpace(w[|w| - 1])
    requires w[0] != '+' && w[0] != '-' && !IsAsciiDigit(w[0])
    ensures ValidatePagination(StrArg(w), Absent) == Failure(NotInteger)
  {
    StripNoSpace(w);
    ParseIntRejects(w);
  }
}

=== FILE: values.dfy ===
/** The dynamically typed dictionaries the source passes around
    (`stock_data`, quote rows, filter dictionaries), and Python's
    comparison of their values, including the `TypeError` it raises when a
    string meets a number or `None`. */
module Values {
  import opened Wrappers
  import opened Ordering

  /** A dictionary value: an int or float, a bool, a string, or `None`. */
  datatype Value = Num(n: real) | Flag(b: bool) | Text(s: string) | Null

  type Record = map<string, Value>

  /** Python truthiness of a value. */
  predicate Truthy(v: Value)
  {
    match v
    case Num(n) => n != 0.0
    case Flag(b) => b
    case Text(s) => s != ""
    case Null => false
  }

  /** `d.get(k, default)`. */
  function Get(d: Record, k: string, default: Value): Value
  {
    if k in d then d[k] else default
  }

  /** The number Python's arithmetic sees in a value (a bool is 0 or 1). */
  function Numeric(v: Value): Option<real>
  {
    match v
    case Num(n) => Some(n)
    case Flag(b) => Some(if b then 1.0 else 0.0)
    case _ => None
  }

  /** The key Python's `sorted` compares, or None for `None`, which no
      comparison accepts. */
  function SortKey(v: Value): Option<Key>
  {
    match v
    case Num(n) => Some(NumKey(n))
    case Flag(b) => Some(NumKey(if b then 1.0 else 0.0))
    case Text(s) => Some(TextKey(s))
    case Null => None
  }

  /** An operand of a comparison: a dictionary value or one of the float
      infinities the source uses as default bounds. */
  datatype Operand = Val(v: Value) | PosInf | NegInf

  /** A number on the extended real line. */
  datatype Extended = Finite(x: real) | Infinite(positive: bool)

  function AsExtended(o: Operand): Option<Extended>
  {
    match o
    case PosInf => Some(Infinite(true))
    case NegInf => Some(Infinite(false))
    case Val(v) => if Numeric(v).Some? then Some(Finite(Numeric(v).value)) else None
  }

  predicate ExtendedLe(a: Extended, b: Extended)
  {
    match (a, b)
    case (Infinite(p), Infinite(q)) => !p || q
    case (Infinite(p), Finite(_)) => !p
    case (Finite(_), Infinite(q)) => q
    case (Finite(x), Finite(y)) => x <= y
  }

  /** Python's `a <= b`: numbers (and infinities) compare numerically,
      strings lexicographically; any other pairing raises `TypeError`. */
  function PyLe(a: Operand, b: Operand): (r: Result<bool>)
    ensures r.Failure? <==> (AsExtended(a).None? || AsExtended(b).None?)
                            && !(a.Val? && a.v.Text? && b.Val? && b.v.Text?)
  {
    if AsExtended(a).Some? && AsExtended(b).Some? then
      Success(ExtendedLe(AsExtended(a).value, AsExtended(b).value))
    else if a.Val? && a.v.Text? && b.Val? && b.v.Text? then
      Success(a.v.s == b.v.s || StrLt(a.v.s, b.v.s))
    else
      Failure("TypeError: '<=' not supported")
  }
}

=== FILE: wrappers.dfy ===
/** Failure-compatible wrappers used across the model: an optional value
    (Python's `None` or a value) and a result that is either a value or the
    message of the exception the source would have raised. */
module Wrappers {

  datatype Option<+T> = None | Some(value: T) {

    /** The wrapped value, or `default` when there is none. */
    function GetOr(default: T): T {
      match this
      case Some(v) => v
      case None => default
    }
  }

  datatype Result<+T> = Success(value: T) | Failure(error: string) {

    predicate IsFailure() {
      Failure?
    }

    function PropagateFailure<U>(): Result<U>
      requires Failure?
    {
      Failure(error)
    }

    function Extract(): T
      requires Success?
    {
      value
    }
  }
}
